=== FILE: README.md ===
# Skript syntax registration, modelled in Dafny

This project models how Skript describes and registers its syntax
elements. It covers:

- the immutable descriptors (`SyntaxInfo` and its expression, structure and
  event forms, in the three generations the repository carries);
- the pattern text transforms used by Bukkit events;
- the derivation of an event's display name and documentation id;
- `Priority` and the expression priority packing;
- the lazily drawn info ids;
- the builders;
- the registers and registries, with their freeze and duplicate-id rules;
- the keys that index them;
- the `SkriptImpl` lifecycle;
- the old-style `SyntaxElementInfo`/`StructureInfo` conversions;
- the legacy `BukkitOrigin`;
- the debugger list.

Each source file is its own module, written against abstract descriptor
and key types, because the iterations in the repository do not compile
together. The modules are:

- `EventPatterns`, `EventNames`, `BukkitEvents`, `BukkitEventsOlder`,
  `BukkitInfoEvents` and `EventInfoBuilders`;
- `Priorities`, `PackedPriorities` and `Int32s`;
- `SyntaxInfos`, `DefaultSyntaxInfos` and `SyntaxInfoBuilders`;
- `SyntaxRegisters`, `Keys`, `KeyedRegistries` and `QueueRegistries`;
- `RootKeys`, `RootRegistries` and `RootInfos`;
- `Lifecycle`, `LegacyInfos`, `LegacyOrigins` and `Debuggers`.

Modelling choices:

- **Values, not objects.** Objects become immutable datatypes. Mutation becomes
  a function from the old value to the new one.
- **Exceptions** become the `Outcomes.Error` alternatives inside a `Result`
  or an `Option`.
- **Reflection** (`isAnnotation`/`isArray`/`isPrimitive`) becomes the
  abstract `TypeKind` of a `TypeTag`.
- **Object identity** is a `handle` field. It is used where a class keeps
  `Object.equals`: root infos, `BukkitInfosImpl.EventImpl`, plugin and legacy
  origins, and the root registry keys.
- **Process-wide counters** are explicit 32-bit state with wrap-around: the
  `Priority` counter and `SyntaxInfoImpl.IOTA`.

Calls into code outside the model become parameters or logged effects:

- A module's `load` is a function parameter. It returns the registry as
  the module left it, and possibly the exception it threw.
- Closing the registry is a function parameter. It returns the registry
  as closing left it, and possibly the exception it threw.
- `Language.loadDefault`, `Converters.createChainedConverters` and
  `Classes.onRegistrationsStop` are entries in an effect log.
- A debugger's response to `onParse` or `onWalk` is a function parameter.
  It returns the exception the debugger threw, if any.
- The outcome of the nullary-constructor lookup is a parameter.
- The name of `SyntaxOrigin.UNKNOWN` is a parameter.

Behaviour of the code worth knowing before reading the contracts:

- **`fixPattern` is idempotent.** It looks at the two characters after an
  opening `%` before inserting a dash, so applying it to its own output
  inserts nothing more (`EventPatterns.FixPatternIdempotent`).
- **The id of `*join` is `*join`.** The id is derived from the raw name, and
  `*` is not among the characters it strips (`EventNames.StarNameExample`).
- **`updateState` does not check direction.** It assigns whatever state it
  is given, including an earlier one (`Lifecycle.StateCanMoveBackward`).
- **Chained converters.** `updateState` creates them on
  `ENDED_REGISTRATION`; moving to `CLOSED_REGISTRATION` closes the registry
  and notifies `Classes` instead.
- **`LegacyEventImpl`'s origin.** It names a `BukkitOrigin` of its own
  package. That class has no `of(String)` and no `equals`, so the origin is
  a new object compared by identity.
- **Root registry keys.** `Key.equals` accepts only a `String`. The hash map
  still finds an entry under the very key object it was stored with,
  because it checks identity first. So the root registry keys its map by key
  object, and two `Key.key("x")` objects get separate registries.

## Model

| member | source | states |
|---|---|---|
| EventPatterns.FixPatternLoop | src/main/java/org/skriptlang/skript/bukkit/registration/BukkitInfos.java:292-315 | the index loop of `fixPattern`, which consumes one character per iteration (two after a backslash) and carries the `inType` flag, returns the same string as the suffix-recursive definition of the fix |
| EventPatterns.FixFromSuffix | src/main/java/org/skriptlang/skript/bukkit/registration/BukkitInfos.java:297-313 | running the loop from index `i` with a given type flag emits exactly what the suffix-recursive fix emits for the rest of the pattern from `i` |
| EventPatterns.FixPatternIsInsertion | src/main/java/org/skriptlang/skript/bukkit/registration/BukkitInfos.java:297-315 | the result is the input with a dash inserted after exactly the marked positions: an opening `%` with two more characters after it, neither of them `-` |
| EventPatterns.FixPattern | src/main/java/org/skriptlang/skript/bukkit/registration/BukkitInfos.java:292-315 | `fixPattern` inserts a dash after exactly the marked positions and changes nothing else, so deleting those dashes gives back the input |
| EventPatterns.ClosingPercentNotMarked | src/main/java/org/skriptlang/skript/bukkit/registration/BukkitInfos.java:301-308 | a `%` that closes a type span gets no dash and leaves the scan outside a type |
| EventPatterns.EscapeCopiesVerbatim | src/main/java/org/skriptlang/skript/bukkit/registration/BukkitInfos.java:309-312 | a backslash and the character after it are copied without a dash, and the escaped character does not toggle the type flag |
| EventPatterns.NoPercentFixPatternUnchanged | src/main/java/org/skriptlang/skript/bukkit/registration/BukkitInfos.java:297-315 | a pattern without `%` is returned unchanged |
| EventPatterns.FixPatternIdempotent | src/main/java/org/skriptlang/skript/bukkit/registration/BukkitInfos.java:303-308 | applying `fixPattern` to its own output inserts nothing more |
| EventPatterns.TypeSpanGetsDash | src/main/java/org/skriptlang/skript/bukkit/registration/BukkitInfos.java:301-308 | a type span `%name%` followed by text without `%` gets a dash after its opening `%` whenever the name starts with neither one nor two dashes, as in `%number% test` becoming `%-number% test`; nothing else changes |
| EventPatterns.MarkedTypeSpanUnchanged | src/main/java/org/skriptlang/skript/bukkit/registration/BukkitInfos.java:301-308 | a type span whose name already starts with `-`, as in `%-number% test`, is left unchanged |
| EventPatterns.EscapedPercentExample | src/main/java/org/skriptlang/skript/bukkit/registration/BukkitInfos.java:309-312 | `\%not a type\%` is left unchanged |
| EventPatterns.EventPattern | src/main/java/org/skriptlang/skript/bukkit/registration/BukkitSyntaxInfos.java:74-76 | an event pattern starts with `[on] `, ends with the priority suffix, has length 5 + fixed pattern + suffix, and unframes to the fixed pattern |
| EventPatterns.PlayerPatternExample | src/main/java/org/skriptlang/skript/bukkit/registration/BukkitSyntaxInfos.java:75 | `%player%` becomes `[on] %-player% [with priority (lowest\|low\|normal\|high\|highest\|monitor)]` |
| EventNames.DisplayName | src/main/java/org/skriptlang/skript/bukkit/registration/BukkitInfosImpl.java:63 | a leading `*` is dropped, and only it; any other name gets `On ` in front |
| EventNames.DocumentationId | src/main/java/org/skriptlang/skript/bukkit/registration/BukkitInfosImpl.java:64-66 | every derived id is free of whitespace, of the characters `#'"<>/&` and of upper-case letters |
| EventNames.DocumentationIdIdempotent | src/main/java/org/skriptlang/skript/bukkit/registration/BukkitInfosImpl.java:64-66 | deriving an id from an id gives it back |
| EventNames.StripCharsConcat | src/main/java/org/skriptlang/skript/bukkit/registration/BukkitInfosImpl.java:65 | removing the listed characters works piece by piece: stripping a concatenation is the concatenation of the stripped pieces |
| EventNames.StripCharsSingle | src/main/java/org/skriptlang/skript/bukkit/registration/BukkitInfosImpl.java:65 | a single character is removed exactly when it is one of `#'"<>/&` |
| EventNames.CollapseRun | src/main/java/org/skriptlang/skript/bukkit/registration/BukkitInfosImpl.java:66 | a maximal whitespace run between two non-whitespace characters becomes exactly one `_`, and the text on each side is collapsed on its own |
| EventNames.CollapseKeepsSignificant | src/main/java/org/skriptlang/skript/bukkit/registration/BukkitInfosImpl.java:66 | the whitespace collapse keeps every other character, in order |
| EventNames.StarNameExample | src/main/java/org/skriptlang/skript/bukkit/registration/BukkitInfosImpl.java:63-66 | `*join` has display name `join` and id `*join` |
| EventNames.AmpersandExample | src/main/java/org/skriptlang/skript/bukkit/registration/BukkitInfosImpl.java:63-66 | `A & B` has display name `On A & B` and id `a_b`, because removal runs before the collapse |
| BukkitEvents.Of | src/main/java/org/skriptlang/skript/bukkit/registration/BukkitSyntaxInfos.java:38-45 | `Event.of` keeps all twelve arguments, frames each pattern in order, and leaves the entry validator null |
| BukkitEvents.FramePatternsUnframe | src/main/java/org/skriptlang/skript/bukkit/registration/BukkitSyntaxInfosImpl.java:57-58 | each stored pattern is the matching input pattern, framed, at the same index |
| BukkitEvents.EqualsIgnoresDocumentation | src/main/java/org/skriptlang/skript/bukkit/registration/BukkitSyntaxInfosImpl.java:117-126 | `equals` is an equivalence that holds exactly when origin, class, patterns and name agree |
| BukkitEvents.HashContractBroken | src/main/java/org/skriptlang/skript/bukkit/registration/BukkitSyntaxInfosImpl.java:117-131 | two descriptors that differ only in their events are `equals` but feed different values to `hashCode` |
| BukkitEvents.HashCorrectedConsistent | src/main/java/org/skriptlang/skript/bukkit/registration/BukkitSyntaxInfosImpl.java:117-126 | with the events left out of the hash, `equals` holds exactly when the hash inputs agree |
| BukkitEvents.Legacy | src/main/java/org/skriptlang/skript/bukkit/registration/BukkitSyntaxInfosImpl.java:150-209 | a legacy descriptor takes the old info's patterns unframed and its fields as they are; a null documentation array reads as an empty list |
| BukkitEvents.LegacyPatternsUnframed | src/main/java/org/skriptlang/skript/bukkit/registration/BukkitSyntaxInfosImpl.java:150-153 | at every index a legacy descriptor's pattern is shorter than the framed one, which unframes to it canonicalised, so a non-empty pattern list is never the framed list |
| BukkitEvents.LegacyOriginIdentity | src/main/java/org/skriptlang/skript/bukkit/registration/BukkitSyntaxInfosImpl.java:150-154 | two legacy views of one info are not `equals`, because each makes its own origin object |
| BukkitEventsOlder.PatternAgrees | src/main/java/org/skriptlang/skript/bukkit/registration/BukkitSyntaxInfoImpl.java:86-88 | the older private `pattern` frames exactly as `BukkitSyntaxInfos.pattern` does |
| BukkitEventsOlder.NewEvent | src/main/java/org/skriptlang/skript/bukkit/registration/BukkitSyntaxInfoImpl.java:39-47 | patterns are framed in order, the entry validator is null, and the name and events are kept |
| BukkitEventsOlder.EqualsIgnoresEvents | src/main/java/org/skriptlang/skript/bukkit/registration/BukkitSyntaxInfoImpl.java:59-68 | `equals` holds exactly when everything but the events agrees |
| BukkitEventsOlder.HashContractBroken | src/main/java/org/skriptlang/skript/bukkit/registration/BukkitSyntaxInfoImpl.java:59-73 | `equals` descriptors with different events feed different values to `hashCode` |
| BukkitEventsOlder.HashCorrectedConsistent | src/main/java/org/skriptlang/skript/bukkit/registration/BukkitSyntaxInfoImpl.java:59-68 | with the events left out of the hash, `equals` holds exactly when the hash inputs agree |
| BukkitInfoEvents.NewEvent | src/main/java/org/skriptlang/skript/bukkit/registration/BukkitInfosImpl.java:57-74 | the event keeps the documentation fields given and derives its name and a clean id from the raw name |
| BukkitInfoEvents.StarKeptInId | src/main/java/org/skriptlang/skript/bukkit/registration/BukkitInfosImpl.java:63-66 | a raw name starting with `*` loses the star in the display name but keeps it in the id |
| BukkitInfoEvents.EqualsIsIdentity | src/main/java/org/skriptlang/skript/bukkit/registration/BukkitInfosImpl.java:123-130 | two events built from identical arguments are not equal unless they are the same object |
| BukkitInfoEvents.AddAllIsRepeatedAdd | src/main/java/org/skriptlang/skript/bukkit/registration/BukkitInfosImpl.java:216-304 | adding a collection equals adding its elements one by one in order |
| BukkitInfoEvents.SetEntryValidator | src/main/java/org/skriptlang/skript/bukkit/registration/BukkitInfosImpl.java:306-309 | setting an entry validator on the builder always fails as unsupported |
| BukkitInfoEvents.ScalarSettersLastWins | src/main/java/org/skriptlang/skript/bukkit/registration/BukkitInfosImpl.java:203-215 | after two calls of `since` or of `documentationId`, the built event holds the second value and is otherwise the event built without either call |
| BukkitInfoEvents.DefaultSettersLastWins | src/main/java/org/skriptlang/skript/bukkit/registration/BukkitInfosImpl.java:311-322 | `origin` and `supplier`, passed on to the default builder, overwrite in the same way |
| BukkitInfoEvents.Build | src/main/java/org/skriptlang/skript/bukkit/registration/BukkitInfosImpl.java:341-347 | the built event carries the accumulated since, documentation id and lists, the default builder's origin, supplier and patterns, and no entry validator |
| BukkitInfoEvents.BuildTwiceUnequal | src/main/java/org/skriptlang/skript/bukkit/registration/BukkitInfosImpl.java:123-130 | building twice from one builder gives two unequal events that differ only in identity |
| EventInfoBuilders.NewBuilder | src/main/java/org/skriptlang/skript/bukkit/registration/EventInfoBuilder.java:34-58 | a new builder has an unknown origin, no since and no documentation id, empty lists, and the given name and id |
| EventInfoBuilders.Add | src/main/java/org/skriptlang/skript/bukkit/registration/EventInfoBuilder.java:78-82 | a single adder appends one element to its own list and changes nothing else |
| EventInfoBuilders.AddAllFrame | src/main/java/org/skriptlang/skript/bukkit/registration/EventInfoBuilder.java:84-196 | adding to one list leaves every other list, the events and the origin alone |
| EventInfoBuilders.AddAllConcat | src/main/java/org/skriptlang/skript/bukkit/registration/EventInfoBuilder.java:84-96 | two collection adds equal one add of the concatenation |
| EventInfoBuilders.SinceLastWins | src/main/java/org/skriptlang/skript/bukkit/registration/EventInfoBuilder.java:66-70 | the last `since` call wins, and the built descriptor differs from the one built without either call only in its since |
| EventInfoBuilders.OriginAndIdLastWins | src/main/java/org/skriptlang/skript/bukkit/registration/EventInfoBuilder.java:60-76 | the last `origin` and the last `documentationId` call win in the same way, changing nothing else |
| EventInfoBuilders.Build | src/main/java/org/skriptlang/skript/bukkit/registration/EventInfoBuilder.java:198-202 | `build` passes every field to `Event.of`, so the patterns come out framed and the rest unchanged |
| EventInfoBuilders.BuildDefaults | src/main/java/org/skriptlang/skript/bukkit/registration/EventInfoBuilder.java:39-58 | building straight after adding patterns gives the default origin, null since and id, and empty lists |
| Priorities.CompareTo | src/main/java/org/skriptlang/skript/lang/Priority.java:55-58 | the order of two priorities is the order of their values |
| Priorities.CompareToOrder | src/main/java/org/skriptlang/skript/lang/Priority.java:55-58 | `compareTo` is antisymmetric and transitive |
| Priorities.EqualsConsistent | src/main/java/org/skriptlang/skript/lang/Priority.java:60-74 | `equals` is an equivalence, agrees with `compareTo` and `hashCode`, and needs the same class and value |
| Priorities.Draw | src/main/java/org/skriptlang/skript/lang/Priority.java:39-45 | a no-argument priority is a plain priority whose value is the counter's current value, and the counter moves on by one unless it is at `Integer.MAX_VALUE` |
| Priorities.StructurePriorityNotEqual | src/main/java/org/skriptlang/skript/lang/structure/Structure.java:71-75 | a `Structure.Priority` and a `Priority` with one value compare as 0 but are not `equals` |
| Priorities.SkriptEventBeforeDefault | src/main/java/ch/njol/skript/lang/SkriptEvent.java:53 | the Skript event priority, 600, sorts before the structure default, 1000 |
| Priorities.DrawMany | src/main/java/org/skriptlang/skript/lang/Priority.java:39-45 | successive no-argument priorities take consecutive, strictly increasing values from the shared counter |
| Priorities.DrawWraps | src/main/java/org/skriptlang/skript/lang/Priority.java:39-45 | at `Integer.MAX_VALUE` the counter wraps, and the next priority sorts first |
| PackedPriorities.Packed | src/main/java/org/skriptlang/skript/registration/DefaultSyntaxInfosImpl.java:96 | for a base below 2^24 and an ordinal below 128, `base \| ordinal << 24` is `ordinal * 2^24 + base` |
| PackedPriorities.PackedLexicographic | src/main/java/org/skriptlang/skript/registration/DefaultSyntaxInfosImpl.java:94-97 | for a base below 2^24 and an ordinal below 128, packed values order and agree as the pairs (ordinal, base) do |
| PackedPriorities.PackedCollision | src/main/java/org/skriptlang/skript/registration/DefaultSyntaxInfosImpl.java:96 | (ordinal 1, base 0) and (ordinal 0, base 2^24) pack to the same value |
| PackedPriorities.PackedOverflow | src/main/java/org/skriptlang/skript/registration/DefaultSyntaxInfosImpl.java:96 | ordinal 128 shifts into the sign bit, and ordinal 256 shifts out entirely |
| SyntaxInfos.NewExpression | src/main/java/org/skriptlang/skript/registration/SyntaxInfoImpl.java:105-115 | construction fails with an illegal argument exactly when the return type is an annotation, array or primitive |
| SyntaxInfos.EqualsWithinClass | src/main/java/org/skriptlang/skript/registration/SyntaxInfoImpl.java:74-88 | within one class, `equals` is an equivalence consistent with the hash of origin, type and patterns |
| SyntaxInfos.PlainStructureAsymmetry | src/main/java/org/skriptlang/skript/registration/SyntaxInfoImpl.java:74-83 | a plain info equals a structure info with the same base, but not conversely |
| SyntaxInfos.StructureEqualsNullSafe | src/main/java/org/skriptlang/skript/registration/SyntaxInfoImpl.java:182-192 | structures are equal exactly when their base and their possibly-null entry validators agree |
| SyntaxInfos.PriorityStable | src/main/java/org/skriptlang/skript/registration/SyntaxInfoImpl.java:67-72 | the first `priority()` call draws an id, and a later call returns the same id and changes nothing |
| SyntaxInfos.FirstCallOrder | src/main/java/org/skriptlang/skript/registration/SyntaxInfoImpl.java:69-70 | ids follow the order of first `priority()` calls |
| SyntaxInfos.SentinelRedraw | src/main/java/org/skriptlang/skript/registration/SyntaxInfoImpl.java:37-38 | an info that draws the sentinel value draws again on its next call |
| SyntaxInfos.PriorityCalls | src/main/java/org/skriptlang/skript/registration/SyntaxInfoImpl.java:67-72 | over any sequence of calls, each answer is the id the info keeps, drawn ids never change, and the table stays consistent |
| SyntaxInfos.ExpressionPriority | src/main/java/org/skriptlang/skript/registration/SyntaxInfoImpl.java:154-157 | an expression's priority is its base id packed with the expression type's ordinal |
| DefaultSyntaxInfos.NewExpression | src/main/java/org/skriptlang/skript/registration/DefaultSyntaxInfosImpl.java:45-54 | construction fails with an illegal argument exactly when the return type is an annotation, array or primitive |
| DefaultSyntaxInfos.EqualsIgnoresSupplier | src/main/java/org/skriptlang/skript/registration/DefaultSyntaxInfosImpl.java:66-76 | `equals` is an equivalence that holds exactly when everything but the supplier agrees |
| DefaultSyntaxInfos.ExpressionPriorityOrder | src/main/java/org/skriptlang/skript/registration/DefaultSyntaxInfosImpl.java:94-97 | a lower expression-type ordinal sorts first, whatever the bases |
| DefaultSyntaxInfos.BuildExpression | src/main/java/org/skriptlang/skript/registration/DefaultSyntaxInfosImpl.java:118-124 | building without an expression type is a null-pointer failure; otherwise construction's rule on the return type decides |
| DefaultSyntaxInfos.ExpressionTypeLastWins | src/main/java/org/skriptlang/skript/registration/DefaultSyntaxInfosImpl.java:99-125 | the last expression type set is the one built |
| DefaultSyntaxInfos.DefaultValidatorAbsent | src/main/java/org/skriptlang/skript/registration/DefaultSyntaxInfosImpl.java:178-198 | a structure built without a validator has none, and it is equal to the constructor's result |
| SyntaxInfoBuilders.AddPatternsSplit | src/main/java/org/skriptlang/skript/registration/SyntaxInfoBuilder.java:53-71 | adding two pattern lists equals adding their concatenation |
| SyntaxInfoBuilders.StageSnapshot | src/main/java/org/skriptlang/skript/registration/SyntaxInfoBuilder.java:73-81 | the expression and structure stages copy the patterns of their moment; later additions reach only the outer builder |
| SyntaxInfoBuilders.BuildExpression | src/main/java/org/skriptlang/skript/registration/SyntaxInfoBuilder.java:110-114 | a missing expression type is a null-pointer failure; otherwise the return-type rule decides |
| SyntaxInfoBuilders.BuildStructure | src/main/java/org/skriptlang/skript/registration/SyntaxInfoBuilder.java:138-140 | the structure carries the stage's origin, type, patterns and possibly-null validator |
| SyntaxInfoBuilders.ExpressionTypeLastWins | src/main/java/org/skriptlang/skript/registration/SyntaxInfoBuilder.java:104-108 | the last expression type set is the one the expression is built with |
| SyntaxInfoBuilders.EntryValidatorLastWins | src/main/java/org/skriptlang/skript/registration/SyntaxInfoBuilder.java:132-136 | the last entry validator set is the one the structure carries, and nothing else about the structure changes |
| SyntaxInfoBuilders.BuildFromScratch | src/main/java/org/skriptlang/skript/registration/SyntaxInfoBuilder.java:35-51 | building adds nothing to the constructor; the origin defaults to unknown |
| SyntaxRegisters.SyntaxesAscending | src/main/java/org/skriptlang/skript/registration/SyntaxRegisterImpl.java:33-39 | a live register lists its infos in strictly ascending id order |
| SyntaxRegisters.Syntaxes | src/main/java/org/skriptlang/skript/registration/SyntaxRegisterImpl.java:33-39 | a live register lists every info it holds, one per id, the i-th being the info under the i-th smallest id; a closed one lists its frozen copy |
| SyntaxRegisters.Add | src/main/java/org/skriptlang/skript/registration/SyntaxRegisterImpl.java:41-47 | a live register puts the info under its id even when the id is taken, and then fails with the duplicate-id error exactly when it was taken; a closed register refuses with "Registration is closed" and stays as it is |
| SyntaxRegisters.Close | src/main/java/org/skriptlang/skript/registration/SyntaxRegisterImpl.java:49-81 | closing a live register yields a frozen register holding its current listing; closing a frozen one is refused |
| SyntaxRegisters.AddFresh | src/main/java/org/skriptlang/skript/registration/SyntaxRegisterImpl.java:41-47 | adding under a new id succeeds, lists one more info, and keeps every other entry |
| SyntaxRegisters.AddDuplicateOverwrites | src/main/java/org/skriptlang/skript/registration/SyntaxRegisterImpl.java:44-45 | adding under a taken id fails with an illegal state, after the new info has replaced the old |
| SyntaxRegisters.SyntaxesIsCopy | src/main/java/org/skriptlang/skript/registration/SyntaxRegisterImpl.java:37 | a listing taken before an add does not show the added info |
| SyntaxRegisters.CloseFreezes | src/main/java/org/skriptlang/skript/registration/SyntaxRegisterImpl.java:49-81 | closing yields a frozen copy of the live listing; the frozen register refuses adds and closing and keeps its listing |
| Keys.EqualsConsistent | src/main/java/org/skriptlang/skript/registration/KeyImpl.java:37-48 | key `equals` is an equivalence that holds exactly when the names, which are also the hash input, agree |
| Keys.HashInput | src/main/java/org/skriptlang/skript/registration/KeyImpl.java:37-40 | the hash is taken over the name alone: the plain key made from the hash input equals the key |
| Keys.ToString | src/main/java/org/skriptlang/skript/registration/KeyImpl.java:50-53 | `toString`, like `name()`, returns the construction name, which gives back an equal key through `of` |
| Keys.ChildEqualsPlain | src/main/java/org/skriptlang/skript/registration/KeyImpl.java:55-69 | a child key equals the plain key of its name and keeps the parent it was given |
| Keys.EventKeyExample | src/main/java/org/skriptlang/skript/registry/SkriptRegistry.java:49-57 | `event` is a child of `structure`, and `condition` and `effect` are children of `statement` |
| KeyedRegistries.Syntaxes | src/main/java/org/skriptlang/skript/registration/SkriptRegistryImpl.java:34-38 | an unseen key lists nothing and gains an empty register |
| KeyedRegistries.Register | src/main/java/org/skriptlang/skript/registration/SkriptRegistryImpl.java:40-45 | registration never removes a register, and the key's own register exists afterwards, even when an ancestor's register refuses |
| KeyedRegistries.RegisterReachesLineage | src/main/java/org/skriptlang/skript/registration/SkriptRegistryImpl.java:40-45 | a successful registration puts the info under the key and every ancestor |
| KeyedRegistries.RegisterFrame | src/main/java/org/skriptlang/skript/registration/SkriptRegistryImpl.java:40-45 | registers off the key's lineage are unchanged |
| KeyedRegistries.StatementSeesConditionsAndEffects | src/main/java/org/skriptlang/skript/registration/SkriptRegistryImpl.java:40-45 | a condition or effect shows up under `statement` |
| KeyedRegistries.ChildChangedWhenParentFails | src/main/java/org/skriptlang/skript/registration/SkriptRegistryImpl.java:42-44 | when the parent register is frozen, registration fails but the child register already holds the info |
| KeyedRegistries.SameNameSharesRegister | src/main/java/org/skriptlang/skript/registration/SkriptRegistryImpl.java:51-53 | two keys with one name reach one register |
| KeyedRegistries.CloseAllFreezes | src/main/java/org/skriptlang/skript/registration/SkriptRegistryImpl.java:47-49 | closing replaces every register by its frozen copy |
| KeyedRegistries.CloseAll | src/main/java/org/skriptlang/skript/registration/SkriptRegistryImpl.java:47-49 | closing keeps the same set of keys, whether or not some register refuses |
| KeyedRegistries.CloseAllTwiceFails | src/main/java/org/skriptlang/skript/registration/SkriptRegistryImpl.java:47-49 | closing a closed registry throws "Registration is closed" at the first register and changes nothing |
| KeyedRegistries.RegisterAfterCloseFails | src/main/java/org/skriptlang/skript/registration/SkriptRegistryImpl.java:40-49 | after closing, registering under a known key fails as unsupported |
| KeyedRegistries.NewKeyAfterCloseSucceeds | src/main/java/org/skriptlang/skript/registration/SkriptRegistryImpl.java:51-53 | a key first seen after closing gets a writable register |
| QueueRegistries.Syntaxes | src/main/java/org/skriptlang/skript/registration/SyntaxRegistryImpl.java:35-39 | the listing holds each queued info once |
| QueueRegistries.Register | src/main/java/org/skriptlang/skript/registration/SyntaxRegistryImpl.java:41-46 | a live registry appends the info to its queue, duplicates included, and succeeds; a frozen one refuses with "Registration is closed" and stays as it is |
| QueueRegistries.Close | src/main/java/org/skriptlang/skript/registration/SyntaxRegistryImpl.java:48-82 | closing leaves the live registry empty and returns a frozen registry whose set holds exactly the queued infos; a frozen registry refuses |
| QueueRegistries.RegisterDuplicateInvisible | src/main/java/org/skriptlang/skript/registration/SyntaxRegistryImpl.java:35-46 | registering an info already queued leaves the listing unchanged |
| QueueRegistries.RegisterNewAppends | src/main/java/org/skriptlang/skript/registration/SyntaxRegistryImpl.java:35-46 | registering a new info appends it to the listing, in first-insertion order |
| QueueRegistries.CloseDrains | src/main/java/org/skriptlang/skript/registration/SyntaxRegistryImpl.java:48-82 | closing empties the live registry and moves its contents to a frozen registry that refuses registering and closing |
| RootKeys.NewKey | src/main/java/org/skriptlang/skript/SkriptRegistry.java:54-72 | `Key.key` makes a new key object with the given name, distinct from the declared constants |
| RootKeys.EqualsNeverAKey | src/main/java/org/skriptlang/skript/SkriptRegistry.java:66-70 | a key is `equals` to no key, itself included, but is `equals` to its name, which is not `equals` to it |
| RootKeys.LookupIsIdentity | src/main/java/org/skriptlang/skript/SkriptRegistry.java:61-70 | a hash lookup finds an entry exactly when the probe is the very key object stored |
| RootKeys.FreshKeyMissesCondition | src/main/java/org/skriptlang/skript/SkriptRegistry.java:46-70 | a second `Key.key("condition")` does not find the entry of `CONDITION` |
| RootKeys.DeclaredKeysDistinct | src/main/java/org/skriptlang/skript/SkriptRegistry.java:46-51 | the six declared keys have six different names |
| RootRegistries.RegisterInfo | src/main/java/org/skriptlang/skript/SyntaxRegistryImpl.java:39-44 | the registry then holds the info and adds nothing else |
| RootRegistries.RegistryOf | src/main/java/org/skriptlang/skript/SkriptRegistryImpl.java:45-48 | a known key gets its own registry back; an unseen key gets a new empty one, which is stored |
| RootRegistries.Register | src/main/java/org/skriptlang/skript/SkriptRegistryImpl.java:38-43 | the info joins that key's registry, which is returned, and no other key changes |
| RootRegistries.ViewIsLive | src/main/java/org/skriptlang/skript/SyntaxRegistryImpl.java:33-37 | a view taken before a registration shows the info afterwards |
| RootRegistries.NoPropagation | src/main/java/org/skriptlang/skript/SkriptRegistryImpl.java:38-43 | registering a condition leaves the effect key's infos unchanged |
| RootRegistries.SameNameSeparateRegistries | src/main/java/org/skriptlang/skript/SkriptRegistryImpl.java:30-48 | a separately made key named `condition` has a registry apart from `CONDITION`'s |
| RootRegistries.RegisterIdempotent | src/main/java/org/skriptlang/skript/SyntaxRegistryImpl.java:31-44 | registering one info twice keeps one copy |
| RootRegistries.RegisterCommutes | src/main/java/org/skriptlang/skript/SyntaxRegistryImpl.java:31-44 | the order of two registrations does not show |
| RootRegistries.SyntaxesKeepsContents | src/main/java/org/skriptlang/skript/SkriptRegistryImpl.java:32-48 | asking about a key never changes what any key holds |
| RootInfos.NewExpression | src/main/java/org/skriptlang/skript/SyntaxInfoImpl.java:84-95 | the root expression info stores the return and expression types with no check |
| RootInfos.ArrayReturnTypeAccepted | src/main/java/org/skriptlang/skript/SyntaxInfoImpl.java:89-95 | an array return type is accepted here but refused by the registration-package constructor |
| RootInfos.NewEvent | src/main/java/org/skriptlang/skript/SyntaxInfoImpl.java:59-82 | the root event info is a structure with a null entry validator and keeps its name and events |
| RootInfos.EqualsIsIdentity | src/main/java/org/skriptlang/skript/SyntaxInfoImpl.java:31-57 | infos with the same fields are equal only when they are the same object |
| RootInfos.BuildIsSnapshot | src/main/java/org/skriptlang/skript/RegistrationInfoImpl.java:33-67 | a built info holds the builder's patterns of its moment; later additions show up only in later builds |
| RootInfos.Build | src/main/java/org/skriptlang/skript/RegistrationInfoImpl.java:65-67 | a built info has the given identity and the builder's element type and patterns of that moment |
| RootInfos.AddPatternsSplit | src/main/java/org/skriptlang/skript/RegistrationInfo.java:53-67 | adding two pattern lists equals adding their concatenation |
| Lifecycle.RegisterAddon | src/main/java/org/skriptlang/skript/SkriptImpl.java:84-103 | registration succeeds exactly when the state accepts it and the name is free; a closed state or a taken name changes nothing, and success adds exactly the addon |
| Lifecycle.RegisterAddonEffectOrder | src/main/java/org/skriptlang/skript/SkriptImpl.java:97-102 | the default language loads first, then each module, in the given order |
| Lifecycle.LoadModules | src/main/java/org/skriptlang/skript/SkriptImpl.java:99-101 | modules load in the given order, one log entry each, up to and including the first that throws; with no failure every module loads, and no modules change nothing |
| Lifecycle.FailingModuleStops | src/main/java/org/skriptlang/skript/SkriptImpl.java:99-101 | when the first `k` modules load cleanly and module `k` throws, the loop stops there with that exception and keeps the registrations made so far, module `k`'s own included |
| Lifecycle.FailingModuleNotRecorded | src/main/java/org/skriptlang/skript/SkriptImpl.java:97-102 | when module `k` throws, `registerAddon` ends with that exception, the addon is not recorded, the registry keeps what the modules wrote up to the throw, and the log holds the language load and the `k + 1` module loads |
| Lifecycle.SecondAddonSameNameRefused | src/main/java/org/skriptlang/skript/SkriptImpl.java:91-95 | once an addon is registered, another with its name is refused with the duplicate-name message |
| Lifecycle.UpdateState | src/main/java/org/skriptlang/skript/SkriptImpl.java:62-71 | the ended state creates the converters and keeps the registry; the closed state closes the registry and then notifies `Classes`; the new state is stored unless closing throws, in which case the exception is passed on, the registry is left as closing left it, and the state and log are unchanged |
| Lifecycle.EndedRefusesWithoutClosing | src/main/java/org/skriptlang/skript/SkriptImpl.java:62-71 | the ended state keeps the registry open but refuses addons |
| Lifecycle.StateCanMoveBackward | src/main/java/org/skriptlang/skript/SkriptImpl.java:62-71 | after a successful close the instance refuses addons, and going back to registration is allowed and accepts addons again |
| Lifecycle.ReclosingRefused | src/main/java/org/skriptlang/skript/SkriptImpl.java:62-71 | closing, going back and closing again with a registry that refuses a second close throws, leaves the instance in registration and notifies `Classes` only once |
| Lifecycle.New | src/main/java/org/skriptlang/skript/SkriptImpl.java:45-50 | a new instance starts in registration and registers itself as an addon |
| LegacyInfos.ConstructorCheck | src/main/java/ch/njol/skript/lang/SyntaxElementInfo.java:46-55 | an element class without a public nullary constructor is a fatal error, and a blocking security manager is an illegal state |
| LegacyInfos.NewStructureInfo | src/main/java/org/skriptlang/skript/lang/structure/StructureInfo.java:35-38 | the three-argument constructor leaves the entry validator null |
| LegacyInfos.NewStructureInfoWith | src/main/java/org/skriptlang/skript/lang/structure/StructureInfo.java:40-43 | the four-argument constructor stores the validator given |
| LegacyInfos.FromModern | src/main/java/ch/njol/skript/lang/SyntaxElementInfo.java:84-110 | a modern info becomes an event, structure, expression or plain info, exactly when the element class passes the constructor check; every branch keeps the patterns, the element type and the origin name; a structure keeps its validator, an expression its return type and expression type, and an event its name, events, since, documentation id, description, examples, keywords and required plugins |
| LegacyInfos.EventTestedBeforeStructure | src/main/java/ch/njol/skript/lang/SyntaxElementInfo.java:85-98 | an event, which is also a structure, becomes an event info |
| LegacyInfos.FromStructureInfo | src/main/java/org/skriptlang/skript/lang/structure/StructureInfo.java:45-49 | a root structure descriptor converts to a legacy structure info with its patterns, type, origin name and validator, exactly when the element class has a public nullary constructor |
| LegacyInfos.StructureConversionsAgree | src/main/java/org/skriptlang/skript/lang/structure/StructureInfo.java:45-49 | converting a root structure and converting the registration-package structure with the same fields give the same legacy info |
| LegacyInfos.RootEventBecomesStructure | src/main/java/org/skriptlang/skript/lang/structure/StructureInfo.java:45-49 | a root event, being a structure, converts to a legacy structure info with no validator |
| LegacyInfos.LegacyRoundTrip | src/main/java/ch/njol/skript/lang/SyntaxElementInfo.java:85-94 | an old event info through the legacy view and back keeps its fields; null documentation arrays come back empty |
| LegacyInfos.StructureRoundTrip | src/main/java/org/skriptlang/skript/lang/structure/StructureInfo.java:45-49 | a structure info converts back with its patterns, type, origin name and validator |
| LegacyOrigins.EqualsIsByName | src/main/java/ch/njol/skript/lang/BukkitOrigin.java:54-62 | `equals` holds exactly for a `BukkitOrigin` with an equal name |
| LegacyOrigins.EqualsIsEquivalence | src/main/java/ch/njol/skript/lang/BukkitOrigin.java:54-67 | `equals` is an equivalence consistent with the name hash |
| LegacyOrigins.EqualsMatchesOrigin | src/main/java/ch/njol/skript/lang/BukkitOrigin.java:49-62 | two origins are `equals` exactly when their names as seen through `name()` agree |
| LegacyOrigins.SeparateObjectsEqual | src/main/java/ch/njol/skript/lang/BukkitOrigin.java:29-62 | separate origins of one name, from a plugin or a string, are `equals` |
| Debuggers.Attach | src/main/java/org/skriptlang/skript/lang/debug/Debuggers.java:62-66 | a null debugger is refused with nothing changed; any other is appended |
| Debuggers.Enabled | src/main/java/org/skriptlang/skript/lang/debug/Debuggers.java:53-55 | debugging is enabled exactly when some debugger is attached |
| Debuggers.Detach | src/main/java/org/skriptlang/skript/lang/debug/Debuggers.java:73-75 | detaching removes one occurrence, and an unattached debugger changes nothing |
| Debuggers.DetachRemovesFirst | src/main/java/org/skriptlang/skript/lang/debug/Debuggers.java:73-75 | the occurrence removed is the first |
| Debuggers.Notify | src/main/java/org/skriptlang/skript/lang/debug/Debuggers.java:39-42 | the calls made are a prefix of the planned ones, ending at the first callee that throws, whose exception is passed on; all are made exactly when none throws |
| Debuggers.OnParse | src/main/java/org/skriptlang/skript/lang/debug/Debuggers.java:36-43 | debuggers are called in attach order up to and including the first that throws, whose exception propagates; every debugger is called exactly when none throws |
| Debuggers.FirstThrowingDebuggerStops | src/main/java/org/skriptlang/skript/lang/debug/Debuggers.java:36-43 | when debugger k is the first to throw, exactly the first k+1 debuggers are called and k's exception is the one passed on |
| Debuggers.AttachEnables | src/main/java/org/skriptlang/skript/lang/debug/Debuggers.java:36-66 | attaching a debugger enables debugging, and when no debugger throws the new one is the last told of a parsed element |
| Debuggers.OnWalk | src/main/java/org/skriptlang/skript/lang/debug/Debuggers.java:45-51 | debuggers are called in attach order up to and including the first that throws, whose exception propagates; every debugger is called exactly when none throws |
| Debuggers.AttachDetachRestores | src/main/java/org/skriptlang/skript/lang/debug/Debuggers.java:62-75 | attaching a new debugger and detaching it restores the list |
| Debuggers.AttachTwiceDetachOnce | src/main/java/org/skriptlang/skript/lang/debug/Debuggers.java:65-75 | a debugger attached twice keeps its later place after one detach |
| Debuggers.DetachOnlyDisables | src/test/java/org/skriptlang/skript/test/tests/debug/DebuggerTest.java:101-129 | debugging is enabled between attaching and detaching the only debugger, and disabled after |

## Left out

- `Language.loadDefault`, `Converters.createChainedConverters` and `Classes.onRegistrationsStop` are recorded as effect-log entries, not modelled, because they drive global subsystems outside this model.
- Concurrency is not modelled; every operation runs sequentially. This covers the concurrent maps, the blocking queue, `synchronized`, the atomic counters and the racy lazy id.
- Reflection is modelled only as an abstract type kind and the constructor-lookup outcome. Supplier factories and `instance()` are opaque handles.
- EventNames.DocumentationId: lower-cases ASCII letters only and treats `\s` as its six ASCII characters. Java's locale-aware lower-casing of other letters is not modelled.
- Exact `hashCode` values and `toString` texts are not modelled. Hashes are modelled as the tuple of values fed to the hash, and string-producing calls as their inputs. This includes the duplicate-id message, which embeds the info's text.
- LegacyInfos.ConstructorCheck: the fatal error's message leaves out the element class name that the source puts in front.
- `RootRegistries.Syntaxes` returns a view that cannot be written to. Callers' attempts to mutate the unmodifiable set are not modelled.
- Lifecycle.New: `registry()`'s unmodifiable view is not modelled, because the registry is a value.
- Lifecycle.Addons: the set is shared across instances, which is modelled as one `World` value passed in and out.
- The array aliasing of `SyntaxElementInfo` is not modelled: the constructor stores the caller's array, and `getPatterns` returns a copy. Both are immaterial once patterns are immutable values.
- Defensive copies of lists are likewise implicit, because every list is a value.
- `SkriptEventInfo`, `ExpressionInfo` and the Bukkit `SkriptEventInfo` are not part of this model. A legacy info records the arguments passed to them.
- `SyntaxOrigin.UNKNOWN` is not part of this model. Its `name()` is passed in as a parameter.
- Files with no logic of their own are not modelled: `Localizer`/`LocalizerImpl`, `SkriptAddon`, `AddonModule`, `ExitHandlingSection` and the interface-only files. They are cited only for their key constants.
- `bukkit/registration/BukkitOrigin` is not modelled beyond comparing by identity, because it only wraps a plugin and has no `equals`.
- Debuggers.OnParse: a debugger whose callback attaches or detaches a debugger, making Java's iterator throw `ConcurrentModificationException`, is not modelled. A debugger's response is a pure function of the call and cannot change the list.
- Debuggers.OnWalk: the same mid-loop attach or detach is not modelled, for the same reason.
- The integration test in `DebuggerTest.java` needs a live server and a script. Only its attach, enabled and detach sequence is stated.
- Lifecycle.State: the model has four states. `REGISTRATION` and `ADDON_REGISTRATION` accept registration, `ENDED_REGISTRATION` and `CLOSED_REGISTRATION` do not. `SkriptImpl` uses `REGISTRATION`, `ENDED_REGISTRATION` and `CLOSED_REGISTRATION`, but `Skript.State` in `Skript.java` declares only `REGISTRATION` and `POST_REGISTRATION`, so the four states and their flags are an assumption.
- EventPatterns.FixPattern: a pattern is a sequence of Unicode scalar values, while Java's `toCharArray` walks UTF-16 code units. A character outside the Basic Multilingual Plane counts as two positions in Java and one in the model. So the look-ahead after an opening `%` can differ: for `%😀`, Java inserts a dash and the model does not. Patterns made only of Basic Multilingual Plane characters are handled alike.
- Parser and runtime plumbing of `Structure` and `SkriptEvent` is not modelled. Only the priorities and the `fixPattern` delegation are.

## Findings

| source | as written | input that shows it | evidently intended | confidence | as-written member | corrected member |
|---|---|---|---|---|---|---|
| src/main/java/org/skriptlang/skript/bukkit/registration/BukkitSyntaxInfosImpl.java:117-131 | `equals` ignores the events, but `hashCode` mixes them in | two event infos with equal origin, class, patterns and name, one with events `[]` and one with `[PlayerJoinEvent]` | equal infos hash alike, so the events are left out of `hashCode` | not executed | BukkitEvents.HashContractBroken | BukkitEvents.HashCorrectedConsistent |
| src/main/java/org/skriptlang/skript/bukkit/registration/BukkitSyntaxInfoImpl.java:59-73 | the older event info has the same mismatch between `equals` and `hashCode` | `new EventImpl(o, c, ps, n, [])` and the same with one event class | equal infos hash alike, so the events are left out of `hashCode` | not executed | BukkitEventsOlder.HashContractBroken | BukkitEventsOlder.HashCorrectedConsistent |

=== FILE: bukkit_event_older.dfy ===
/**
 * The earlier event descriptor of `BukkitSyntaxInfoImpl`: a structure info
 * with a name and event classes, whose patterns are framed by its own
 * private copy of the event-pattern frame.
 */
module BukkitEventsOlder {
  import opened Outcomes
  import opened SyntaxTypes
  import EventPatterns

  datatype OlderEvent = OlderEvent(
    origin: Origin,
    elementType: TypeTag,
    patterns: seq<string>,
    entryValidator: Option<Validator>,
    name: string,
    events: seq<TypeTag>)

  /** The private `pattern` helper: `[on] `, the fixed pattern, the priority suffix. */
  function Pattern(p: string): (r: string)
    ensures EventPatterns.Unframe(r) == Some(EventPatterns.FixPattern(p))
  {
    EventPatterns.OnPrefix + EventPatterns.FixPattern(p) + EventPatterns.PrioritySuffix
  }

  /** The private copy agrees with `BukkitSyntaxInfos.pattern` on every input. */
  lemma PatternAgrees(p: string)
    ensures Pattern(p) == EventPatterns.EventPattern(p)
  {
  }

  /** The constructor: patterns framed in order, no entry validator, name and events kept. */
  function NewEvent(origin: Origin, elementType: TypeTag, patterns: seq<string>,
                    name: string, events: seq<TypeTag>): (r: OlderEvent)
    ensures |r.patterns| == |patterns|
    ensures forall i :: 0 <= i < |patterns| ==> r.patterns[i] == Pattern(patterns[i])
    ensures r.entryValidator.None?
    ensures r.origin == origin && r.elementType == elementType && r.name == name && r.events == events
  {
    OlderEvent(origin, elementType, seq(|patterns|, i requires 0 <= i < |patterns| => Pattern(patterns[i])),
               None, name, events)
  }

  /** `equals`: origin, class, patterns and name; events are ignored. */
  predicate Equals(a: OlderEvent, b: OlderEvent)
  {
    a.origin == b.origin && a.elementType == b.elementType && a.patterns == b.patterns && a.name == b.name
  }

  lemma EqualsIgnoresEvents(a: OlderEvent, b: OlderEvent)
    ensures Equals(a, b) <==> a.(events := b.events, entryValidator := b.entryValidator) == b
  {
  }

  datatype HashInputs = HashInputs(
    origin: Origin, elementType: TypeTag, patterns: seq<string>, name: string, events: seq<TypeTag>)

  /** The values `hashCode` feeds to `Objects.hashCode`, as written: events included. */
  function HashInputsAsWritten(e: OlderEvent): (h: HashInputs)
    ensures h.events == e.events && h.name == e.name && h.patterns == e.patterns
  {
    HashInputs(e.origin, e.elementType, e.patterns, e.name, e.events)
  }

  /** Constructed from the same arguments but different events: equal, yet hashed differently. */
  lemma HashContractBroken(origin: Origin, t: TypeTag, ps: seq<string>, name: string, ev: TypeTag)
    ensures Equals(NewEvent(origin, t, ps, name, []), NewEvent(origin, t, ps, name, [ev]))
    ensures HashInputsAsWritten(NewEvent(origin, t, ps, name, []))
         != HashInputsAsWritten(NewEvent(origin, t, ps, name, [ev]))
  {
  }

  /** The hash inputs that match `equals`: events left out. */
  function HashInputsCorrected(e: OlderEvent): (h: HashInputs)
    ensures h.events == [] && h.name == e.name && h.patterns == e.patterns
  {
    HashInputs(e.origin, e.elementType, e.patterns, e.name, [])
  }

  lemma HashCorrectedConsistent(a: OlderEvent, b: OlderEvent)
    ensures Equals(a, b) <==> HashInputsCorrected(a) == HashInputsCorrected(b)
  {
  }
}

=== FILE: bukkit_events.dfy ===
/**
 * Bukkit event descriptors of `BukkitSyntaxInfosImpl`: `EventImpl`, built
 * through `BukkitSyntaxInfos.Event.of`, which frames every pattern, and
 * `LegacyEventImpl`, a view over an old-style event info.
 */
module BukkitEvents {
  import opened Outcomes
  import opened SyntaxTypes
  import EventPatterns

  /** An event descriptor: a structure info plus the event's documentation fields. */
  datatype EventInfo = EventInfo(
    origin: Origin,
    elementType: TypeTag,
    patterns: seq<string>,
    entryValidator: Option<Validator>,
    name: string,
    id: string,
    since: Option<string>,
    documentationId: Option<string>,
    description: seq<string>,
    examples: seq<string>,
    keywords: seq<string>,
    requiredPlugins: seq<string>,
    events: seq<TypeTag>)

  /** `BukkitSyntaxInfos.pattern` applied to each pattern, order and count kept. */
  function FramePatterns(ps: seq<string>): (r: seq<string>)
    ensures |r| == |ps|
    ensures forall i :: 0 <= i < |ps| ==> r[i] == EventPatterns.EventPattern(ps[i])
  {
    seq(|ps|, i requires 0 <= i < |ps| => EventPatterns.EventPattern(ps[i]))
  }

  /** Every framed pattern can be unframed again, giving back the fixed input pattern. */
  lemma FramePatternsUnframe(ps: seq<string>)
    ensures forall i :: 0 <= i < |ps| ==>
      EventPatterns.Unframe(FramePatterns(ps)[i]) == Some(EventPatterns.FixPattern(ps[i]))
  {
    forall i | 0 <= i < |ps|
      ensures EventPatterns.Unframe(FramePatterns(ps)[i]) == Some(EventPatterns.FixPattern(ps[i]))
    {
    }
  }

  /**
   * `Event.of(...)`, forwarding its twelve arguments to the `EventImpl`
   * constructor: patterns are framed, the entry validator is absent, and
   * every other argument is kept as given.
   */
  function Of(
    origin: Origin, elementType: TypeTag, patterns: seq<string>, name: string, id: string,
    since: Option<string>, documentationId: Option<string>, description: seq<string>,
    examples: seq<string>, keywords: seq<string>, requiredPlugins: seq<string>,
    events: seq<TypeTag>): (r: EventInfo)
    ensures r.patterns == FramePatterns(patterns)
    ensures r.entryValidator.None?
    ensures r.origin == origin && r.elementType == elementType
    ensures r.name == name && r.id == id && r.since == since && r.documentationId == documentationId
    ensures r.description == description && r.examples == examples && r.keywords == keywords
    ensures r.requiredPlugins == requiredPlugins && r.events == events
  {
    EventInfo(origin, elementType, FramePatterns(patterns), None, name, id, since, documentationId,
              description, examples, keywords, requiredPlugins, events)
  }

  /**
   * `equals`, the same for both event classes: origin, class, patterns and
   * name; the id, documentation fields and events play no part.
   */
  predicate Equals(a: EventInfo, b: EventInfo)
  {
    a.origin == b.origin && a.elementType == b.elementType && a.patterns == b.patterns && a.name == b.name
  }

  /**
   * `equals` is the equivalence that identifies descriptors differing only
   * outside origin, class, patterns and name.
   */
  lemma EqualsIgnoresDocumentation(a: EventInfo, b: EventInfo, c: EventInfo)
    ensures Equals(a, a)
    ensures Equals(a, b) ==> Equals(b, a)
    ensures Equals(a, b) && Equals(b, c) ==> Equals(a, c)
    ensures Equals(a, b) <==>
      a.(entryValidator := b.entryValidator, id := b.id, since := b.since,
         documentationId := b.documentationId, description := b.description,
         examples := b.examples, keywords := b.keywords,
         requiredPlugins := b.requiredPlugins, events := b.events) == b
  {
  }

  /** The values `hashCode` feeds to `Objects.hashCode`, as written: events included. */
  datatype HashInputs = HashInputs(
    origin: Origin, elementType: TypeTag, patterns: seq<string>, name: string, events: seq<TypeTag>)

  function HashInputsAsWritten(e: EventInfo): (h: HashInputs)
    ensures h.events == e.events && h.name == e.name && h.patterns == e.patterns
  {
    HashInputs(e.origin, e.elementType, e.patterns, e.name, e.events)
  }

  /**
   * Two descriptors that differ only in their events are `equals` yet feed
   * different values to `hashCode`, which Java's contract forbids.
   */
  lemma HashContractBroken(a: EventInfo, ev: TypeTag)
    ensures Equals(a, a.(events := a.events + [ev]))
    ensures HashInputsAsWritten(a) != HashInputsAsWritten(a.(events := a.events + [ev]))
  {
    assert |HashInputsAsWritten(a.(events := a.events + [ev])).events| == |a.events| + 1;
  }

  /** The hash inputs that match `equals`: events left out. */
  function HashInputsCorrected(e: EventInfo): (h: HashInputs)
    ensures h.events == [] && h.name == e.name && h.patterns == e.patterns
  {
    HashInputs(e.origin, e.elementType, e.patterns, e.name, [])
  }

  /** With the corrected inputs, `equals`-equal descriptors hash alike, and conversely. */
  lemma HashCorrectedConsistent(a: EventInfo, b: EventInfo)
    ensures Equals(a, b) <==> HashInputsCorrected(a) == HashInputsCorrected(b)
  {
  }

  // ---------------------------------------------------------------------
  // LegacyEventImpl
  // ---------------------------------------------------------------------

  /**
   * The old-style event info a legacy descriptor wraps. Its documentation
   * arrays may be null.
   */
  datatype LegacyInfo = LegacyInfo(
    originClassPath: string,
    elementType: TypeTag,
    patterns: seq<string>,
    name: string,
    id: string,
    since: Option<string>,
    documentationId: Option<string>,
    description: Option<seq<string>>,
    examples: Option<seq<string>>,
    keywords: Option<seq<string>>,
    requiredPlugins: Option<seq<string>>,
    events: seq<TypeTag>)

  /** A null array reads as the empty list; any other as its contents in order. */
  function OrEmpty(a: Option<seq<string>>): (r: seq<string>)
    ensures a.None? ==> r == []
    ensures a.Some? ==> r == a.value
  {
    match a
    case None => []
    case Some(xs) => xs
  }

  /**
   * `Event.legacy(info)`: patterns are taken as they are, without framing;
   * the origin is a new origin object named by the info's class path, which
   * compares by identity (the handle).
   */
  function Legacy(info: LegacyInfo, originHandle: nat): (r: EventInfo)
    ensures r.origin == OtherOrigin(originHandle, info.originClassPath)
    ensures r.patterns == info.patterns && r.entryValidator.None?
    ensures r.elementType == info.elementType && r.name == info.name && r.id == info.id
    ensures r.since == info.since && r.documentationId == info.documentationId
    ensures r.description == OrEmpty(info.description) && r.examples == OrEmpty(info.examples)
    ensures r.keywords == OrEmpty(info.keywords) && r.requiredPlugins == OrEmpty(info.requiredPlugins)
    ensures r.events == info.events
  {
    EventInfo(OtherOrigin(originHandle, info.originClassPath), info.elementType, info.patterns, None,
              info.name, info.id, info.since, info.documentationId,
              OrEmpty(info.description), OrEmpty(info.examples), OrEmpty(info.keywords),
              OrEmpty(info.requiredPlugins), info.events)
  }

  /**
   * A legacy descriptor keeps each pattern unframed: at every index its
   * pattern is strictly shorter than the framed one, which unframes to the
   * canonicalised legacy pattern. So the two lists differ whenever there is
   * a pattern at all.
   */
  lemma LegacyPatternsUnframed(info: LegacyInfo, originHandle: nat)
    ensures var ps := Legacy(info, originHandle).patterns;
      && |ps| == |FramePatterns(info.patterns)|
      && (forall i :: 0 <= i < |ps| ==>
            && |ps[i]| < |FramePatterns(info.patterns)[i]|
            && EventPatterns.Unframe(FramePatterns(info.patterns)[i]) == Some(EventPatterns.FixPattern(ps[i])))
      && (|ps| > 0 ==> ps != FramePatterns(info.patterns))
  {
    var ps := Legacy(info, originHandle).patterns;
    forall i | 0 <= i < |ps|
      ensures |ps[i]| < |FramePatterns(info.patterns)[i]|
    {
      assert |EventPatterns.FixPattern(ps[i])| >= |ps[i]|;
    }
    if |ps| > 0 {
      assert |ps[0]| < |FramePatterns(info.patterns)[0]|;
    }
  }

  /** Two legacy views of one info with distinct origin objects are never equal. */
  lemma LegacyOriginIdentity(info: LegacyInfo, h1: nat, h2: nat)
    requires h1 != h2
    ensures !Equals(Legacy(info, h1), Legacy(info, h2))
  {
  }
}

=== FILE: bukkit_infos.dfy ===
/**
 * `BukkitInfosImpl`: an event descriptor that wraps a default syntax info,
 * derives its display name and documentation id from the raw event name,
 * compares by identity, and is built by a builder that delegates origin,
 * supplier and patterns to a default builder.
 */
module BukkitInfoEvents {
  import opened Outcomes
  import opened SyntaxTypes
  import EventNames

  /** The wrapped default info: the fields the event delegates to. */
  datatype DefaultInfo = DefaultInfo(
    origin: Origin, elementType: TypeTag, supplier: Option<Supplier>, patterns: seq<string>)

  /** An `EventImpl` object; `handle` stands for its identity. */
  datatype Event = Event(
    handle: nat,
    defaultInfo: DefaultInfo,
    name: string,
    id: string,
    since: Option<string>,
    documentationId: Option<string>,
    description: seq<string>,
    examples: seq<string>,
    keywords: seq<string>,
    requiredPlugins: seq<string>,
    events: seq<TypeTag>)

  /**
   * The constructor: the display name and the id are both derived from the
   * raw name; the remaining arguments are kept (the lists copied).
   */
  function NewEvent(
    handle: nat, defaultInfo: DefaultInfo, rawName: string,
    since: Option<string>, documentationId: Option<string>, description: seq<string>,
    examples: seq<string>, keywords: seq<string>, requiredPlugins: seq<string>,
    events: seq<TypeTag>): (r: Event)
    ensures r.name == EventNames.DisplayName(rawName)
    ensures r.id == EventNames.DocumentationId(rawName)
    ensures EventNames.IsCleanId(r.id)
    ensures r.handle == handle && r.defaultInfo == defaultInfo
    ensures r.since == since && r.documentationId == documentationId
    ensures r.description == description && r.examples == examples && r.keywords == keywords
    ensures r.requiredPlugins == requiredPlugins && r.events == events
  {
    Event(handle, defaultInfo, EventNames.DisplayName(rawName), EventNames.DocumentationId(rawName),
          since, documentationId, description, examples, keywords, requiredPlugins, events)
  }

  /** The delegated accessors and the fixed absent entry validator. */
  function Origin(e: Event): Origin { e.defaultInfo.origin }
  function ElementType(e: Event): TypeTag { e.defaultInfo.elementType }
  function Patterns(e: Event): seq<string> { e.defaultInfo.patterns }

  function EntryValidator(e: Event): (v: Option<Validator>)
    ensures v.None?
  {
    None
  }

  /**
   * `equals`: `Object.equals` must hold first, so only the object itself
   * qualifies; the name comparison after it can then never fail.
   */
  predicate Equals(a: Event, b: Event)
  {
    a.handle == b.handle && a.name == b.name
  }

  /** Two distinct objects are never equal, even built from identical arguments. */
  lemma EqualsIsIdentity(h1: nat, h2: nat, d: DefaultInfo, rawName: string,
                         since: Option<string>, doc: Option<string>, desc: seq<string>,
                         ex: seq<string>, kw: seq<string>, rp: seq<string>, ev: seq<TypeTag>)
    ensures var a := NewEvent(h1, d, rawName, since, doc, desc, ex, kw, rp, ev);
            var b := NewEvent(h2, d, rawName, since, doc, desc, ex, kw, rp, ev);
            Equals(a, b) <==> h1 == h2
  {
  }

  /**
   * A raw name starting with `*` loses the star in the display name but
   * keeps it at the head of the id, since `*` is not among the removed
   * characters.
   */
  lemma {:induction false} StarKeptInId(rawName: string)
    requires |rawName| > 0 && rawName[0] == EventNames.Star
    ensures [EventNames.Star] + EventNames.DisplayName(rawName) == rawName
    ensures var id := EventNames.DocumentationId(rawName); |id| > 0 && id[0] == EventNames.Star
  {
    var lower := EventNames.LowerCase(rawName);
    assert lower[0] == EventNames.Star;
    var stripped := EventNames.StripChars(lower);
    assert stripped == [lower[0]] + EventNames.StripChars(lower[1..]);
    assert stripped[0] == EventNames.Star;
  }

  // ---------------------------------------------------------------------
  // BuilderImpl
  // ---------------------------------------------------------------------

  /** The default builder the event builder delegates to. */
  datatype DefaultBuilder = DefaultBuilder(
    origin: Origin, elementType: TypeTag, supplier: Option<Supplier>, patterns: seq<string>)

  /** The builder's four documentation lists. */
  datatype DocList = Description | Examples | Keywords | RequiredPlugins

  datatype Builder = Builder(
    defaultBuilder: DefaultBuilder,
    name: string,
    since: Option<string>,
    documentationId: Option<string>,
    description: seq<string>,
    examples: seq<string>,
    keywords: seq<string>,
    requiredPlugins: seq<string>,
    events: seq<TypeTag>)

  const EntryValidatorMessage: string := "entryValidator cannot be set for Event SyntaxInfos"

  /**
   * `Event.builder(type, name)`: a fresh default builder (unknown origin, no
   * supplier, no patterns), the raw name, nothing else set.
   */
  function NewBuilder(elementType: TypeTag, name: string): (b: Builder)
    ensures b.defaultBuilder == DefaultBuilder(UnknownOrigin, elementType, None, [])
    ensures b.name == name && b.since.None? && b.documentationId.None?
    ensures b.description == [] && b.examples == [] && b.keywords == []
    ensures b.requiredPlugins == [] && b.events == []
  {
    Builder(DefaultBuilder(UnknownOrigin, elementType, None, []), name, None, None, [], [], [], [], [])
  }

  function Get(b: Builder, f: DocList): seq<string>
  {
    match f
    case Description => b.description
    case Examples => b.examples
    case Keywords => b.keywords
    case RequiredPlugins => b.requiredPlugins
  }

  function Put(b: Builder, f: DocList, xs: seq<string>): (r: Builder)
    ensures Get(r, f) == xs
    ensures forall g :: g != f ==> Get(r, g) == Get(b, g)
    ensures r.defaultBuilder == b.defaultBuilder && r.events == b.events
    ensures r.name == b.name && r.since == b.since && r.documentationId == b.documentationId
  {
    match f
    case Description => b.(description := xs)
    case Examples => b.(examples := xs)
    case Keywords => b.(keywords := xs)
    case RequiredPlugins => b.(requiredPlugins := xs)
  }

  /** A single adder: appends one element to its list. */
  function Add(b: Builder, f: DocList, x: string): (r: Builder)
    ensures r == Put(b, f, Get(b, f) + [x])
  {
    Put(b, f, Get(b, f) + [x])
  }

  /** The array and collection adders: `addAll`, one bulk append. */
  function AddAll(b: Builder, f: DocList, xs: seq<string>): (r: Builder)
    ensures Get(r, f) == Get(b, f) + xs
    ensures forall g :: g != f ==> Get(r, g) == Get(b, g)
  {
    Put(b, f, Get(b, f) + xs)
  }

  /** The single adder applied to each element in order. */
  function AddEach(b: Builder, f: DocList, xs: seq<string>): Builder
    decreases |xs|
  {
    if |xs| == 0 then b else AddEach(Add(b, f, xs[0]), f, xs[1..])
  }

  /** A bulk add equals the single adder on each element, in order. */
  lemma {:induction false} AddAllIsRepeatedAdd(b: Builder, f: DocList, xs: seq<string>)
    ensures AddAll(b, f, xs) == AddEach(b, f, xs)
    decreases |xs|
  {
    if |xs| == 0 {
      assert Get(b, f) + xs == Get(b, f);
      match f
      case Description =>
      case Examples =>
      case Keywords =>
      case RequiredPlugins =>
    } else {
      AddAllIsRepeatedAdd(Add(b, f, xs[0]), f, xs[1..]);
      assert Get(b, f) + [xs[0]] + xs[1..] == Get(b, f) + xs;
      match f
      case Description =>
      case Examples =>
      case Keywords =>
      case RequiredPlugins =>
    }
  }

  function AddEvents(b: Builder, es: seq<TypeTag>): (r: Builder)
    ensures r == b.(events := b.events + es)
  {
    b.(events := b.events + es)
  }

  function SetSince(b: Builder, s: string): Builder
  {
    b.(since := Some(s))
  }

  function SetDocumentationId(b: Builder, d: string): Builder
  {
    b.(documentationId := Some(d))
  }

  /** `origin`, `supplier` and the pattern adders go to the default builder. */
  function SetOrigin(b: Builder, o: Origin): Builder
  {
    b.(defaultBuilder := b.defaultBuilder.(origin := o))
  }

  function SetSupplier(b: Builder, s: Supplier): Builder
  {
    b.(defaultBuilder := b.defaultBuilder.(supplier := Some(s)))
  }

  function AddPatterns(b: Builder, ps: seq<string>): (r: Builder)
    ensures r == b.(defaultBuilder := b.defaultBuilder.(patterns := b.defaultBuilder.patterns + ps))
  {
    b.(defaultBuilder := b.defaultBuilder.(patterns := b.defaultBuilder.patterns + ps))
  }

  /** `entryValidator(v)` always fails: events carry no entry validator. */
  function SetEntryValidator(b: Builder, v: Validator): (r: Result<Builder>)
    ensures r == Err(Unsupported(EntryValidatorMessage))
  {
    Err(Unsupported(EntryValidatorMessage))
  }

  /**
   * `build()`: the default builder's info (patterns as added, unframed) and
   * the accumulated fields, handed to the constructor with a fresh object.
   */
  function Build(b: Builder, handle: nat): (r: Event)
    ensures Origin(r) == b.defaultBuilder.origin && Patterns(r) == b.defaultBuilder.patterns
    ensures r.defaultInfo.supplier == b.defaultBuilder.supplier
    ensures r.name == EventNames.DisplayName(b.name) && r.id == EventNames.DocumentationId(b.name)
    ensures r.since == b.since && r.documentationId == b.documentationId
    ensures r.description == b.description && r.examples == b.examples && r.keywords == b.keywords
    ensures r.requiredPlugins == b.requiredPlugins && r.events == b.events
    ensures EntryValidator(r).None?
  {
    var d := b.defaultBuilder;
    NewEvent(handle, DefaultInfo(d.origin, d.elementType, d.supplier, d.patterns), b.name,
             b.since, b.documentationId, b.description, b.examples, b.keywords, b.requiredPlugins, b.events)
  }

  /**
   * `since` and `documentationId` overwrite: after two calls of one setter the
   * descriptor holds the second value, and every other field is what it would
   * have been without either call.
   */
  lemma ScalarSettersLastWins(b: Builder, handle: nat, s1: string, s2: string, d1: string, d2: string)
    ensures Build(SetSince(SetSince(b, s1), s2), handle) == Build(b, handle).(since := Some(s2))
    ensures Build(SetDocumentationId(SetDocumentationId(b, d1), d2), handle)
              == Build(b, handle).(documentationId := Some(d2))
  {
  }

  /** `origin` and `supplier` overwrite in the default builder in the same way. */
  lemma DefaultSettersLastWins(b: Builder, handle: nat, o1: Origin, o2: Origin, p1: Supplier, p2: Supplier)
    ensures var r := Build(SetOrigin(SetOrigin(b, o1), o2), handle);
      r == Build(b, handle).(defaultInfo := r.defaultInfo) && Origin(r) == o2
      && r.defaultInfo.(origin := b.defaultBuilder.origin) == Build(b, handle).defaultInfo
    ensures var r := Build(SetSupplier(SetSupplier(b, p1), p2), handle);
      r == Build(b, handle).(defaultInfo := r.defaultInfo) && r.defaultInfo.supplier == Some(p2)
      && r.defaultInfo.(supplier := b.defaultBuilder.supplier) == Build(b, handle).defaultInfo
  {
  }

  /** Building twice from one builder gives two descriptors that are not equal. */
  lemma BuildTwiceUnequal(b: Builder, h1: nat, h2: nat)
    requires h1 != h2
    ensures !Equals(Build(b, h1), Build(b, h2))
    ensures Build(b, h1).(handle := h2) == Build(b, h2)
  {
  }
}

=== FILE: debuggers.dfy ===
/**
 * `Debuggers`: the process-wide list of attached debuggers, told about
 * every parsed element and every walked trigger item, in attach order.
 * Debuggers have no `equals` of their own and compare by identity.
 */
module Debuggers {
  import opened Outcomes

  datatype Debugger = Debugger(handle: nat)

  /** A call made on a debugger; elements, trigger items and events are known by identity. */
  datatype Call =
    | ParseCall(debugger: Debugger, element: nat)
    | WalkCall(debugger: Debugger, item: nat, event: nat)

  const NullDebuggerMessage: string := "Cannot attach a debugger because it is null"

  /** `enabled()`: some debugger is attached. */
  function Enabled(ds: seq<Debugger>): (b: bool)
    ensures b <==> exists d :: d in ds
  {
    if |ds| > 0 then
      assert ds[0] in ds;
      true
    else false
  }

  /** `attachDebugger`: null is refused, anything else is appended, duplicates included. */
  function Attach(ds: seq<Debugger>, d: Option<Debugger>): (r: Result<seq<Debugger>>)
    ensures d.None? <==> r.Err?
    ensures r.Err? ==> r.error == ApiMisuse(NullDebuggerMessage)
    ensures r.Ok? ==> |r.value| == |ds| + 1 && r.value[..|ds|] == ds && r.value[|ds|] == d.value
  {
    match d
    case None => Err(ApiMisuse(NullDebuggerMessage))
    case Some(x) => Ok(ds + [x])
  }

  /** The position of the first occurrence. */
  function IndexOf(ds: seq<Debugger>, d: Debugger): (i: nat)
    requires d in ds
    ensures i < |ds| && ds[i] == d
    ensures d !in ds[..i]
  {
    if ds[0] == d then 0 else 1 + IndexOf(ds[1..], d)
  }

  /** `detachDebugger`: `List.remove(Object)` drops the first occurrence, if any. */
  function Detach(ds: seq<Debugger>, d: Debugger): (r: seq<Debugger>)
    ensures d !in ds ==> r == ds
    ensures multiset(r) == multiset(ds) - multiset{d}
  {
    if |ds| == 0 then []
    else if ds[0] == d then
      assert ds == [ds[0]] + ds[1..];
      ds[1..]
    else
      assert ds == [ds[0]] + ds[1..];
      [ds[0]] + Detach(ds[1..], d)
  }

  /** Dropping position `i + 1` of `ds` is keeping the head and dropping position `i` of the tail. */
  lemma DropShift(ds: seq<Debugger>, i: nat)
    requires i + 1 < |ds|
    ensures [ds[0]] + (ds[1..][..i] + ds[1..][i + 1..]) == ds[..i + 1] + ds[i + 2..]
  {
    assert ds[1..][..i] == ds[1..i + 1];
    assert ds[1..][i + 1..] == ds[i + 2..];
    assert [ds[0]] + ds[1..i + 1] == ds[..i + 1];
  }

  /** The step of the induction below: a head other than `d` is kept in front. */
  lemma DetachPastHead(ds: seq<Debugger>, d: Debugger)
    requires d in ds && ds[0] != d
    requires d in ds[1..]
    requires Detach(ds[1..], d) == ds[1..][..IndexOf(ds[1..], d)] + ds[1..][IndexOf(ds[1..], d) + 1..]
    ensures Detach(ds, d) == ds[..IndexOf(ds, d)] + ds[IndexOf(ds, d) + 1..]
  {
    var i := IndexOf(ds[1..], d);
    assert IndexOf(ds, d) == i + 1;
    DropShift(ds, i);
  }

  /** The occurrence dropped is the first one; the rest keep their order. */
  lemma {:induction false} DetachRemovesFirst(ds: seq<Debugger>, d: Debugger)
    requires d in ds
    ensures Detach(ds, d) == ds[..IndexOf(ds, d)] + ds[IndexOf(ds, d) + 1..]
  {
    if ds[0] == d {
      assert ds[..0] + ds[1..] == ds[1..];
    } else {
      assert d in ds[1..] by {
        assert ds == [ds[0]] + ds[1..];
      }
      DetachRemovesFirst(ds[1..], d);
      DetachPastHead(ds, d);
    }
  }

  /**
   * What a debugger's `onParse` or `onWalk` does with a call: nothing the
   * model sees, or throw. A callback cannot attach or detach debuggers.
   */
  type Responder = Call -> Option<Error>

  /**
   * The for-each loop over the planned calls: each is made in order, and the
   * first that throws ends the loop, its exception passed on to the caller.
   */
  function Notify(planned: seq<Call>, respond: Responder): (res: (seq<Call>, Option<Error>))
    ensures |res.0| <= |planned| && res.0 == planned[..|res.0|]
    ensures res.1.None? ==> res.0 == planned
    ensures res.1.None? ==> forall i :: 0 <= i < |planned| ==> respond(planned[i]).None?
    ensures res.1.Some? ==> |res.0| > 0 && res.1 == respond(planned[|res.0| - 1])
    ensures res.1.Some? ==> forall i :: 0 <= i < |res.0| - 1 ==> respond(planned[i]).None?
    decreases |planned|
  {
    if |planned| == 0 then ([], None)
    else
      var thrown := respond(planned[0]);
      if thrown.Some? then ([planned[0]], thrown)
      else
        var rest := Notify(planned[1..], respond);
        assert planned[1..][..|rest.0|] == planned[1..|rest.0| + 1];
        ([planned[0]] + rest.0, rest.1)
  }

  /**
   * `onParse(element)`: one call per attached debugger, in list order, up
   * to and including the first debugger that throws; its exception is
   * passed on. With no debugger attached nothing is called.
   */
  function OnParse(ds: seq<Debugger>, element: nat, respond: Responder): (res: (seq<Call>, Option<Error>))
    ensures |res.0| <= |ds|
    ensures forall i :: 0 <= i < |res.0| ==> res.0[i] == ParseCall(ds[i], element)
    ensures res.1.None? <==> forall i :: 0 <= i < |ds| ==> respond(ParseCall(ds[i], element)).None?
    ensures res.1.None? ==> |res.0| == |ds|
    ensures res.1.Some? ==> |res.0| > 0 && res.1 == respond(res.0[|res.0| - 1])
    ensures res.1.Some? ==> forall i :: 0 <= i < |res.0| - 1 ==> respond(res.0[i]).None?
  {
    var planned := seq(|ds|, i requires 0 <= i < |ds| => ParseCall(ds[i], element));
    Notify(planned, respond)
  }

  /**
   * `onWalk(item, event)`: one call per attached debugger, in list order, up
   * to and including the first debugger that throws; its exception is
   * passed on.
   */
  function OnWalk(ds: seq<Debugger>, item: nat, event: nat, respond: Responder): (res: (seq<Call>, Option<Error>))
    ensures |res.0| <= |ds|
    ensures forall i :: 0 <= i < |res.0| ==> res.0[i] == WalkCall(ds[i], item, event)
    ensures res.1.None? <==> forall i :: 0 <= i < |ds| ==> respond(WalkCall(ds[i], item, event)).None?
    ensures res.1.None? ==> |res.0| == |ds|
    ensures res.1.Some? ==> |res.0| > 0 && res.1 == respond(res.0[|res.0| - 1])
    ensures res.1.Some? ==> forall i :: 0 <= i < |res.0| - 1 ==> respond(res.0[i]).None?
  {
    var planned := seq(|ds|, i requires 0 <= i < |ds| => WalkCall(ds[i], item, event));
    Notify(planned, respond)
  }

  // ---------------------------------------------------------------------
  // Properties
  // ---------------------------------------------------------------------

  /**
   * Attaching a debugger enables debugging; when no debugger throws, the
   * attached one is the last told of each parsed element.
   */
  lemma AttachEnables(ds: seq<Debugger>, d: Debugger, element: nat, respond: Responder)
    ensures Enabled(Attach(ds, Some(d)).value)
    ensures var res := OnParse(Attach(ds, Some(d)).value, element, respond);
      res.1.None? ==> |res.0| == |ds| + 1 && res.0[|ds|] == ParseCall(d, element)
  {
  }

  /**
   * When the debugger at position `k` is the first to throw, the loop makes
   * the calls to positions `0` to `k` and ends with its exception.
   */
  lemma FirstThrowingDebuggerStops(ds: seq<Debugger>, element: nat, respond: Responder, k: nat)
    requires k < |ds|
    requires forall i :: 0 <= i < k ==> respond(ParseCall(ds[i], element)).None?
    requires respond(ParseCall(ds[k], element)).Some?
    ensures var res := OnParse(ds, element, respond);
      && |res.0| == k + 1
      && (forall i :: 0 <= i <= k ==> res.0[i] == ParseCall(ds[i], element))
      && res.1 == respond(ParseCall(ds[k], element))
  {
    var res := OnParse(ds, element, respond);
    assert res.1.Some?;
    var j := |res.0| - 1;
    if j < k {
      assert false;
    } else if j > k {
      assert false;
    }
  }

  /** Attaching a debugger that is not yet attached and detaching it again restores the list. */
  lemma AttachDetachRestores(ds: seq<Debugger>, d: Debugger)
    requires d !in ds
    ensures Detach(Attach(ds, Some(d)).value, d) == ds
  {
    var l := ds + [d];
    DetachRemovesFirst(l, d);
    assert l[..|ds|] == ds;
  }

  /**
   * A debugger attached twice is detached from its first place: the list
   * keeps the same debuggers but not, in general, their order.
   */
  lemma AttachTwiceDetachOnce(d: Debugger, e: Debugger)
    requires d != e
    ensures Detach(Attach([d, e], Some(d)).value, d) == [e, d]
    ensures multiset(Detach(Attach([d, e], Some(d)).value, d)) == multiset([d, e])
  {
    assert Attach([d, e], Some(d)).value == [d, e, d];
    DetachRemovesFirst([d, e, d], d);
  }

  /** Detaching one attached debugger from a single-debugger list disables debugging. */
  lemma DetachOnlyDisables(d: Debugger)
    ensures Enabled(Attach([], Some(d)).value)
    ensures !Enabled(Detach(Attach([], Some(d)).value, d))
  {
  }
}

=== FILE: default_infos.dfy ===
/**
 * The descriptors of `DefaultSyntaxInfosImpl`: expression and structure
 * infos that also carry an optional element supplier, whose priority is a
 * `Priority` object, and their builders.
 */
module DefaultSyntaxInfos {
  import opened Outcomes
  import opened Int32s
  import opened SyntaxTypes
  import Priorities
  import PackedPriorities

  datatype Payload =
    | ExpressionInfo(returnType: TypeTag, expressionType: ExpressionType)
    | StructureInfo(entryValidator: Option<Validator>)

  datatype DefaultInfo = DefaultInfo(
    origin: Origin,
    elementType: TypeTag,
    supplier: Option<Supplier>,
    patterns: seq<string>,
    payload: Payload)

  const ReturnTypeMessage: string := "returnType must be a normal type"
  const ExpressionTypeMessage: string := "expressionType must be set"

  /** The expression constructor refuses annotation, array and primitive return types. */
  function NewExpression(
    origin: Origin, elementType: TypeTag, supplier: Option<Supplier>, patterns: seq<string>,
    returnType: TypeTag, expressionType: ExpressionType): (r: Result<DefaultInfo>)
    ensures r.Err? <==> returnType.kind != NormalType
    ensures r.Err? ==> r.error == IllegalArgument(ReturnTypeMessage)
    ensures r.Ok? ==> r.value == DefaultInfo(origin, elementType, supplier, patterns,
                                             ExpressionInfo(returnType, expressionType))
  {
    if returnType.kind != NormalType then Err(IllegalArgument(ReturnTypeMessage))
    else Ok(DefaultInfo(origin, elementType, supplier, patterns, ExpressionInfo(returnType, expressionType)))
  }

  function NewStructure(
    origin: Origin, elementType: TypeTag, supplier: Option<Supplier>, patterns: seq<string>,
    entryValidator: Option<Validator>): (r: DefaultInfo)
    ensures r.origin == origin && r.elementType == elementType && r.supplier == supplier
    ensures r.patterns == patterns && r.payload == StructureInfo(entryValidator)
  {
    DefaultInfo(origin, elementType, supplier, patterns, StructureInfo(entryValidator))
  }

  /**
   * `a.equals(b)`: an expression info only equals an expression info, a
   * structure info only a structure info; the supplier is never compared.
   */
  predicate Equals(a: DefaultInfo, b: DefaultInfo)
  {
    a.origin == b.origin && a.elementType == b.elementType && a.patterns == b.patterns
    && match a.payload
       case ExpressionInfo(rt, et) =>
         b.payload.ExpressionInfo? && rt == b.payload.returnType && et == b.payload.expressionType
       case StructureInfo(v) =>
         b.payload.StructureInfo? && v == b.payload.entryValidator
  }

  /** `equals` is an equivalence relation that ignores exactly the supplier. */
  lemma EqualsIgnoresSupplier(a: DefaultInfo, b: DefaultInfo, c: DefaultInfo)
    ensures Equals(a, a)
    ensures Equals(a, b) ==> Equals(b, a)
    ensures Equals(a, b) && Equals(b, c) ==> Equals(a, c)
    ensures Equals(a, b) <==> a.(supplier := b.supplier) == b
  {
  }

  /**
   * `ExpressionImpl.priority()`: a new plain `Priority` holding the base
   * priority's value packed with the expression type's ordinal.
   */
  function ExpressionPriority(base: Priorities.Priority, expressionType: ExpressionType): (p: Priorities.Priority)
    ensures p.cls == Priorities.PlainPriority
    ensures 0 <= base.value < PackedPriorities.TwoTo24 && expressionType.ordinal < 128 ==>
      p.value == expressionType.ordinal * PackedPriorities.TwoTo24 + base.value
  {
    Priorities.Priority(Priorities.PlainPriority, PackedPriorities.Packed(base.value, expressionType.ordinal))
  }

  /**
   * Expressions sort by expression type first and base priority second, as
   * long as bases stay below `2^24` and ordinals below 128.
   */
  lemma ExpressionPriorityOrder(b1: Priorities.Priority, e1: ExpressionType, b2: Priorities.Priority, e2: ExpressionType)
    requires 0 <= b1.value < PackedPriorities.TwoTo24 && e1.ordinal < 128
    requires 0 <= b2.value < PackedPriorities.TwoTo24 && e2.ordinal < 128
    ensures Priorities.CompareTo(ExpressionPriority(b1, e1), ExpressionPriority(b2, e2)) < 0
        <==> e1.ordinal < e2.ordinal || (e1 == e2 && b1.value < b2.value)
  {
    PackedPriorities.PackedLexicographic(b1.value, e1.ordinal, b2.value, e2.ordinal);
  }

  // ---------------------------------------------------------------------
  // Builders
  // ---------------------------------------------------------------------

  /** The fields the shared builder base collects: origin, element class, supplier, patterns. */
  datatype BuilderBase = BuilderBase(
    origin: Origin, elementType: TypeTag, supplier: Option<Supplier>, patterns: seq<string>)

  datatype ExpressionBuilder = ExpressionBuilder(
    base: BuilderBase, returnType: TypeTag, expressionType: Option<ExpressionType>)

  datatype StructureBuilder = StructureBuilder(base: BuilderBase, entryValidator: Option<Validator>)

  /** A new expression builder: no expression type yet. */
  function NewExpressionBuilder(base: BuilderBase, returnType: TypeTag): (b: ExpressionBuilder)
    ensures b.base == base && b.returnType == returnType && b.expressionType.None?
  {
    ExpressionBuilder(base, returnType, None)
  }

  /** `expressionType(t)`: overwrites, so the last call wins. */
  function SetExpressionType(b: ExpressionBuilder, t: ExpressionType): (r: ExpressionBuilder)
    ensures r.expressionType == Some(t)
    ensures r.base == b.base && r.returnType == b.returnType
  {
    b.(expressionType := Some(t))
  }

  /**
   * `build()`: a missing expression type is a `NullPointerException`, checked
   * before the constructor's return-type check.
   */
  function BuildExpression(b: ExpressionBuilder): (r: Result<DefaultInfo>)
    ensures b.expressionType.None? ==> r == Err(NullPointer(ExpressionTypeMessage))
    ensures b.expressionType.Some? && b.returnType.kind != NormalType ==>
      r == Err(IllegalArgument(ReturnTypeMessage))
    ensures r.Ok? <==> b.expressionType.Some? && b.returnType.kind == NormalType
    ensures r.Ok? ==>
              && r.value.origin == b.base.origin && r.value.elementType == b.base.elementType
              && r.value.supplier == b.base.supplier && r.value.patterns == b.base.patterns
              && r.value.payload == ExpressionInfo(b.returnType, b.expressionType.value)
  {
    match b.expressionType
    case None => Err(NullPointer(ExpressionTypeMessage))
    case Some(t) =>
      NewExpression(b.base.origin, b.base.elementType, b.base.supplier, b.base.patterns, b.returnType, t)
  }

  /** A new structure builder: no entry validator. */
  function NewStructureBuilder(base: BuilderBase): (b: StructureBuilder)
    ensures b.base == base && b.entryValidator.None?
  {
    StructureBuilder(base, None)
  }

  function SetEntryValidator(b: StructureBuilder, v: Validator): (r: StructureBuilder)
    ensures r.entryValidator == Some(v) && r.base == b.base
  {
    b.(entryValidator := Some(v))
  }

  /** `build()` never fails and passes the validator through, absent if never set. */
  function BuildStructure(b: StructureBuilder): (r: DefaultInfo)
    ensures r.origin == b.base.origin && r.elementType == b.base.elementType
    ensures r.supplier == b.base.supplier && r.patterns == b.base.patterns
    ensures r.payload == StructureInfo(b.entryValidator)
  {
    NewStructure(b.base.origin, b.base.elementType, b.base.supplier, b.base.patterns, b.entryValidator)
  }

  /** Setting the expression type twice: the second value is the one built. */
  lemma ExpressionTypeLastWins(b: ExpressionBuilder, t1: ExpressionType, t2: ExpressionType)
    requires b.returnType.kind == NormalType
    ensures BuildExpression(SetExpressionType(SetExpressionType(b, t1), t2)).Ok?
    ensures BuildExpression(SetExpressionType(SetExpressionType(b, t1), t2)).value.payload.expressionType == t2
  {
  }

  /** A structure built without setting a validator has none, and equals one built with it unset. */
  lemma DefaultValidatorAbsent(base: BuilderBase)
    ensures BuildStructure(NewStructureBuilder(base)).payload.entryValidator.None?
    ensures Equals(BuildStructure(NewStructureBuilder(base)),
                   NewStructure(base.origin, base.elementType, None, base.patterns, None))
  {
  }
}

=== FILE: event_info_builder.dfy ===
/**
 * `EventInfoBuilder`: accumulates the fields of a Bukkit event descriptor
 * and builds it through `BukkitSyntaxInfos.Event.of`.
 */
module EventInfoBuilders {
  import opened Outcomes
  import opened SyntaxTypes
  import BukkitEvents

  /** The builder's five string lists. */
  datatype ListField = Description | Examples | Keywords | RequiredPlugins | Patterns

  datatype Builder = Builder(
    elementType: TypeTag,
    name: string,
    id: string,
    description: seq<string>,
    examples: seq<string>,
    keywords: seq<string>,
    requiredPlugins: seq<string>,
    patterns: seq<string>,
    events: seq<TypeTag>,
    origin: Origin,
    since: Option<string>,
    documentationId: Option<string>)

  /** `builder(type, name, id)`: empty lists, origin `SyntaxOrigin.UNKNOWN`, no since, no documentation id. */
  function NewBuilder(elementType: TypeTag, name: string, id: string): (b: Builder)
    ensures b.elementType == elementType && b.name == name && b.id == id
    ensures b.description == [] && b.examples == [] && b.keywords == []
    ensures b.requiredPlugins == [] && b.patterns == [] && b.events == []
    ensures b.origin == UnknownOrigin && b.since.None? && b.documentationId.None?
  {
    Builder(elementType, name, id, [], [], [], [], [], [], UnknownOrigin, None, None)
  }

  function Get(b: Builder, f: ListField): seq<string>
  {
    match f
    case Description => b.description
    case Examples => b.examples
    case Keywords => b.keywords
    case RequiredPlugins => b.requiredPlugins
    case Patterns => b.patterns
  }

  /** The builder with one list replaced and everything else as it was. */
  function Put(b: Builder, f: ListField, xs: seq<string>): (r: Builder)
    ensures Get(r, f) == xs
    ensures forall g :: g != f ==> Get(r, g) == Get(b, g)
    ensures r.events == b.events && r.origin == b.origin && r.since == b.since
    ensures r.documentationId == b.documentationId
    ensures r.elementType == b.elementType && r.name == b.name && r.id == b.id
  {
    match f
    case Description => b.(description := xs)
    case Examples => b.(examples := xs)
    case Keywords => b.(keywords := xs)
    case RequiredPlugins => b.(requiredPlugins := xs)
    case Patterns => b.(patterns := xs)
  }

  /** The single adders `addDescription(String)`, `addExample`, `addKeyword`, `addRequiredPlugin`, `addPattern`. */
  function Add(b: Builder, f: ListField, x: string): (r: Builder)
    ensures Get(r, f) == Get(b, f) + [x]
    ensures r == Put(b, f, Get(b, f) + [x])
  {
    Put(b, f, Get(b, f) + [x])
  }

  /** The array and list forms: the single adder on each element in order. */
  function AddAll(b: Builder, f: ListField, xs: seq<string>): (r: Builder)
    ensures r == Put(b, f, Get(b, f) + xs)
    decreases |xs|
  {
    if |xs| == 0 then
      assert Get(b, f) + xs == Get(b, f);
      PutGet(b, f);
      b
    else
      var r := AddAll(Add(b, f, xs[0]), f, xs[1..]);
      assert Get(b, f) + [xs[0]] + xs[1..] == Get(b, f) + xs;
      PutPut(b, f, Get(b, f) + [xs[0]], Get(b, f) + xs);
      r
  }

  lemma PutGet(b: Builder, f: ListField)
    ensures Put(b, f, Get(b, f)) == b
  {
  }

  lemma PutPut(b: Builder, f: ListField, xs: seq<string>, ys: seq<string>)
    ensures Put(Put(b, f, xs), f, ys) == Put(b, f, ys)
  {
  }

  function AddEvent(b: Builder, e: TypeTag): (r: Builder)
    ensures r == b.(events := b.events + [e])
  {
    b.(events := b.events + [e])
  }

  function AddEvents(b: Builder, es: seq<TypeTag>): (r: Builder)
    ensures r == b.(events := b.events + es)
    decreases |es|
  {
    if |es| == 0 then
      assert b.events + es == b.events;
      b
    else
      var r := AddEvents(AddEvent(b, es[0]), es[1..]);
      assert b.events + [es[0]] + es[1..] == b.events + es;
      r
  }

  /** `origin`, `since` and `documentationId` overwrite: the last call wins. */
  function SetOrigin(b: Builder, o: Origin): Builder
  {
    b.(origin := o)
  }

  function SetSince(b: Builder, s: string): Builder
  {
    b.(since := Some(s))
  }

  function SetDocumentationId(b: Builder, d: string): Builder
  {
    b.(documentationId := Some(d))
  }

  /** `build()`: every field forwarded to `Event.of`, so patterns come out framed. */
  function Build(b: Builder): (r: BukkitEvents.EventInfo)
    ensures r.patterns == BukkitEvents.FramePatterns(b.patterns)
    ensures r.origin == b.origin && r.elementType == b.elementType
    ensures r.name == b.name && r.id == b.id && r.since == b.since && r.documentationId == b.documentationId
    ensures r.description == b.description && r.examples == b.examples && r.keywords == b.keywords
    ensures r.requiredPlugins == b.requiredPlugins && r.events == b.events
    ensures r.entryValidator.None?
  {
    BukkitEvents.Of(b.origin, b.elementType, b.patterns, b.name, b.id, b.since, b.documentationId,
                    b.description, b.examples, b.keywords, b.requiredPlugins, b.events)
  }

  // ---------------------------------------------------------------------
  // Properties
  // ---------------------------------------------------------------------

  /** Adding to one list leaves every other list, and every scalar field, alone. */
  lemma {:induction false} AddAllFrame(b: Builder, f: ListField, g: ListField, xs: seq<string>)
    requires f != g
    ensures Get(AddAll(b, f, xs), g) == Get(b, g)
    ensures AddAll(b, f, xs).events == b.events && AddAll(b, f, xs).origin == b.origin
  {
  }

  /** Two bulk adds in a row equal one bulk add of the concatenation. */
  lemma AddAllConcat(b: Builder, f: ListField, xs: seq<string>, ys: seq<string>)
    ensures AddAll(AddAll(b, f, xs), f, ys) == AddAll(b, f, xs + ys)
  {
    var whole := Get(b, f);
    var b1 := AddAll(b, f, xs);
    assert Get(b1, f) == whole + xs;
    StringsAssoc(whole, xs, ys);
    PutPut(b, f, whole + xs, whole + xs + ys);
  }

  lemma StringsAssoc(a: seq<string>, b: seq<string>, c: seq<string>)
    ensures a + b + c == a + (b + c)
  {
  }

  /** The last `since` wins; nothing else about the descriptor changes. */
  lemma SinceLastWins(b: Builder, s1: string, s2: string)
    ensures Build(SetSince(SetSince(b, s1), s2)).since == Some(s2)
    ensures Build(SetSince(SetSince(b, s1), s2)) == Build(b).(since := Some(s2))
  {
  }

  /** The last `origin` and the last `documentationId` win in the same way. */
  lemma OriginAndIdLastWins(b: Builder, o1: Origin, o2: Origin, d1: string, d2: string)
    ensures Build(SetOrigin(SetOrigin(b, o1), o2)) == Build(b).(origin := o2)
    ensures Build(SetDocumentationId(SetDocumentationId(b, d1), d2))
              == Build(b).(documentationId := Some(d2))
  {
  }

  /**
   * A builder given only patterns builds a descriptor with the unknown
   * origin, no since or documentation id, empty lists and framed patterns.
   */
  lemma BuildDefaults(t: TypeTag, name: string, id: string, ps: seq<string>)
    ensures var r := Build(AddAll(NewBuilder(t, name, id), Patterns, ps));
      && r.patterns == BukkitEvents.FramePatterns(ps)
      && r.origin == UnknownOrigin && r.since.None? && r.documentationId.None?
      && r.description == [] && r.examples == [] && r.keywords == []
      && r.requiredPlugins == [] && r.events == []
      && r.name == name && r.id == id
  {
    assert Get(NewBuilder(t, name, id), Patterns) + ps == ps;
  }
}

=== FILE: event_names.dfy ===
/**
 * Display name and documentation id that `BukkitInfosImpl.EventImpl` derives
 * from the raw event name it is built with.
 *
 * Java's locale-aware `toLowerCase` is modelled on ASCII letters only, and
 * the regular-expression class `\s` as the six characters Java gives it:
 * space, tab, line feed, vertical tab, form feed and carriage return.
 */
module EventNames {

  const Star: char := '*'
  const Underscore: char := '_'

  predicate IsWhitespace(c: char)
  {
    c == ' ' || c == '\t' || c == '\n' || c == '\U{B}' || c == '\U{C}' || c == '\r'
  }

  /** The characters of the class `[#'"<>/&]` that the id drops. */
  predicate IsStripped(c: char)
  {
    c == '#' || c == '\'' || c == '"' || c == '<' || c == '>' || c == '/' || c == '&'
  }

  predicate IsUpperAscii(c: char)
  {
    'A' <= c <= 'Z'
  }

  function ToLowerAscii(c: char): (r: char)
    ensures !IsUpperAscii(r)
    ensures !IsUpperAscii(c) ==> r == c
    ensures IsUpperAscii(c) ==> r as int == c as int + 32
  {
    if IsUpperAscii(c) then (c as int + 32) as char else c
  }

  function LowerCase(s: string): (r: string)
    ensures |r| == |s|
    ensures forall i :: 0 <= i < |r| ==> r[i] == ToLowerAscii(s[i])
  {
    seq(|s|, i requires 0 <= i < |s| => ToLowerAscii(s[i]))
  }

  /** `replaceAll("[#'\"<>/&]", "")`: every listed character is removed. */
  function StripChars(s: string): (r: string)
    ensures forall c :: c in r <==> c in s && !IsStripped(c)
    ensures |r| <= |s|
    decreases |s|
  {
    if |s| == 0 then []
    else if IsStripped(s[0]) then StripChars(s[1..])
    else [s[0]] + StripChars(s[1..])
  }

  /** The input with its leading run of whitespace removed. */
  function DropWhitespace(s: string): (r: string)
    ensures |r| <= |s|
    ensures |r| > 0 ==> !IsWhitespace(r[0])
    ensures |s| > 0 && IsWhitespace(s[0]) ==> |r| < |s|
    ensures forall c :: c in r ==> c in s
    decreases |s|
  {
    if |s| > 0 && IsWhitespace(s[0]) then DropWhitespace(s[1..]) else s
  }

  /** `replaceAll("\\s+", "_")`: each maximal whitespace run becomes one `_`. */
  function CollapseWhitespace(s: string): (r: string)
    ensures forall c :: c in r ==> !IsWhitespace(c)
    ensures forall c :: c in r && c != Underscore ==> c in s
    decreases |s|
  {
    if |s| == 0 then []
    else if IsWhitespace(s[0]) then [Underscore] + CollapseWhitespace(DropWhitespace(s))
    else [s[0]] + CollapseWhitespace(s[1..])
  }

  /** The display name: a leading `*` is dropped, any other name is prefixed with `On `. */
  function DisplayName(name: string): (r: string)
    ensures |name| > 0 && name[0] == Star ==> name == [Star] + r
    ensures !(|name| > 0 && name[0] == Star) ==> r == "On " + name
  {
    if |name| > 0 && name[0] == Star then name[1..] else "On " + name
  }

  /**
   * The documentation id, computed from the raw name (not from the display
   * name): lower-case, drop the listed punctuation, then collapse whitespace.
   */
  function DocumentationId(name: string): (r: string)
    ensures IsCleanId(r)
  {
    StrippedLowerHasNoUpper(name);
    CollapseWhitespace(StripChars(LowerCase(name)))
  }

  /** A string the id derivation leaves alone. */
  predicate IsCleanId(s: string)
  {
    forall c :: c in s ==> !IsWhitespace(c) && !IsStripped(c) && !IsUpperAscii(c)
  }

  // ---------------------------------------------------------------------
  // Properties
  // ---------------------------------------------------------------------

  /** Lower-casing leaves no upper case, and removing characters adds none. */
  lemma StrippedLowerHasNoUpper(name: string)
    ensures forall c :: c in StripChars(LowerCase(name)) ==> !IsUpperAscii(c)
  {
    var lower := LowerCase(name);
    var stripped := StripChars(lower);
    forall c | c in stripped
      ensures !IsUpperAscii(c)
    {
      var i :| 0 <= i < |lower| && lower[i] == c;
    }
  }

  lemma {:induction false} StripCharsClean(s: string)
    requires forall c :: c in s ==> !IsStripped(c)
    ensures StripChars(s) == s
    decreases |s|
  {
    if |s| > 0 {
      StripCharsClean(s[1..]);
      assert s == [s[0]] + s[1..];
    }
  }

  lemma {:induction false} CollapseClean(s: string)
    requires forall c :: c in s ==> !IsWhitespace(c)
    ensures CollapseWhitespace(s) == s
    decreases |s|
  {
    if |s| > 0 {
      CollapseClean(s[1..]);
      assert s == [s[0]] + s[1..];
    }
  }

  /** A clean string is its own id. */
  lemma CleanIdFixed(s: string)
    requires IsCleanId(s)
    ensures DocumentationId(s) == s
  {
    assert LowerCase(s) == s;
    StripCharsClean(s);
    CollapseClean(s);
  }

  /** Deriving an id from an id changes nothing. */
  lemma DocumentationIdIdempotent(name: string)
    ensures DocumentationId(DocumentationId(name)) == DocumentationId(name)
  {
    CleanIdFixed(DocumentationId(name));
  }

  /** The characters of `s` other than whitespace and `_`, in order. */
  function Significant(s: string): string
    decreases |s|
  {
    if |s| == 0 then []
    else if IsWhitespace(s[0]) || s[0] == Underscore then Significant(s[1..])
    else [s[0]] + Significant(s[1..])
  }

  lemma {:induction false} DropWhitespaceSignificant(s: string)
    ensures Significant(DropWhitespace(s)) == Significant(s)
    decreases |s|
  {
    if |s| > 0 && IsWhitespace(s[0]) {
      DropWhitespaceSignificant(s[1..]);
    }
  }

  /**
   * Collapsing only replaces whitespace by `_`: apart from whitespace and
   * underscores, the output holds exactly the input's characters, in order.
   */
  lemma {:induction false} CollapseKeepsSignificant(s: string)
    ensures Significant(CollapseWhitespace(s)) == Significant(s)
    decreases |s|
  {
    if |s| > 0 {
      if IsWhitespace(s[0]) {
        var d := DropWhitespace(s);
        CollapseKeepsSignificant(d);
        DropWhitespaceSignificant(s);
        assert ([Underscore] + CollapseWhitespace(d))[1..] == CollapseWhitespace(d);
      } else {
        CollapseKeepsSignificant(s[1..]);
        assert ([s[0]] + CollapseWhitespace(s[1..]))[1..] == CollapseWhitespace(s[1..]);
      }
    }
  }

  /** `s` is empty or ends in a character other than whitespace. */
  predicate EndsSolid(s: string)
  {
    |s| == 0 || !IsWhitespace(s[|s| - 1])
  }

  /** `s` is empty or starts with a character other than whitespace. */
  predicate StartsSolid(s: string)
  {
    |s| == 0 || !IsWhitespace(s[0])
  }

  predicate AllWhitespace(w: string)
  {
    forall k :: 0 <= k < |w| ==> IsWhitespace(w[k])
  }

  /** A whitespace run is dropped up to the first other character. */
  lemma {:induction false} DropWhitespaceRun(w: string, b: string)
    requires AllWhitespace(w) && StartsSolid(b)
    ensures DropWhitespace(w + b) == b
    decreases |w|
  {
    if |w| == 0 {
      assert w + b == b;
    } else {
      assert (w + b)[1..] == w[1..] + b;
      DropWhitespaceRun(w[1..], b);
    }
  }

  /** Dropping leading whitespace stops inside a string that ends in another character. */
  lemma {:induction false} DropWhitespaceConcat(a: string, x: string)
    requires |a| > 0 && !IsWhitespace(a[|a| - 1])
    ensures DropWhitespace(a + x) == DropWhitespace(a) + x
    ensures |DropWhitespace(a)| > 0 && DropWhitespace(a)[|DropWhitespace(a)| - 1] == a[|a| - 1]
    decreases |a|
  {
    if IsWhitespace(a[0]) {
      assert (a + x)[1..] == a[1..] + x;
      DropWhitespaceConcat(a[1..], x);
    }
  }

  /** Collapsing splits at a boundary that does not fall inside a whitespace run. */
  lemma {:induction false} CollapseConcat(a: string, x: string)
    requires EndsSolid(a)
    ensures CollapseWhitespace(a + x) == CollapseWhitespace(a) + CollapseWhitespace(x)
    decreases |a|
  {
    if |a| == 0 {
      assert a + x == x;
    } else if !IsWhitespace(a[0]) {
      assert (a + x)[1..] == a[1..] + x;
      CollapseConcat(a[1..], x);
    } else {
      var d := DropWhitespace(a);
      DropWhitespaceConcat(a, x);
      CollapseConcat(d, x);
    }
  }

  /**
   * Each maximal whitespace run becomes exactly one `_`, and the text on
   * either side of it is collapsed on its own.
   */
  lemma CollapseRun(a: string, w: string, b: string)
    requires EndsSolid(a) && StartsSolid(b)
    requires |w| > 0 && AllWhitespace(w)
    ensures CollapseWhitespace(a + w + b) == CollapseWhitespace(a) + [Underscore] + CollapseWhitespace(b)
  {
    StringAssoc(a, w, b);
    CollapseConcat(a, w + b);
    CollapseRunFirst(w, b);
    StringAssoc(CollapseWhitespace(a), [Underscore], CollapseWhitespace(b));
  }

  /** A string that opens with a whitespace run collapses it to one `_`. */
  lemma CollapseRunFirst(w: string, b: string)
    requires StartsSolid(b)
    requires |w| > 0 && AllWhitespace(w)
    ensures CollapseWhitespace(w + b) == [Underscore] + CollapseWhitespace(b)
  {
    assert (w + b)[0] == w[0];
    DropWhitespaceRun(w, b);
  }

  lemma StringAssoc(a: string, b: string, c: string)
    ensures a + b + c == a + (b + c)
  {
  }

  /** A single character is dropped exactly when it is one of the listed ones. */
  lemma StripCharsSingle(c: char)
    ensures StripChars([c]) == if IsStripped(c) then [] else [c]
  {
    assert [c][1..] == [];
  }

  /** A raw name `*join` keeps its star in the id but loses it in the display name. */
  lemma StarNameExample(name: string)
    requires name == "*join"
    ensures DisplayName(name) == "join"
    ensures DocumentationId(name) == "*join"
  {
    assert IsCleanId(name);
    CleanIdFixed(name);
  }

  /** Removal works character by character: it keeps the order of what it keeps. */
  lemma {:induction false} StripCharsConcat(a: string, b: string)
    ensures StripChars(a + b) == StripChars(a) + StripChars(b)
    decreases |a|
  {
    if |a| > 0 {
      assert (a + b)[1..] == a[1..] + b;
      StripCharsConcat(a[1..], b);
    } else {
      assert a + b == b;
    }
  }

  lemma LowerAmpersand(name: string)
    requires name == "A & B"
    ensures LowerCase(name) == ['a', ' ', '&', ' ', 'b']
  {
  }

  lemma StripAmpersand(s: string)
    requires s == ['a', ' ', '&', ' ', 'b']
    ensures StripChars(s) == ['a', ' ', ' ', 'b']
  {
    var head := ['a', ' '];
    var tail := ['&', ' ', 'b'];
    assert s == head + tail;
    StripCharsConcat(head, tail);
    StripCharsClean(head);
    StripAmpersandTail(tail);
  }

  lemma StripAmpersandTail(t: string)
    requires t == ['&', ' ', 'b']
    ensures StripChars(t) == [' ', 'b']
  {
    assert t[1..] == [' ', 'b'];
    StripCharsClean([' ', 'b']);
  }

  lemma CollapseAmpersand(s: string)
    requires s == ['a', ' ', ' ', 'b']
    ensures CollapseWhitespace(s) == ['a', '_', 'b']
  {
    assert s[1..] == [' ', ' ', 'b'];
    var d := [' ', ' ', 'b'];
    assert DropWhitespace(d) == ['b'] by {
      assert d[1..] == [' ', 'b'];
      assert d[1..][1..] == ['b'];
    }
    CollapseClean(['b']);
  }

  /** Removal runs before the whitespace collapse, so `A & B` becomes `a_b`. */
  lemma AmpersandExample(name: string)
    requires name == "A & B"
    ensures DisplayName(name) == "On A & B"
    ensures DocumentationId(name) == "a_b"
  {
    LowerAmpersand(name);
    StripAmpersand(LowerCase(name));
    CollapseAmpersand(StripChars(LowerCase(name)));
  }
}

=== FILE: event_patterns.dfy ===
/**
 * The event-pattern canonicaliser (`BukkitInfos.fixPattern`) and the
 * `[on] ... [with priority (...)]` frame that event descriptors put around it
 * (`BukkitSyntaxInfos.pattern`, and the private copy in the older
 * `BukkitSyntaxInfoImpl.EventImpl`).
 *
 * `Fix(s, inType)` is the left-to-right scan written as a recursion on the
 * characters still to be read: looking two characters ahead in the rest of
 * the input is the same as the source's `i + 2 < chars.length` test.
 * `Walk` and `Marks` restate the scan declaratively, position by position,
 * and `FixPatternIsInsertion` connects the two; `FixPattern` carries the
 * result in its contract.
 */
module EventPatterns {

  import opened Outcomes

  const Percent: char := '%'
  const Dash: char := '-'
  const Backslash: char := '\\'

  /** The literal prefix every stored event pattern starts with. */
  const OnPrefix: string := "[on] "
  /** The literal suffix listing the six event priority levels. */
  const PrioritySuffix: string := " [with priority (lowest|low|normal|high|highest|monitor)]"

  /** The scan, from the current position to the end, in state `inType`. */
  function Fix(s: string, inType: bool): string
    decreases |s|
  {
    if |s| == 0 then []
    else if s[0] == Percent then
      var opening := !inType;
      var dash := opening && 2 < |s| && s[1] != Dash && s[2] != Dash;
      [Percent] + (if dash then [Dash] else []) + Fix(s[1..], opening)
    else if s[0] == Backslash && 1 < |s| then
      s[..2] + Fix(s[2..], inType)
    else
      [s[0]] + Fix(s[1..], inType)
  }

  /**
   * `BukkitInfos.fixPattern`: the scan starts outside any type span. The
   * result is the input with a dash after exactly the marked positions, and
   * deleting those dashes gives the input back.
   */
  function FixPattern(s: string): (r: string)
    ensures r == Insert(s, Marks(s))
    ensures Remove(r, Marks(s)) == s
  {
    FixPatternIsInsertion(s);
    RemoveInsert(s, Marks(s));
    Fix(s, false)
  }

  /**
   * One iteration of the source's loop at position `i`: the characters it
   * appends, the position it moves to, and the new `inType`.
   */
  function Step(s: string, i: nat, inType: bool): (res: (string, nat, bool))
    requires i < |s|
    ensures i < res.1 <= |s|
  {
    if s[i] == Percent then
      var opening := !inType;
      if opening && i + 2 < |s| && s[i + 1] != Dash && s[i + 2] != Dash
      then ([Percent, Dash], i + 1, opening)
      else ([Percent], i + 1, opening)
    else if s[i] == Backslash && i + 1 < |s| then
      ([s[i], s[i + 1]], i + 2, inType)
    else
      ([s[i]], i + 1, inType)
  }

  /** The scan indexed as the source's loop is: what the iterations from position `i` append. */
  function FixFrom(s: string, i: nat, inType: bool): string
    requires i <= |s|
    decreases |s| - i
  {
    if i == |s| then []
    else
      var (emit, next, t) := Step(s, i, inType);
      emit + FixFrom(s, next, t)
  }

  /** The indexed scan from `i` is the scan of the suffix starting at `i`. */
  lemma {:induction false} FixFromSuffix(s: string, i: nat, t: bool)
    requires i <= |s|
    ensures FixFrom(s, i, t) == Fix(s[i..], t)
    decreases |s| - i
  {
    if i < |s| {
      FixStep(s, i, t);
      var (_, next, t') := Step(s, i, t);
      FixFromSuffix(s, next, t');
    }
  }

  lemma ConcatAssoc(a: string, b: string, c: string)
    ensures a + (b + c) == (a + b) + c
  {
  }

  /** The loop of `BukkitInfos.fixPattern`, one `Step` per iteration. */
  method FixPatternLoop(s: string) returns (r: string)
    ensures r == FixPattern(s)
  {
    var out: string := [];
    var inType := false;
    var i := 0;
    while i < |s|
      invariant 0 <= i <= |s|
      invariant out + FixFrom(s, i, inType) == FixFrom(s, 0, false)
      decreases |s| - i
    {
      var emit, next, t := Step(s, i, inType).0, Step(s, i, inType).1, Step(s, i, inType).2;
      ConcatAssoc(out, emit, FixFrom(s, next, t));
      out, i, inType := out + emit, next, t;
    }
    FixFromSuffix(s, 0, false);
    assert s[0..] == s;
    r := out;
  }

  /**
   * `BukkitSyntaxInfos.pattern` (and the identical private helper of the
   * older `BukkitSyntaxInfoImpl.EventImpl`): the canonicalised pattern between
   * the `[on] ` prefix and the priority suffix.
   */
  function EventPattern(p: string): (r: string)
    ensures |r| == 5 + |FixPattern(p)| + |PrioritySuffix|
    ensures r[..5] == "[on] "
    ensures r[|r| - |PrioritySuffix|..] == PrioritySuffix
    ensures Unframe(r) == Some(FixPattern(p))
  {
    var f := FixPattern(p);
    var r := OnPrefix + f + PrioritySuffix;
    assert r[..|OnPrefix|] == OnPrefix;
    assert r[|r| - |PrioritySuffix|..] == PrioritySuffix;
    assert r[|OnPrefix|..|r| - |PrioritySuffix|] == f;
    r
  }

  /** Reads the canonicalised pattern back out of a stored event pattern. */
  function Unframe(r: string): (m: Option<string>)
    ensures m.Some? ==> r == OnPrefix + m.value + PrioritySuffix
  {
    if |r| >= |OnPrefix| + |PrioritySuffix|
       && r[..|OnPrefix|] == OnPrefix
       && r[|r| - |PrioritySuffix|..] == PrioritySuffix
    then
      var m := r[|OnPrefix|..|r| - |PrioritySuffix|];
      assert r == r[..|OnPrefix|] + m + r[|r| - |PrioritySuffix|..];
      Some(m)
    else None
  }

  /** An opening `%` followed by two characters other than `-` gets a dash. */
  lemma OpensWithDash(s: string)
    requires |s| > 2 && s[0] == Percent && s[1] != Dash && s[2] != Dash
    ensures Fix(s, false) == [Percent, Dash] + Fix(s[1..], true)
  {
  }

  /** An opening `%` already followed by `-` is copied alone. */
  lemma OpensWithoutDash(s: string)
    requires |s| > 1 && s[0] == Percent && s[1] == Dash
    ensures Fix(s, false) == [Percent] + Fix(s[1..], true)
  {
  }

  lemma PlayerTail(x: string)
    requires x == "player%"
    ensures Fix(x, true) == x
  {
    assert x == "player" + "%";
    PlainPrefix("player", "%", true);
    assert Fix("%", true) == "%" by {
      assert "%"[1..] == [];
    }
  }

  lemma PlayerFixExample(p: string)
    requires p == "%player%"
    ensures FixPattern(p) == "%-player%"
  {
    PlayerScan(p);
  }

  lemma PlayerScan(p: string)
    requires p == "%player%"
    ensures Fix(p, false) == "%-player%"
  {
    var tail := p[1..];
    assert tail == "player%";
    OpensWithDash(p);
    PlayerTail(tail);
    assert Fix(p, false) == [Percent, Dash] + tail;
  }

  lemma PlayerPatternExample(p: string)
    requires p == "%player%"
    ensures EventPattern(p) == OnPrefix + "%-player%" + PrioritySuffix
  {
    PlayerFixExample(p);
  }

  // ---------------------------------------------------------------------
  // Declarative reading of the scan
  // ---------------------------------------------------------------------

  /** Scan state on arrival at position `k`. */
  datatype ScanState = ScanState(inType: bool, head: bool)

  /**
   * The state in which the scan reaches position `k`: `head` is false when
   * `k` holds the character escaped by a backslash at `k - 1`, which the scan
   * copies without looking at it; `inType` is the toggle flag.
   */
  function Walk(s: string, k: nat): ScanState
    requires k <= |s|
    decreases k
  {
    if k == 0 then ScanState(false, true)
    else
      var prev := Walk(s, k - 1);
      if !prev.head then ScanState(prev.inType, true)
      else if s[k - 1] == Percent then ScanState(!prev.inType, true)
      else if s[k - 1] == Backslash && k < |s| then ScanState(prev.inType, false)
      else ScanState(prev.inType, true)
  }

  /**
   * A dash follows position `k` exactly when `k` holds a `%` that the scan
   * reads (not an escaped one), that `%` opens a type span, and the two
   * following input characters exist and are both different from `-`.
   */
  predicate Marked(s: string, k: nat)
    requires k < |s|
  {
    var st := Walk(s, k);
    st.head && !st.inType && s[k] == Percent
    && k + 2 < |s| && s[k + 1] != Dash && s[k + 2] != Dash
  }

  function Marks(s: string): (m: seq<bool>)
    ensures |m| == |s|
  {
    seq(|s|, k requires 0 <= k < |s| => Marked(s, k))
  }

  /** `s` with a dash inserted after every position whose mark is set. */
  function Insert(s: string, marks: seq<bool>): (r: string)
    requires |marks| == |s|
    ensures |r| >= |s|
    decreases |s|
  {
    if |s| == 0 then []
    else [s[0]] + (if marks[0] then [Dash] else []) + Insert(s[1..], marks[1..])
  }

  /** Undo of `Insert`: drop the character after each marked position. */
  function Remove(t: string, marks: seq<bool>): string
    decreases |marks|
  {
    if |marks| == 0 || |t| == 0 then []
    else if marks[0] && 2 <= |t| then [t[0]] + Remove(t[2..], marks[1..])
    else [t[0]] + Remove(t[1..], marks[1..])
  }

  lemma {:induction false} RemoveInsert(s: string, marks: seq<bool>)
    requires |marks| == |s|
    ensures Remove(Insert(s, marks), marks) == s
    decreases |s|
  {
    if |s| > 0 {
      var rest := Insert(s[1..], marks[1..]);
      var t := Insert(s, marks);
      if marks[0] {
        assert t == [s[0], Dash] + rest;
        assert t[2..] == rest;
      } else {
        assert t == [s[0]] + rest;
        assert t[1..] == rest;
      }
      RemoveInsert(s[1..], marks[1..]);
    }
  }

  /** One step of `Insert`, read at position `k` of the whole input. */
  lemma InsertStep(s: string, m: seq<bool>, k: nat)
    requires |m| == |s| && k < |s|
    ensures Insert(s[k..], m[k..])
         == [s[k]] + (if m[k] then [Dash] else []) + Insert(s[k + 1..], m[k + 1..])
  {
    assert s[k..][1..] == s[k + 1..];
    assert m[k..][1..] == m[k + 1..];
  }

  /** One step of `Fix`, read at position `k` of the whole input. */
  lemma FixStep(s: string, k: nat, t: bool)
    requires k < |s|
    ensures s[k] == Percent ==>
      Fix(s[k..], t) == [Percent]
        + (if !t && k + 2 < |s| && s[k + 1] != Dash && s[k + 2] != Dash then [Dash] else [])
        + Fix(s[k + 1..], !t)
    ensures s[k] != Percent && s[k] == Backslash && k + 1 < |s| ==>
      Fix(s[k..], t) == [s[k], s[k + 1]] + Fix(s[k + 2..], t)
    ensures s[k] != Percent && !(s[k] == Backslash && k + 1 < |s|) ==>
      Fix(s[k..], t) == [s[k]] + Fix(s[k + 1..], t)
  {
    assert s[k..][1..] == s[k + 1..];
    if k + 1 < |s| {
      assert s[k..][..2] == [s[k], s[k + 1]];
      assert s[k..][2..] == s[k + 2..];
    }
  }

  /** The equation `FixFromIsInsertion` proves, at one position. */
  ghost predicate InsertsMarked(s: string, k: nat)
    requires k <= |s|
  {
    Fix(s[k..], Walk(s, k).inType) == Insert(s[k..], Marks(s)[k..])
  }

  lemma PercentStep(s: string, k: nat)
    requires k < |s| && s[k] == Percent && Walk(s, k).head
    requires InsertsMarked(s, k + 1)
    ensures InsertsMarked(s, k)
  {
    var t := Walk(s, k).inType;
    var m := Marks(s);
    var dash := !t && k + 2 < |s| && s[k + 1] != Dash && s[k + 2] != Dash;
    assert Walk(s, k + 1) == ScanState(!t, true);
    assert Fix(s[k..], t) == [Percent] + (if dash then [Dash] else []) + Fix(s[k + 1..], !t) by {
      FixStep(s, k, t);
    }
    assert Insert(s[k..], m[k..]) == [Percent] + (if dash then [Dash] else []) + Insert(s[k + 1..], m[k + 1..]) by {
      assert m[k] == dash;
      InsertStep(s, m, k);
    }
  }

  /** Two unmarked positions in a row are copied as they are. */
  lemma InsertTwoUnmarked(s: string, m: seq<bool>, k: nat)
    requires |m| == |s| && k + 1 < |s| && !m[k] && !m[k + 1]
    ensures Insert(s[k..], m[k..]) == [s[k], s[k + 1]] + Insert(s[k + 2..], m[k + 2..])
  {
    InsertStep(s, m, k);
    InsertStep(s, m, k + 1);
  }

  /** Neither character of an escape pair is marked, and the pair leaves the type flag alone. */
  lemma EscapeUnmarked(s: string, k: nat)
    requires k + 1 < |s| && s[k] == Backslash && Walk(s, k).head
    ensures !Marks(s)[k] && !Marks(s)[k + 1]
    ensures Walk(s, k + 2).inType == Walk(s, k).inType
  {
    assert Walk(s, k + 1) == ScanState(Walk(s, k).inType, false);
  }

  lemma EscapeStep(s: string, k: nat)
    requires k + 1 < |s| && s[k] == Backslash && Walk(s, k).head
    requires InsertsMarked(s, k + 2)
    ensures InsertsMarked(s, k)
  {
    FixStep(s, k, Walk(s, k).inType);
    EscapeUnmarked(s, k);
    InsertTwoUnmarked(s, Marks(s), k);
  }

  lemma PlainStep(s: string, k: nat)
    requires k < |s| && s[k] != Percent && !(s[k] == Backslash && k + 1 < |s|)
    requires Walk(s, k).head
    requires InsertsMarked(s, k + 1)
    ensures InsertsMarked(s, k)
  {
    var t := Walk(s, k).inType;
    var m := Marks(s);
    assert Walk(s, k + 1) == ScanState(t, true);
    assert Fix(s[k..], t) == [s[k]] + Fix(s[k + 1..], t) by {
      FixStep(s, k, t);
    }
    assert Insert(s[k..], m[k..]) == [s[k]] + Insert(s[k + 1..], m[k + 1..]) by {
      assert !m[k];
      InsertStep(s, m, k);
    }
  }

  /** The scan from any position it actually reaches inserts exactly the marked dashes. */
  lemma {:induction false} FixFromIsInsertion(s: string, k: nat)
    requires k <= |s|
    requires Walk(s, k).head
    ensures InsertsMarked(s, k)
    decreases |s| - k
  {
    if k == |s| {
      assert s[k..] == [];
    } else if s[k] == Percent {
      assert Walk(s, k + 1).head;
      FixFromIsInsertion(s, k + 1);
      PercentStep(s, k);
    } else if s[k] == Backslash && k + 1 < |s| {
      assert Walk(s, k + 1) == ScanState(Walk(s, k).inType, false);
      assert Walk(s, k + 2).head;
      FixFromIsInsertion(s, k + 2);
      EscapeStep(s, k);
    } else {
      assert Walk(s, k + 1).head;
      FixFromIsInsertion(s, k + 1);
      PlainStep(s, k);
    }
  }

  lemma FixPatternIsInsertion(s: string)
    ensures Fix(s, false) == Insert(s, Marks(s))
  {
    FixFromIsInsertion(s, 0);
    assert s[0..] == s && Marks(s)[0..] == Marks(s);
  }

  /** A `%` that closes a type span is never followed by an inserted dash. */
  lemma ClosingPercentNotMarked(s: string, k: nat)
    requires k < |s| && s[k] == Percent
    requires Walk(s, k).head && Walk(s, k).inType
    ensures !Marks(s)[k]
    ensures !Walk(s, k + 1).inType
  {
  }

  /**
   * A backslash that the scan reads, followed by a character, copies that
   * character untouched: it carries no mark and the flag after it is the
   * flag before the backslash.
   */
  lemma EscapeCopiesVerbatim(s: string, k: nat)
    requires k + 1 < |s| && s[k] == Backslash && Walk(s, k).head
    ensures !Marks(s)[k] && !Marks(s)[k + 1]
    ensures !Walk(s, k + 1).head
    ensures Walk(s, k + 2) == Walk(s, k)
  {
    assert Walk(s, k + 1) == ScanState(Walk(s, k).inType, false);
  }

  /** With no `%` in the input, nothing is inserted. */
  lemma {:induction false} NoPercentUnchanged(s: string, inType: bool)
    requires forall k :: 0 <= k < |s| ==> s[k] != Percent
    ensures Fix(s, inType) == s
    decreases |s|
  {
    if |s| > 0 {
      if s[0] == Backslash && 1 < |s| {
        NoPercentUnchanged(s[2..], inType);
        assert s == s[..2] + s[2..];
      } else {
        NoPercentUnchanged(s[1..], inType);
        assert s == [s[0]] + s[1..];
      }
    }
  }

  lemma NoPercentFixPatternUnchanged(s: string)
    requires Percent !in s
    ensures FixPattern(s) == s
  {
    NoPercentUnchanged(s, false);
  }

  // ---------------------------------------------------------------------
  // Idempotence
  // ---------------------------------------------------------------------

  /** The scan keeps a `-` that stands first or second in its input in place. */
  lemma FixKeepsLeadingDashes(u: string, t: bool)
    ensures |u| <= 1 ==> Fix(u, t) == u
    ensures |u| >= 1 && u[0] == Dash ==> |Fix(u, t)| >= 1 && Fix(u, t)[0] == Dash
    ensures |u| >= 2 && u[1] == Dash ==> |Fix(u, t)| >= 2 && Fix(u, t)[1] == Dash
  {
    if |u| == 1 {
      assert Fix(u[1..], !t) == [];
      assert Fix(u[1..], t) == [];
    }
    if |u| >= 2 && u[1] == Dash && u[0] != Dash {
      assert u[1..][0] == Dash;
      FixKeepsLeadingDashes(u[1..], !t);
      FixKeepsLeadingDashes(u[1..], t);
    }
  }

  lemma IdempotentPercent(s: string, t: bool)
    requires |s| > 0 && s[0] == Percent
    requires Fix(Fix(s[1..], !t), !t) == Fix(s[1..], !t)
    ensures Fix(Fix(s, t), t) == Fix(s, t)
  {
    var opening := !t;
    var rest := Fix(s[1..], opening);
    if opening && 2 < |s| && s[1] != Dash && s[2] != Dash {
      IdempotentInserted(s, t);
    } else {
      var o := Fix(s, t);
      assert o == [Percent] + rest;
      assert o[1..] == rest;
      FixKeepsLeadingDashes(s[1..], opening);
    }
  }

  lemma ConsCons(a: char, b: char, x: string)
    ensures [a] + ([b] + x) == [a, b] + x
  {
  }

  lemma IdempotentInserted(s: string, t: bool)
    requires |s| > 2 && s[0] == Percent && !t && s[1] != Dash && s[2] != Dash
    requires Fix(Fix(s[1..], true), true) == Fix(s[1..], true)
    ensures Fix(Fix(s, t), t) == Fix(s, t)
  {
    var rest := Fix(s[1..], true);
    OpensWithDash(s);
    var o := [Percent, Dash] + rest;
    OpensWithoutDash(o);
    assert o[1..] == [Dash] + rest;
    PlainPrefix([Dash], rest, true);
    ConsCons(Percent, Dash, rest);
  }

  lemma IdempotentEscape(s: string, t: bool)
    requires |s| > 1 && s[0] == Backslash
    requires Fix(Fix(s[2..], t), t) == Fix(s[2..], t)
    ensures Fix(Fix(s, t), t) == Fix(s, t)
  {
    var o := Fix(s, t);
    assert o[..2] == s[..2] && o[2..] == Fix(s[2..], t);
  }

  lemma IdempotentPlain(s: string, t: bool)
    requires |s| > 0 && s[0] != Percent && !(s[0] == Backslash && 1 < |s|)
    requires Fix(Fix(s[1..], t), t) == Fix(s[1..], t)
    ensures Fix(Fix(s, t), t) == Fix(s, t)
  {
    var rest := Fix(s[1..], t);
    var o := Fix(s, t);
    assert o[1..] == rest;
    if s[0] == Backslash {
      assert |s| == 1 && rest == [];
    }
  }

  lemma {:induction false} FixIdempotent(s: string, t: bool)
    ensures Fix(Fix(s, t), t) == Fix(s, t)
    decreases |s|
  {
    if |s| == 0 {
    } else if s[0] == Percent {
      FixIdempotent(s[1..], !t);
      IdempotentPercent(s, t);
    } else if s[0] == Backslash && 1 < |s| {
      FixIdempotent(s[2..], t);
      IdempotentEscape(s, t);
    } else {
      FixIdempotent(s[1..], t);
      IdempotentPlain(s, t);
    }
  }

  /** Applying `fixPattern` to its own output inserts nothing more. */
  lemma FixPatternIdempotent(s: string)
    ensures FixPattern(FixPattern(s)) == FixPattern(s)
  {
    FixIdempotent(s, false);
  }

  // ---------------------------------------------------------------------
  // Concrete results
  // ---------------------------------------------------------------------

  /** Characters other than `%` and `\\` are copied one by one. */
  lemma {:induction false} PlainPrefix(p: string, rest: string, t: bool)
    requires forall k :: 0 <= k < |p| ==> p[k] != Percent && p[k] != Backslash
    ensures Fix(p + rest, t) == p + Fix(rest, t)
    decreases |p|
  {
    if |p| == 0 {
      assert p + rest == rest;
    } else {
      var u := p + rest;
      assert u[0] == p[0] && u[1..] == p[1..] + rest;
      assert Fix(u, t) == [p[0]] + Fix(u[1..], t);
      PlainPrefix(p[1..], rest, t);
      assert p == [p[0]] + p[1..];
    }
  }

  lemma ClosingExample()
    ensures Fix("% test", true) == "% test"
  {
    assert "% test"[1..] == " test";
    NoPercentUnchanged(" test", false);
  }

  /** Inside a type, a `%` is copied alone and ends the type. */
  lemma ClosesType(rest: string)
    ensures Fix([Percent] + rest, true) == [Percent] + Fix(rest, false)
  {
    assert ([Percent] + rest)[1..] == rest;
  }

  /**
   * A type span whose name starts with neither one nor two dashes gets one:
   * `%number% test` becomes `%-number% test`.
   */
  lemma {:induction false} TypeSpanGetsDash(name: string, text: string)
    requires |name| > 0 && name[0] != Dash && (|name| == 1 || name[1] != Dash)
    requires forall k :: 0 <= k < |name| ==> name[k] != Percent && name[k] != Backslash
    requires forall k :: 0 <= k < |text| ==> text[k] != Percent
    ensures FixPattern([Percent] + name + [Percent] + text) == [Percent, Dash] + name + [Percent] + text
  {
    var tail := [Percent] + text;
    var s := [Percent] + (name + tail);
    assert [Percent] + name + [Percent] + text == s;
    assert s[1..] == name + tail;
    assert s[2] != Dash by {
      assert |name| == 1 ==> s[2] == Percent;
    }
    OpensWithDash(s);
    PlainPrefix(name, tail, true);
    ClosesType(text);
    NoPercentUnchanged(text, false);
    assert [Percent, Dash] + (name + tail) == [Percent, Dash] + name + [Percent] + text;
  }

  /** A type span whose name already starts with a dash is left alone: `%-number% test` stays. */
  lemma {:induction false} MarkedTypeSpanUnchanged(name: string, text: string)
    requires |name| > 0 && name[0] == Dash
    requires forall k :: 0 <= k < |name| ==> name[k] != Percent && name[k] != Backslash
    requires forall k :: 0 <= k < |text| ==> text[k] != Percent
    ensures FixPattern([Percent] + name + [Percent] + text) == [Percent] + name + [Percent] + text
  {
    var tail := [Percent] + text;
    var s := [Percent] + (name + tail);
    assert [Percent] + name + [Percent] + text == s;
    assert s[1..] == name + tail;
    OpensWithoutDash(s);
    PlainPrefix(name, tail, true);
    ClosesType(text);
    NoPercentUnchanged(text, false);
  }

  lemma EscapedPercentExample(c: string)
    requires c == "\\%not a type\\%"
    ensures FixPattern(c) == c
  {
    EscapedPercentScan(c);
  }

  lemma EscapedPercentScan(c: string)
    requires c == "\\%not a type\\%"
    ensures Fix(c, false) == c
  {
    assert c[2..] == "not a type" + "\\%";
    PlainPrefix("not a type", "\\%", false);
    assert "\\%"[2..] == [];
    assert Fix(c, false) == c[..2] + Fix(c[2..], false);
  }
}

=== FILE: info_builder.dfy ===
/**
 * `SyntaxInfoBuilder`: collects an origin and patterns for an element class,
 * then builds a plain info or hands a snapshot to an expression or
 * structure stage.
 */
module SyntaxInfoBuilders {
  import opened Outcomes
  import opened SyntaxTypes
  import SyntaxInfos

  datatype Builder = Builder(elementType: TypeTag, patterns: seq<string>, origin: Origin)

  /** `builder(type)`: no patterns, origin `SyntaxOrigin.UNKNOWN`. */
  function NewBuilder(elementType: TypeTag): (b: Builder)
    ensures b.elementType == elementType && b.patterns == [] && b.origin == UnknownOrigin
  {
    Builder(elementType, [], UnknownOrigin)
  }

  /** `origin(o)`: overwrites, so the last call wins. */
  function SetOrigin(b: Builder, o: Origin): (r: Builder)
    ensures r.origin == o && r.elementType == b.elementType && r.patterns == b.patterns
  {
    b.(origin := o)
  }

  /** `addPattern(p)`: appends one pattern. */
  function AddPattern(b: Builder, p: string): (r: Builder)
    ensures r.patterns == b.patterns + [p]
    ensures r.elementType == b.elementType && r.origin == b.origin
  {
    b.(patterns := b.patterns + [p])
  }

  /** `addPatterns(...)`, array or list form: `addPattern` on each element in order. */
  function AddPatterns(b: Builder, ps: seq<string>): (r: Builder)
    ensures r.patterns == b.patterns + ps
    ensures r.elementType == b.elementType && r.origin == b.origin
    decreases |ps|
  {
    if |ps| == 0 then b
    else
      var r := AddPatterns(AddPattern(b, ps[0]), ps[1..]);
      assert b.patterns + [ps[0]] + ps[1..] == b.patterns + ps;
      r
  }

  /** `build()`: a plain info from the origin, class and current patterns. */
  function Build(b: Builder): (r: SyntaxInfos.SyntaxInfo)
    ensures r.origin == b.origin && r.elementType == b.elementType && r.patterns == b.patterns
    ensures r.payload.PlainInfo?
  {
    SyntaxInfos.NewInfo(b.origin, b.elementType, b.patterns)
  }

  // ---------------------------------------------------------------------
  // Stages
  // ---------------------------------------------------------------------

  /** The expression stage, holding its own copy of the patterns. */
  datatype ExpressionStage = ExpressionStage(
    origin: Origin, elementType: TypeTag, patterns: seq<string>,
    returnType: TypeTag, expressionType: Option<ExpressionType>)

  datatype StructureStage = StructureStage(
    origin: Origin, elementType: TypeTag, patterns: seq<string>,
    entryValidator: Option<Validator>)

  const ExpressionTypeMessage: string := "expressionType is not set"

  /** `expression(returnType)`: a stage with the builder's fields as they are now. */
  function Expression(b: Builder, returnType: TypeTag): (s: ExpressionStage)
    ensures s.origin == b.origin && s.elementType == b.elementType && s.patterns == b.patterns
    ensures s.returnType == returnType && s.expressionType.None?
  {
    ExpressionStage(b.origin, b.elementType, b.patterns, returnType, None)
  }

  function SetExpressionType(s: ExpressionStage, t: ExpressionType): ExpressionStage
  {
    s.(expressionType := Some(t))
  }

  /**
   * `build()` of the expression stage: an unset expression type is a
   * `NullPointerException`; otherwise the expression constructor decides.
   */
  function BuildExpression(s: ExpressionStage): (r: Result<SyntaxInfos.SyntaxInfo>)
    ensures s.expressionType.None? ==> r == Err(NullPointer(ExpressionTypeMessage))
    ensures s.expressionType.Some? ==>
              r == SyntaxInfos.NewExpression(s.origin, s.elementType, s.patterns,
                                             s.returnType, s.expressionType.value)
    ensures r.Ok? <==> s.expressionType.Some? && s.returnType.kind == NormalType
  {
    match s.expressionType
    case None => Err(NullPointer(ExpressionTypeMessage))
    case Some(t) => SyntaxInfos.NewExpression(s.origin, s.elementType, s.patterns, s.returnType, t)
  }

  /** `structure()`: a stage with the builder's fields as they are now and no validator. */
  function Structure(b: Builder): (s: StructureStage)
    ensures s.origin == b.origin && s.elementType == b.elementType && s.patterns == b.patterns
    ensures s.entryValidator.None?
  {
    StructureStage(b.origin, b.elementType, b.patterns, None)
  }

  function SetEntryValidator(s: StructureStage, v: Validator): StructureStage
  {
    s.(entryValidator := Some(v))
  }

  /** `build()` of the structure stage passes the validator through, absent if never set. */
  function BuildStructure(s: StructureStage): (r: SyntaxInfos.SyntaxInfo)
    ensures r.origin == s.origin && r.elementType == s.elementType && r.patterns == s.patterns
    ensures r.payload == SyntaxInfos.StructureInfo(s.entryValidator)
  {
    SyntaxInfos.NewStructure(s.origin, s.elementType, s.patterns, s.entryValidator)
  }

  // ---------------------------------------------------------------------
  // Properties
  // ---------------------------------------------------------------------

  /** Adding a list in one call equals adding its parts in two calls. */
  lemma {:induction false} AddPatternsSplit(b: Builder, ps: seq<string>, qs: seq<string>)
    ensures AddPatterns(AddPatterns(b, ps), qs) == AddPatterns(b, ps + qs)
  {
    assert b.patterns + ps + qs == b.patterns + (ps + qs);
  }

  /**
   * A stage keeps the patterns of the moment it was taken: patterns added to
   * the builder afterwards reach `build()` but not the stage.
   */
  lemma StageSnapshot(b: Builder, returnType: TypeTag, later: seq<string>)
    ensures Expression(b, returnType).patterns == b.patterns
    ensures Structure(b).patterns == b.patterns
    ensures Build(AddPatterns(b, later)).patterns == b.patterns + later
    ensures |later| > 0 ==> Build(AddPatterns(b, later)).patterns != Expression(b, returnType).patterns
  {
  }

  /** A fresh builder given patterns and an origin builds exactly those, in order. */
  lemma BuildFromScratch(t: TypeTag, o: Origin, ps: seq<string>)
    ensures Build(SetOrigin(AddPatterns(NewBuilder(t), ps), o)) == SyntaxInfos.NewInfo(o, t, ps)
    ensures Build(AddPatterns(NewBuilder(t), ps)).origin == UnknownOrigin
  {
  }

  /** The last expression type set is the one the expression is built with. */
  lemma ExpressionTypeLastWins(s: ExpressionStage, t1: ExpressionType, t2: ExpressionType)
    ensures BuildExpression(SetExpressionType(SetExpressionType(s, t1), t2))
              == SyntaxInfos.NewExpression(s.origin, s.elementType, s.patterns, s.returnType, t2)
  {
  }

  /** The last entry validator set is the one the structure carries; nothing else changes. */
  lemma EntryValidatorLastWins(u: StructureStage, v1: Validator, v2: Validator)
    ensures BuildStructure(SetEntryValidator(SetEntryValidator(u, v1), v2)).payload
              == SyntaxInfos.StructureInfo(Some(v2))
    ensures BuildStructure(SetEntryValidator(SetEntryValidator(u, v1), v2))
              == BuildStructure(u).(payload := SyntaxInfos.StructureInfo(Some(v2)))
  {
  }
}

=== FILE: int32.dfy ===
/**
 * Java's 32-bit signed `int`, with the wrap-around of `++` made explicit.
 */
module Int32s {

  const MinInt32: int := -0x8000_0000
  const MaxInt32: int := 0x7fff_ffff

  type Int32 = x: int | MinInt32 <= x <= MaxInt32

  /** `x + 1` on a Java `int`: the largest value wraps to the smallest. */
  function Inc(x: Int32): (r: Int32)
    ensures x < MaxInt32 ==> r == x + 1
    ensures x == MaxInt32 ==> r == MinInt32
  {
    if x == MaxInt32 then MinInt32 else x + 1
  }

  /** Java's `Integer.compare`: -1, 0 or 1. */
  function Compare(a: int, b: int): (r: int)
    ensures -1 <= r <= 1
    ensures r < 0 <==> a < b
    ensures r == 0 <==> a == b
    ensures r > 0 <==> a > b
  {
    if a < b then -1 else if a == b then 0 else 1
  }
}

=== FILE: keyed_registry.dfy ===
/**
 * `registration/SkriptRegistryImpl`: one register per key (keys compare by
 * name), registration that climbs from a child key to its parents, and a
 * close that freezes every register present.
 */
module KeyedRegistries {
  import opened Outcomes
  import opened Keys
  import R = SyntaxRegisters

  /** The key-to-register map, indexed by key name since keys compare by name. */
  datatype Registry<T> = Registry(registers: map<string, R.Register<T>>)

  /** The registry before anything has been asked of it. */
  function EmptyRegistry<T>(): (g: Registry<T>)
    ensures g.registers == map[]
  {
    Registry(map[])
  }

  /** `register(key)`: the key's register, created empty and stored on first use. */
  function RegisterOf<T>(g: Registry<T>, k: Key): (res: (Registry<T>, R.Register<T>))
    ensures k.name in g.registers ==> res == (g, g.registers[k.name])
    ensures k.name !in g.registers ==>
              res.0.registers == g.registers[k.name := R.Empty()] && res.1 == R.Empty()
  {
    if k.name in g.registers then (g, g.registers[k.name])
    else (Registry(g.registers[k.name := R.Empty()]), R.Empty())
  }

  /** `syntaxes(key)`: the key's list, creating an empty register for an unseen key. */
  function Syntaxes<T>(g: Registry<T>, k: Key): (res: (Registry<T>, seq<T>))
    ensures k.name !in g.registers ==> res.1 == [] && res.0.registers == g.registers[k.name := R.Empty()]
    ensures k.name in g.registers ==> res == (g, R.Syntaxes(g.registers[k.name]))
  {
    var p := RegisterOf(g, k);
    (p.0, R.Syntaxes(p.1))
  }

  /**
   * `register(key, info)`: add to the key's register, then, for a child key,
   * register under its parent. An exception stops the climb but keeps the
   * changes already made.
   */
  function Register<T>(g: Registry<T>, k: Key, id: int, info: T): (res: (Registry<T>, Option<Error>))
    ensures g.registers.Keys <= res.0.registers.Keys
    ensures k.name in res.0.registers
    decreases k
  {
    var p := RegisterOf(g, k);
    var added := R.Add(p.1, id, info);
    var g' := Registry(p.0.registers[k.name := added.0]);
    if added.1.Some? then (g', added.1)
    else if k.Child? then Register(g', k.parent, id, info)
    else (g', None)
  }

  /**
   * `closeRegistration()`: every register, visited in the map's iteration
   * order, is replaced by its frozen copy. A register that is already frozen
   * throws, leaving the ones visited before it replaced.
   */
  function CloseAll<T>(g: Registry<T>, order: seq<string>): (res: (Registry<T>, Option<Error>))
    requires forall i :: 0 <= i < |order| ==> order[i] in g.registers
    ensures res.0.registers.Keys == g.registers.Keys
    decreases |order|
  {
    if |order| == 0 then (g, None)
    else
      match R.Close(g.registers[order[0]])
      case Ok(f) => CloseAll(Registry(g.registers[order[0] := f]), order[1..])
      case Err(e) => (g, Some(e))
  }

  // ---------------------------------------------------------------------
  // What a registration may change
  // ---------------------------------------------------------------------

  /** Each register of `g` is still there in `g'`, unchanged or with `info` put under `id`. */
  ghost predicate Extends<T>(g: Registry<T>, g': Registry<T>, id: int, info: T)
  {
    forall n :: n in g.registers ==>
      && n in g'.registers
      && (g'.registers[n] == g.registers[n]
          || (g.registers[n].Live? && g'.registers[n] == R.Live(g.registers[n].entries[id := info])))
  }

  lemma ExtendsTransitive<T>(a: Registry<T>, b: Registry<T>, c: Registry<T>, id: int, info: T)
    requires Extends(a, b, id, info) && Extends(b, c, id, info)
    ensures Extends(a, c, id, info)
  {
    forall n | n in a.registers
      ensures n in c.registers
      ensures c.registers[n] == a.registers[n]
              || (a.registers[n].Live? && c.registers[n] == R.Live(a.registers[n].entries[id := info]))
    {
      if b.registers[n] != a.registers[n] {
        assert a.registers[n].entries[id := info][id := info] == a.registers[n].entries[id := info];
      }
    }
  }

  /** Registration only ever puts `info` under `id`; it never removes or replaces anything else. */
  lemma {:induction false} RegisterExtends<T>(g: Registry<T>, k: Key, id: int, info: T)
    ensures Extends(g, Register(g, k, id, info).0, id, info)
    decreases k
  {
    var p := RegisterOf(g, k);
    var added := R.Add(p.1, id, info);
    var g' := Registry(p.0.registers[k.name := added.0]);
    assert Extends(g, g', id, info);
    if added.1.None? && k.Child? {
      RegisterExtends(g', k.parent, id, info);
      ExtendsTransitive(g, g', Register(g', k.parent, id, info).0, id, info);
    }
  }

  /** Registers of names outside the key's lineage are left exactly as they were. */
  lemma {:induction false} RegisterFrame<T>(g: Registry<T>, k: Key, id: int, info: T)
    ensures forall n :: n !in Lineage(k) ==>
      && (n in Register(g, k, id, info).0.registers <==> n in g.registers)
      && (n in g.registers ==> Register(g, k, id, info).0.registers[n] == g.registers[n])
    decreases k
  {
    if k.Child? {
      var p := RegisterOf(g, k);
      var added := R.Add(p.1, id, info);
      var g' := Registry(p.0.registers[k.name := added.0]);
      if added.1.None? {
        RegisterFrame(g', k.parent, id, info);
      }
    }
  }

  /** After a successful registration the info sits under `id` in the register of every ancestor. */
  lemma {:induction false} RegisterReachesLineage<T>(g: Registry<T>, k: Key, id: int, info: T)
    requires Register(g, k, id, info).1.None?
    ensures forall n :: n in Lineage(k) ==>
      && n in Register(g, k, id, info).0.registers
      && Register(g, k, id, info).0.registers[n].Live?
      && id in Register(g, k, id, info).0.registers[n].entries
      && Register(g, k, id, info).0.registers[n].entries[id] == info
    decreases k
  {
    var p := RegisterOf(g, k);
    var added := R.Add(p.1, id, info);
    var g' := Registry(p.0.registers[k.name := added.0]);
    assert added.0.Live? && added.0.entries[id] == info;
    if k.Child? {
      RegisterReachesLineage(g', k.parent, id, info);
      RegisterExtends(g', k.parent, id, info);
    }
  }

  /** An info registered as a condition or an effect is also listed as a statement. */
  lemma StatementSeesConditionsAndEffects<T>(g: Registry<T>, k: Key, id: int, info: T)
    requires k == Condition || k == Effect
    requires Register(g, k, id, info).1.None?
    ensures info in Syntaxes(Register(g, k, id, info).0, Statement).1
  {
    RegisterReachesLineage(g, k, id, info);
    var g' := Register(g, k, id, info).0;
    assert Statement.name in Lineage(k);
    var reg := g'.registers[Statement.name];
    R.SyntaxesAscending(reg);
    var ks := R.Ascending(reg.entries.Keys);
    var i :| 0 <= i < |ks| && ks[i] == id;
    assert R.Syntaxes(reg)[i] == info;
  }

  /**
   * Registration is child first: when the parent's register refuses, the
   * error surfaces but the child's register already holds the info.
   */
  lemma ChildChangedWhenParentFails<T>(g: Registry<T>, k: Key, id: int, info: T)
    requires k.Child? && k.name != k.parent.name
    requires k.name !in g.registers
    requires k.parent.name in g.registers && g.registers[k.parent.name].Frozen?
    ensures Register(g, k, id, info).1 == Some(Unsupported(RegistrationClosed))
    ensures k.name in Register(g, k, id, info).0.registers
    ensures Register(g, k, id, info).0.registers[k.name] == R.Live(map[id := info])
  {
    var p := RegisterOf(g, k);
    assert p.1 == R.Live(map[]);
    var added := R.Add(p.1, id, info);
    assert added == (R.Live(map[id := info]), None);
    var g' := Registry(p.0.registers[k.name := added.0]);
    assert Register(g, k, id, info) == Register(g', k.parent, id, info);
    assert g'.registers[k.parent.name] == g.registers[k.parent.name];
  }

  /** Keys with the same name share a register, whatever their class or parent. */
  lemma SameNameSharesRegister<T>(g: Registry<T>, name: string, parent: Key, id: int, info: T)
    requires Register(g, Of(name), id, info).1.None?
    ensures var g' := Register(g, Of(name), id, info).0;
      && g'.registers[ChildOf(parent, name).name] == g'.registers[Of(name).name]
      && Syntaxes(g', ChildOf(parent, name)).1 == Syntaxes(g', Of(name)).1
  {
    RegisterReachesLineage(g, Of(name), id, info);
  }

  // ---------------------------------------------------------------------
  // Closing
  // ---------------------------------------------------------------------

  ghost predicate AllLive<T>(g: Registry<T>, order: seq<string>)
  {
    forall i :: 0 <= i < |order| ==> order[i] in g.registers && g.registers[order[i]].Live?
  }

  /**
   * Closing a registry whose registers are all live succeeds, and every
   * visited register becomes a frozen register listing what it held.
   */
  lemma {:induction false} CloseAllFreezes<T>(g: Registry<T>, order: seq<string>)
    requires AllLive(g, order)
    requires forall i, j :: 0 <= i < j < |order| ==> order[i] != order[j]
    ensures CloseAll(g, order).1.None?
    ensures forall i :: 0 <= i < |order| ==>
      CloseAll(g, order).0.registers[order[i]] == R.Frozen(R.Syntaxes(g.registers[order[i]]))
    ensures forall n :: n in g.registers && n !in order ==> CloseAll(g, order).0.registers[n] == g.registers[n]
    decreases |order|
  {
    if |order| > 0 {
      var f := R.Frozen(R.Syntaxes(g.registers[order[0]]));
      var g' := Registry(g.registers[order[0] := f]);
      CloseTailLive(g, order, f);
      CloseAllFreezes(g', order[1..]);
      forall i | 0 <= i < |order|
        ensures CloseAll(g, order).0.registers[order[i]] == R.Frozen(R.Syntaxes(g.registers[order[i]]))
      {
        if i > 0 {
          assert order[i] == order[1..][i - 1] && order[i] != order[0];
        }
      }
    }
  }

  /** Once the first key is closed, the remaining keys are still distinct and live. */
  lemma CloseTailLive<T>(g: Registry<T>, order: seq<string>, f: R.Register<T>)
    requires |order| > 0 && AllLive(g, order)
    requires forall i, j :: 0 <= i < j < |order| ==> order[i] != order[j]
    ensures AllLive(Registry(g.registers[order[0] := f]), order[1..])
    ensures forall i, j :: 0 <= i < j < |order[1..]| ==> order[1..][i] != order[1..][j]
  {
    var g' := Registry(g.registers[order[0] := f]);
    forall i | 0 <= i < |order[1..]|
      ensures order[1..][i] in g'.registers && g'.registers[order[1..][i]].Live?
    {
      assert order[1..][i] == order[i + 1] != order[0];
    }
    forall i, j | 0 <= i < j < |order[1..]|
      ensures order[1..][i] != order[1..][j]
    {
      assert order[1..][i] == order[i + 1] && order[1..][j] == order[j + 1];
    }
  }

  /**
   * Closing a second time throws at the first register visited, which the
   * first close froze, so `updateState` can never close the same registry
   * twice.
   */
  lemma CloseAllTwiceFails<T>(g: Registry<T>, order: seq<string>)
    requires |order| > 0 && AllLive(g, order)
    requires forall i, j :: 0 <= i < j < |order| ==> order[i] != order[j]
    ensures CloseAll(CloseAll(g, order).0, order).1 == Some(Unsupported(RegistrationClosed))
    ensures CloseAll(CloseAll(g, order).0, order).0 == CloseAll(g, order).0
  {
    CloseAllFreezes(g, order);
  }

  /** After a successful close, registering under any key already present fails. */
  lemma RegisterAfterCloseFails<T>(g: Registry<T>, order: seq<string>, k: Key, id: int, info: T)
    requires AllLive(g, order) && (forall n :: n in g.registers ==> n in order)
    requires forall i, j :: 0 <= i < j < |order| ==> order[i] != order[j]
    requires k.name in g.registers
    ensures Register(CloseAll(g, order).0, k, id, info).1 == Some(Unsupported(RegistrationClosed))
  {
    CloseAllFreezes(g, order);
    var i :| 0 <= i < |order| && order[i] == k.name;
  }

  /** A key first touched after the close gets a fresh writable register. */
  lemma NewKeyAfterCloseSucceeds<T>(g: Registry<T>, order: seq<string>, name: string, id: int, info: T)
    requires forall i :: 0 <= i < |order| ==> order[i] in g.registers
    requires name !in g.registers
    ensures Register(CloseAll(g, order).0, Of(name), id, info).1.None?
    ensures Syntaxes(Register(CloseAll(g, order).0, Of(name), id, info).0, Of(name)).1 == [info]
  {
    var g' := CloseAll(g, order).0;
    assert name !in g'.registers;
    var r := Register(g', Of(name), id, info).0;
    assert r.registers[name] == R.Live(map[id := info]);
    assert map[id := info].Keys == {id};
    assert R.Ascending({id}) == [id] by {
      var ks := R.Ascending({id});
      assert |ks| == 1 && id in ks;
    }
  }
}

=== FILE: keys.dfy ===
/**
 * Registry keys of `registration/KeyImpl` and `registry/KeyImpl`, which
 * behave alike: a key is a name, a child key also names a parent, and
 * `equals` and `hashCode` look at the name only.
 */
module Keys {

  datatype Key = Key(name: string) | Child(name: string, parent: Key)

  /** `equals`: the other key has the same name; parent and class play no part. */
  predicate Equals(a: Key, b: Key)
  {
    a.name == b.name
  }

  /**
   * `hashCode`: the hash of the name, which is what `toString` prints; the
   * model keeps the name itself. Whatever the key's class or parent, the
   * plain key made from the hash input is equal to it.
   */
  function HashInput(k: Key): (h: string)
    ensures Equals(k, Of(h)) && Equals(Of(h), k)
  {
    ToString(k)
  }

  /**
   * `toString()` and `name()`: the construction name, so that `of` applied
   * to it gives back an equal key.
   */
  function ToString(k: Key): (s: string)
    ensures Equals(k, Of(s)) && Equals(Of(s), k)
  {
    k.name
  }

  /** `of(name)` and `Child.of(parent, name)`. */
  function Of(name: string): (k: Key)
    ensures k.name == name && !k.Child?
  {
    Key(name)
  }

  function ChildOf(parent: Key, name: string): (k: Key)
    ensures k.name == name && k.Child? && k.parent == parent
  {
    Child(name, parent)
  }

  /** The names reached from a key by following parents, the key's own first. */
  function Lineage(k: Key): (ns: seq<string>)
    ensures |ns| > 0 && ns[0] == k.name
    ensures k.Child? ==> ns == [k.name] + Lineage(k.parent)
    ensures !k.Child? ==> ns == [k.name]
  {
    match k
    case Key(n) => [n]
    case Child(n, p) => [n] + Lineage(p)
  }

  // The standard keys of both registry interfaces; `EVENT` exists only in
  // the `registry` package's interface.
  const Expression: Key := Key("expression")
  const Section: Key := Key("section")
  const Statement: Key := Key("statement")
  const Condition: Key := Child("condition", Statement)
  const Effect: Key := Child("effect", Statement)
  const Structure: Key := Key("structure")
  const Event: Key := Child("event", Structure)

  /** `equals` is an equivalence agreeing with `hashCode`. */
  lemma EqualsConsistent(a: Key, b: Key, c: Key)
    ensures Equals(a, a)
    ensures Equals(a, b) ==> Equals(b, a)
    ensures Equals(a, b) && Equals(b, c) ==> Equals(a, c)
    ensures Equals(a, b) <==> HashInput(a) == HashInput(b)
  {
  }

  /** A child key equals the plain key of the same name, whatever its parent. */
  lemma ChildEqualsPlain(parent: Key, name: string)
    ensures Equals(ChildOf(parent, name), Of(name))
    ensures ChildOf(parent, name) != Of(name)
    ensures ChildOf(parent, name).parent == parent
  {
  }

  /** `Child.of(STRUCTURE, "event")` equals `of("event")`, and EVENT sits under STRUCTURE. */
  lemma EventKeyExample()
    ensures Equals(Event, Of("event"))
    ensures Lineage(Event) == ["event", "structure"]
    ensures Lineage(Condition) == ["condition", "statement"]
    ensures Lineage(Effect) == ["effect", "statement"]
  {
  }
}

=== FILE: legacy_infos.dfy ===
/**
 * The old-style infos of `ch.njol.skript`: `SyntaxElementInfo`, its
 * subclass `StructureInfo`, and `SyntaxElementInfo.fromModern`, which turns
 * a modern descriptor back into the legacy class that matches it.
 *
 * `SkriptEventInfo` and `ExpressionInfo` are not part of this model; for
 * them the model records the arguments `fromModern` hands their
 * constructors and setters.
 */
module LegacyInfos {
  import opened Outcomes
  import opened SyntaxTypes
  import SyntaxInfos
  import BukkitEvents
  import RootInfos

  /** What the reflective `getConstructor()` call in the constructor reports. */
  datatype ConstructorLookup = PublicNullary | NoSuchMethod | SecurityBlocked

  /** The text after the class name in the `Error` for a class without a public nullary constructor. */
  const NoNullaryMessage: string := " does not have a public nullary constructor"
  const SecurityMessage: string := "Skript cannot run properly because a security manager is blocking it!"

  datatype Legacy =
    | ElementInfo(patterns: seq<string>, elementType: TypeTag, originClassPath: string)
    | StructureLegacy(patterns: seq<string>, elementType: TypeTag, originClassPath: string,
                      entryValidator: Option<Validator>)
    | ExpressionLegacy(patterns: seq<string>, returnType: TypeTag, elementType: TypeTag,
                       originClassPath: string, expressionType: ExpressionType)
    | EventLegacy(name: string, patterns: seq<string>, elementType: TypeTag, originClassPath: string,
                  events: seq<TypeTag>, since: Option<string>, documentationId: Option<string>,
                  description: seq<string>, examples: seq<string>, keywords: seq<string>,
                  requiredPlugins: seq<string>)

  /** The check every legacy constructor runs first, through the `SyntaxElementInfo` constructor. */
  function ConstructorCheck(lookup: ConstructorLookup): (r: Option<Error>)
    ensures r.None? <==> lookup == PublicNullary
    ensures lookup == NoSuchMethod ==> r == Some(Fatal(NoNullaryMessage))
    ensures lookup == SecurityBlocked ==> r == Some(IllegalState(SecurityMessage))
  {
    match lookup
    case PublicNullary => None
    case NoSuchMethod => Some(Fatal(NoNullaryMessage))
    case SecurityBlocked => Some(IllegalState(SecurityMessage))
  }

  /** Builds `info` unless the element class fails the constructor check. */
  function Checked(lookup: ConstructorLookup, info: Legacy): (r: Result<Legacy>)
    ensures r.Ok? <==> lookup == PublicNullary
    ensures r.Ok? ==> r.value == info
    ensures r.Err? ==> Some(r.error) == ConstructorCheck(lookup)
  {
    match ConstructorCheck(lookup)
    case Some(e) => Err(e)
    case None => Ok(info)
  }

  /** `new SyntaxElementInfo(patterns, elementClass, originClassPath)`. */
  function NewElementInfo(patterns: seq<string>, elementType: TypeTag, originClassPath: string,
                          lookup: ConstructorLookup): (r: Result<Legacy>)
    ensures r.Ok? <==> lookup == PublicNullary
    ensures r.Ok? ==> r.value.ElementInfo? && r.value.patterns == patterns
                      && r.value.elementType == elementType && r.value.originClassPath == originClassPath
  {
    Checked(lookup, ElementInfo(patterns, elementType, originClassPath))
  }

  /** The three-argument `StructureInfo` constructor: no entry validator. */
  function NewStructureInfo(patterns: seq<string>, elementType: TypeTag, originClassPath: string,
                            lookup: ConstructorLookup): (r: Result<Legacy>)
    ensures r.Ok? <==> lookup == PublicNullary
    ensures r.Ok? ==> r.value == StructureLegacy(patterns, elementType, originClassPath, None)
  {
    NewStructureInfoWith(patterns, elementType, originClassPath, None, lookup)
  }

  /** The four-argument `StructureInfo` constructor. */
  function NewStructureInfoWith(patterns: seq<string>, elementType: TypeTag, originClassPath: string,
                                entryValidator: Option<Validator>, lookup: ConstructorLookup): (r: Result<Legacy>)
    ensures r.Ok? <==> lookup == PublicNullary
    ensures r.Ok? ==> r.value.StructureLegacy? && r.value.entryValidator == entryValidator
                      && r.value.patterns == patterns && r.value.elementType == elementType
                      && r.value.originClassPath == originClassPath
  {
    Checked(lookup, StructureLegacy(patterns, elementType, originClassPath, entryValidator))
  }

  /**
   * `origin().name()`. The name of `SyntaxOrigin.UNKNOWN` is not part of
   * this model and is a parameter.
   */
  function OriginName(o: Origin, unknownName: string): (r: string)
    ensures o.UnknownOrigin? ==> r == unknownName
    ensures !o.UnknownOrigin? ==> r == o.name
  {
    match o
    case UnknownOrigin => unknownName
    case BukkitOrigin(n) => n
    case OtherOrigin(_, n) => n
  }

  /**
   * `StructureInfo.fromStructureInfo`, which takes a structure descriptor of
   * the root package: patterns, type, origin name and validator carried
   * over. A root event is such a structure, with a null validator.
   */
  function FromStructureInfo(info: RootInfos.Info, lookup: ConstructorLookup, unknownName: string): (r: Result<Legacy>)
    requires RootInfos.IsStructure(info)
    ensures r.Ok? <==> lookup == PublicNullary
    ensures r.Ok? ==> r.value.StructureLegacy? && r.value.patterns == info.patterns
                      && r.value.elementType == info.elementType
                      && r.value.originClassPath == OriginName(info.origin, unknownName)
                      && r.value.entryValidator == RootInfos.EntryValidator(info)
  {
    NewStructureInfoWith(info.patterns, info.elementType, OriginName(info.origin, unknownName),
                         RootInfos.EntryValidator(info), lookup)
  }

  /** The modern descriptors `fromModern` tells apart. */
  datatype Modern = Registered(info: SyntaxInfos.SyntaxInfo) | BukkitEvent(event: BukkitEvents.EventInfo)

  /** `instanceof SyntaxInfo.Structure`: a Bukkit event descriptor is one too. */
  predicate IsStructure(m: Modern)
  {
    m.BukkitEvent? || m.info.payload.StructureInfo?
  }

  /**
   * `fromModern`: the Bukkit event test comes first, then structure, then
   * expression; anything else becomes a plain `SyntaxElementInfo`.
   */
  function FromModern(m: Modern, lookup: ConstructorLookup, unknownName: string): (r: Result<Legacy>)
    ensures r.Ok? <==> lookup == PublicNullary
    ensures r.Ok? && m.BukkitEvent? ==> r.value.EventLegacy?
    ensures r.Ok? && m.Registered? ==>
      match m.info.payload
      case StructureInfo(_) => r.value.StructureLegacy?
      case ExpressionInfo(_, _) => r.value.ExpressionLegacy?
      case PlainInfo => r.value.ElementInfo?
    ensures r.Ok? ==> r.value.patterns == (if m.BukkitEvent? then m.event.patterns else m.info.patterns)
    ensures r.Ok? ==> r.value.originClassPath
                      == OriginName(if m.BukkitEvent? then m.event.origin else m.info.origin, unknownName)
    ensures r.Ok? ==> r.value.elementType == (if m.BukkitEvent? then m.event.elementType else m.info.elementType)
    ensures r.Ok? && m.Registered? && m.info.payload.StructureInfo? ==>
              r.value.entryValidator == m.info.payload.entryValidator
    ensures r.Ok? && m.Registered? && m.info.payload.ExpressionInfo? ==>
              && r.value.returnType == m.info.payload.returnType
              && r.value.expressionType == m.info.payload.expressionType
    ensures r.Ok? && m.BukkitEvent? ==>
              && r.value.name == m.event.name && r.value.events == m.event.events
              && r.value.since == m.event.since && r.value.documentationId == m.event.documentationId
              && r.value.description == m.event.description && r.value.examples == m.event.examples
              && r.value.keywords == m.event.keywords && r.value.requiredPlugins == m.event.requiredPlugins
  {
    match m
    case BukkitEvent(e) =>
      Checked(lookup, EventLegacy(e.name, e.patterns, e.elementType, OriginName(e.origin, unknownName), e.events,
                                  e.since, e.documentationId, e.description, e.examples, e.keywords,
                                  e.requiredPlugins))
    case Registered(info) =>
      match info.payload
      case StructureInfo(v) =>
        NewStructureInfoWith(info.patterns, info.elementType, OriginName(info.origin, unknownName), v, lookup)
      case ExpressionInfo(rt, et) =>
        Checked(lookup, ExpressionLegacy(info.patterns, rt, info.elementType, OriginName(info.origin, unknownName), et))
      case PlainInfo =>
        NewElementInfo(info.patterns, info.elementType, OriginName(info.origin, unknownName), lookup)
  }

  // ---------------------------------------------------------------------
  // Properties
  // ---------------------------------------------------------------------

  /**
   * An event descriptor is a structure, yet the event test wins: the result
   * keeps the name and the event classes instead of becoming a structure info.
   */
  lemma EventTestedBeforeStructure(e: BukkitEvents.EventInfo, unknownName: string)
    ensures IsStructure(BukkitEvent(e))
    ensures FromModern(BukkitEvent(e), PublicNullary, unknownName).value.EventLegacy?
    ensures FromModern(BukkitEvent(e), PublicNullary, unknownName).value.name == e.name
    ensures FromModern(BukkitEvent(e), PublicNullary, unknownName).value.events == e.events
  {
  }

  /**
   * The two conversions, each from its own package's structure descriptor,
   * agree: a root structure through `fromStructureInfo` and a registered
   * structure with the same origin, type, patterns and validator through
   * `fromModern` give the same legacy info.
   */
  lemma StructureConversionsAgree(handle: nat, origin: Origin, elementType: TypeTag, patterns: seq<string>,
                                  v: Option<Validator>, lookup: ConstructorLookup, unknownName: string)
    ensures FromStructureInfo(RootInfos.NewStructure(handle, origin, elementType, patterns, v), lookup, unknownName)
         == FromModern(Registered(SyntaxInfos.NewStructure(origin, elementType, patterns, v)), lookup, unknownName)
  {
  }

  /**
   * A root event handed to `fromStructureInfo` becomes a plain structure
   * info without a validator: its name and event classes are dropped.
   */
  lemma RootEventBecomesStructure(handle: nat, origin: Origin, elementType: TypeTag, patterns: seq<string>,
                                  name: string, events: seq<TypeTag>, unknownName: string)
    ensures FromStructureInfo(RootInfos.NewEvent(handle, origin, elementType, patterns, name, events),
                              PublicNullary, unknownName)
         == Ok(StructureLegacy(patterns, elementType, OriginName(origin, unknownName), None))
  {
  }

  /**
   * Old to new and back: wrapping an old-style event info as a modern
   * descriptor and converting it back keeps its name, patterns, class path,
   * event classes and documentation; null documentation arrays come back empty.
   */
  lemma LegacyRoundTrip(info: BukkitEvents.LegacyInfo, originHandle: nat, unknownName: string)
    ensures var r := FromModern(BukkitEvent(BukkitEvents.Legacy(info, originHandle)), PublicNullary, unknownName);
      && r.Ok? && r.value.EventLegacy?
      && r.value.name == info.name && r.value.patterns == info.patterns
      && r.value.originClassPath == info.originClassPath && r.value.events == info.events
      && r.value.elementType == info.elementType
      && r.value.since == info.since && r.value.documentationId == info.documentationId
      && r.value.description == BukkitEvents.OrEmpty(info.description)
      && r.value.examples == BukkitEvents.OrEmpty(info.examples)
      && r.value.keywords == BukkitEvents.OrEmpty(info.keywords)
      && r.value.requiredPlugins == BukkitEvents.OrEmpty(info.requiredPlugins)
  {
  }

  /**
   * New to old keeps a structure's parts: converting a registered structure
   * and reading the legacy fields gives back the descriptor's origin name,
   * type, patterns and validator.
   */
  lemma StructureRoundTrip(origin: Origin, elementType: TypeTag, patterns: seq<string>,
                           v: Option<Validator>, unknownName: string)
    ensures FromModern(Registered(SyntaxInfos.NewStructure(origin, elementType, patterns, v)), PublicNullary, unknownName)
         == Ok(StructureLegacy(patterns, elementType, OriginName(origin, unknownName), v))
  {
  }
}

=== FILE: legacy_origin.dfy ===
/**
 * `ch.njol.skript.lang.BukkitOrigin`: an origin named by a plugin's class
 * or by a string, equal to any other object of the same class with the
 * same name, hashed by the name.
 *
 * The objects are modelled with an identity handle so that the identity
 * short-cut of `equals` can be stated; `AsOrigin` is the value the rest of
 * the model uses, and `EqualsMatchesOrigin` shows the two agree.
 */
module LegacyOrigins {
  import opened SyntaxTypes

  /** An object `equals` can be handed: a `BukkitOrigin`, or an object of another class. */
  datatype OriginObject = BukkitObject(handle: nat, name: string) | ForeignObject(handle: nat)

  /** `of(plugin)`: named by the canonical name of the plugin's class. */
  function OfPlugin(handle: nat, pluginClassName: string): (o: OriginObject)
    ensures o.BukkitObject? && o.name == pluginClassName && o.handle == handle
  {
    BukkitObject(handle, pluginClassName)
  }

  /** `of(name)`. */
  function OfName(handle: nat, name: string): (o: OriginObject)
    ensures o.BukkitObject? && o.name == name && o.handle == handle
  {
    BukkitObject(handle, name)
  }

  /** `equals`: the same object, or else a `BukkitOrigin` whose name is equal. */
  predicate Equals(a: OriginObject, other: OriginObject)
    requires a.BukkitObject?
  {
    a == other || (other.BukkitObject? && a.name == other.name)
  }

  /** `hashCode`: the hash of the name; the model keeps the name. */
  function HashInput(a: OriginObject): string
    requires a.BukkitObject?
  {
    a.name
  }

  /** The value `SyntaxTypes` uses for this origin. */
  function AsOrigin(a: OriginObject): (o: Origin)
    requires a.BukkitObject?
    ensures o.BukkitOrigin? && o.name == a.name
  {
    BukkitOrigin(a.name)
  }

  // ---------------------------------------------------------------------
  // Properties
  // ---------------------------------------------------------------------

  /** The identity short-cut changes nothing: equality is equality of names, within the class. */
  lemma EqualsIsByName(a: OriginObject, other: OriginObject)
    requires a.BukkitObject?
    ensures Equals(a, other) <==> other.BukkitObject? && a.name == other.name
  {
  }

  /** `equals` is an equivalence on origins, and equal origins hash alike. */
  lemma EqualsIsEquivalence(a: OriginObject, b: OriginObject, c: OriginObject)
    requires a.BukkitObject? && b.BukkitObject? && c.BukkitObject?
    ensures Equals(a, a)
    ensures Equals(a, b) ==> Equals(b, a)
    ensures Equals(a, b) && Equals(b, c) ==> Equals(a, c)
    ensures Equals(a, b) ==> HashInput(a) == HashInput(b)
  {
  }

  /** Two origins are equal exactly when their model values are. */
  lemma EqualsMatchesOrigin(a: OriginObject, b: OriginObject)
    requires a.BukkitObject? && b.BukkitObject?
    ensures Equals(a, b) <==> AsOrigin(a) == AsOrigin(b)
  {
  }

  /** Two `of` calls with one name give different objects that are equal. */
  lemma SeparateObjectsEqual(h1: nat, h2: nat, name: string)
    requires h1 != h2
    ensures OfName(h1, name) != OfName(h2, name)
    ensures Equals(OfName(h1, name), OfName(h2, name))
    ensures Equals(OfPlugin(h1, name), OfName(h2, name))
  {
  }
}

=== FILE: lifecycle.dfy ===
/**
 * `SkriptImpl`: the registration lifecycle of the Skript instance, the
 * registration of addons with their modules, and the process-wide set of
 * registered addons.
 *
 * The syntax registry is a type parameter; what a module's `load` does to
 * it, and what closing it does, are function parameters. Calls into other
 * subsystems are recorded in an effect log instead of being performed.
 */
module Lifecycle {
  import opened Outcomes

  /** The four lifecycle states; only the first two accept registration. */
  datatype State = Registration | AddonRegistration | EndedRegistration | ClosedRegistration

  predicate AcceptsRegistration(s: State)
  {
    s == Registration || s == AddonRegistration
  }

  /** An addon object: its identity and its name. */
  datatype Addon = Addon(handle: nat, name: string)

  /** An addon module, known by identity. */
  datatype Module = Module(handle: nat)

  /**
   * `module.load(addon, registry)`: the registry as the module leaves it,
   * and the exception it threw, if any. A module that throws keeps the
   * registrations it made before throwing.
   */
  type Loader<!Reg> = (Module, Addon, Reg) -> (Reg, Option<Error>)

  /**
   * `registry.closeRegistration()`: the registry as closing leaves it, and
   * the exception it threw, if any (closing a register that is already
   * closed throws, after the registers visited before it were replaced).
   */
  type Closer<!Reg> = Reg -> (Reg, Option<Error>)

  /** Calls into other subsystems, in the order they are made. */
  datatype Effect =
    | LoadDefaultLanguage(addon: Addon)
    | ModuleLoad(loaded: Module, addon: Addon)
    | CreateChainedConverters
    | RegistrationsStop

  datatype Skript<Reg> = Skript(self: Addon, registry: Reg, state: State, log: seq<Effect>)

  /**
   * Process-wide state: the static addon set shared by every instance.
   */
  datatype World = World(addons: set<Addon>)

  function DuplicateNameMessage(name: string): string
  {
    "An addon with the name '" + name + "' is already registered"
  }

  predicate NameTaken(w: World, name: string)
  {
    exists a :: a in w.addons && a.name == name
  }

  /** The log entries of `load` calls on the first `n` modules. */
  function Calls(modules: seq<Module>, addon: Addon, n: nat): (log: seq<Effect>)
    requires n <= |modules|
    ensures |log| == n
    ensures forall i :: 0 <= i < n ==> log[i] == ModuleLoad(modules[i], addon)
  {
    seq(n, i requires 0 <= i < n => ModuleLoad(modules[i], addon))
  }

  /**
   * The module loop: each module's `load` in order, each seeing the registry
   * as the previous one left it. The first module that throws stops the
   * loop; its exception is reported with the registry as that module left it.
   */
  function LoadModules<Reg>(reg: Reg, addon: Addon, modules: seq<Module>,
                            load: Loader<Reg>): (res: (Reg, seq<Effect>, Option<Error>))
    ensures |res.1| <= |modules|
    ensures forall i :: 0 <= i < |res.1| ==> res.1[i] == ModuleLoad(modules[i], addon)
    ensures res.2.Some? ==> |res.1| > 0
    ensures res.2.None? ==> |res.1| == |modules|
    ensures |modules| == 0 ==> res == (reg, [], None)
    decreases |modules|
  {
    if |modules| == 0 then (reg, [], None)
    else
      var (reg', thrown) := load(modules[0], addon, reg);
      if thrown.Some? then (reg', [ModuleLoad(modules[0], addon)], thrown)
      else
        var rest := LoadModules(reg', addon, modules[1..], load);
        (rest.0, [ModuleLoad(modules[0], addon)] + rest.1, rest.2)
  }

  /**
   * `registerAddon(addon, modules)`. A state that does not accept
   * registration is refused first, then a name already taken; neither
   * changes anything. Otherwise the default language is loaded, the modules
   * run in order, and only if all of them return is the addon recorded.
   */
  function RegisterAddon<Reg>(s: Skript<Reg>, w: World, addon: Addon, modules: seq<Module>,
                              load: Loader<Reg>): (res: (Skript<Reg>, World, Option<Error>))
    ensures !AcceptsRegistration(s.state) ==> res == (s, w, Some(Unsupported(RegistrationClosed)))
    ensures AcceptsRegistration(s.state) && NameTaken(w, addon.name) ==>
              res == (s, w, Some(ApiMisuse(DuplicateNameMessage(addon.name))))
    ensures res.0.state == s.state && res.0.self == s.self
    ensures res.2.None? <==> AcceptsRegistration(s.state) && !NameTaken(w, addon.name)
                             && LoadModules(s.registry, addon, modules, load).2.None?
    ensures res.2.None? ==> res.1.addons == w.addons + {addon}
    ensures res.2.Some? ==> res.1 == w
  {
    if !AcceptsRegistration(s.state) then (s, w, Some(Unsupported(RegistrationClosed)))
    else if NameTaken(w, addon.name) then (s, w, Some(ApiMisuse(DuplicateNameMessage(addon.name))))
    else
      var loaded := LoadModules(s.registry, addon, modules, load);
      var s' := s.(registry := loaded.0, log := s.log + [LoadDefaultLanguage(addon)] + loaded.1);
      if loaded.2.Some? then (s', w, loaded.2)
      else (s', World(w.addons + {addon}), None)
  }

  /**
   * `updateState(state)`: ending registration builds the chained
   * converters; closing it closes the registry and then notifies the class
   * registry. The new state is stored whatever the old one was, unless
   * closing the registry throws: then neither the notification nor the
   * store happens, and the registry stays as closing left it.
   */
  function UpdateState<Reg>(s: Skript<Reg>, st: State, close: Closer<Reg>): (res: (Skript<Reg>, Option<Error>))
    ensures res.0.self == s.self
    ensures res.1.Some? <==> st == ClosedRegistration && close(s.registry).1.Some?
    ensures res.1.None? ==> res.0.state == st
    ensures res.1.Some? ==> res.1 == close(s.registry).1 && res.0.state == s.state && res.0.log == s.log
    ensures st == ClosedRegistration ==> res.0.registry == close(s.registry).0
    ensures st != ClosedRegistration ==> res.0.registry == s.registry
    ensures st == EndedRegistration ==> res.0.log == s.log + [CreateChainedConverters]
    ensures res.1.None? && st == ClosedRegistration ==> res.0.log == s.log + [RegistrationsStop]
    ensures st != EndedRegistration && st != ClosedRegistration ==> res.0.log == s.log
  {
    if st == EndedRegistration then (s.(log := s.log + [CreateChainedConverters], state := st), None)
    else if st == ClosedRegistration then
      var (reg', thrown) := close(s.registry);
      if thrown.Some? then (s.(registry := reg'), thrown)
      else (s.(registry := reg', log := s.log + [RegistrationsStop], state := st), None)
    else (s.(state := st), None)
  }

  /**
   * The constructor: the instance starts in REGISTRATION and registers
   * itself as an addon with the given modules.
   */
  function New<Reg>(self: Addon, registry: Reg, w: World, modules: seq<Module>,
                    load: Loader<Reg>): (res: (Skript<Reg>, World, Option<Error>))
    ensures res.0.state == Registration && res.0.self == self
    ensures res.2.None? <==> !NameTaken(w, self.name) && LoadModules(registry, self, modules, load).2.None?
    ensures res.2.None? ==> self in res.1.addons
  {
    RegisterAddon(Skript(self, registry, Registration, []), w, self, modules, load)
  }

  /** `addons()`: a snapshot copy of the shared set. */
  function Addons(w: World): (r: set<Addon>)
    ensures r == w.addons
  {
    w.addons
  }

  // ---------------------------------------------------------------------
  // Properties
  // ---------------------------------------------------------------------

  /** A successful registration loads the default language first, then every module once, in order. */
  lemma RegisterAddonEffectOrder<Reg>(s: Skript<Reg>, w: World, addon: Addon, modules: seq<Module>,
                                      load: Loader<Reg>)
    requires RegisterAddon(s, w, addon, modules, load).2.None?
    ensures var log := RegisterAddon(s, w, addon, modules, load).0.log;
      && |log| == |s.log| + 1 + |modules|
      && log[..|s.log|] == s.log
      && log[|s.log|] == LoadDefaultLanguage(addon)
      && forall i :: 0 <= i < |modules| ==> log[|s.log| + 1 + i] == ModuleLoad(modules[i], addon)
  {
  }

  /**
   * The first `k` modules run one after another, from `reg`: the registry
   * they leave and the first exception among them, after which nothing more
   * runs.
   */
  function LoadPrefix<Reg>(reg: Reg, addon: Addon, modules: seq<Module>,
                           load: Loader<Reg>, k: nat): (Reg, Option<Error>)
    requires k <= |modules|
    decreases k
  {
    if k == 0 then (reg, None)
    else
      var before := LoadPrefix(reg, addon, modules, load, k - 1);
      if before.1.Some? then before else load(modules[k - 1], addon, before.0)
  }

  /** A prefix that ran without an exception has no exception in any shorter prefix. */
  lemma {:induction false} PrefixCleanBefore<Reg>(reg: Reg, addon: Addon, modules: seq<Module>,
                                                   load: Loader<Reg>, j: nat, k: nat)
    requires j <= k <= |modules|
    requires LoadPrefix(reg, addon, modules, load, k).1.None?
    ensures LoadPrefix(reg, addon, modules, load, j).1.None?
    decreases k - j
  {
    if j < k {
      PrefixCleanBefore(reg, addon, modules, load, j, k - 1);
    }
  }

  /** Running `k + 1` modules is running the first, then `k` more from where it left the registry. */
  lemma {:induction false} PrefixShift<Reg>(reg: Reg, addon: Addon, modules: seq<Module>,
                                            load: Loader<Reg>, k: nat)
    requires k < |modules|
    requires load(modules[0], addon, reg).1.None?
    ensures LoadPrefix(reg, addon, modules, load, k + 1)
         == LoadPrefix(load(modules[0], addon, reg).0, addon, modules[1..], load, k)
    decreases k
  {
    if k > 0 {
      PrefixShift(reg, addon, modules, load, k - 1);
      assert modules[1..][k - 1] == modules[k];
    }
  }

  /**
   * When module `k` is the first to throw, the loop stops right after
   * calling it: the first `k + 1` modules have been called, the exception
   * is module `k`'s, and the registry keeps everything written so far,
   * including what module `k` wrote before throwing.
   */
  lemma {:induction false} FailingModuleStops<Reg>(
    reg: Reg, addon: Addon, modules: seq<Module>, load: Loader<Reg>, k: nat)
    requires k < |modules|
    requires LoadPrefix(reg, addon, modules, load, k).1.None?
    requires load(modules[k], addon, LoadPrefix(reg, addon, modules, load, k).0).1.Some?
    ensures LoadModules(reg, addon, modules, load)
         == (load(modules[k], addon, LoadPrefix(reg, addon, modules, load, k).0).0,
             Calls(modules, addon, k + 1),
             load(modules[k], addon, LoadPrefix(reg, addon, modules, load, k).0).1)
    decreases k
  {
    if k > 0 {
      var failed := load(modules[k], addon, LoadPrefix(reg, addon, modules, load, k).0);
      var reg' := load(modules[0], addon, reg).0;
      PrefixCleanBefore(reg, addon, modules, load, 1, k);
      PrefixShift(reg, addon, modules, load, k - 1);
      assert modules[1..][k - 1] == modules[k];
      FailingModuleStops(reg', addon, modules[1..], load, k - 1);
      assert failed == load(modules[1..][k - 1], addon, LoadPrefix(reg', addon, modules[1..], load, k - 1).0);
      FailingStep(reg, addon, modules, load, k, failed);
    } else {
      assert Calls(modules, addon, 1) == [ModuleLoad(modules[0], addon)];
    }
  }

  /** The step of the induction above: a first module that returns normally adds its call in front. */
  lemma FailingStep<Reg>(reg: Reg, addon: Addon, modules: seq<Module>, load: Loader<Reg>, k: nat,
                         failed: (Reg, Option<Error>))
    requires 0 < k < |modules| && load(modules[0], addon, reg).1.None?
    requires LoadModules(load(modules[0], addon, reg).0, addon, modules[1..], load)
          == (failed.0, Calls(modules[1..], addon, k), failed.1)
    ensures LoadModules(reg, addon, modules, load) == (failed.0, Calls(modules, addon, k + 1), failed.1)
  {
    LoadModulesPastFirst(reg, addon, modules, load);
    CallsCons(modules, addon, k + 1);
  }

  /** A first module that returns normally is followed by the loop over the rest. */
  lemma LoadModulesPastFirst<Reg>(reg: Reg, addon: Addon, modules: seq<Module>, load: Loader<Reg>)
    requires |modules| > 0 && load(modules[0], addon, reg).1.None?
    ensures var rest := LoadModules(load(modules[0], addon, reg).0, addon, modules[1..], load);
      LoadModules(reg, addon, modules, load) == (rest.0, [ModuleLoad(modules[0], addon)] + rest.1, rest.2)
  {
  }

  lemma CallsCons(modules: seq<Module>, addon: Addon, n: nat)
    requires 0 < n <= |modules|
    ensures [ModuleLoad(modules[0], addon)] + Calls(modules[1..], addon, n - 1) == Calls(modules, addon, n)
  {
    assert forall i :: 0 <= i < n - 1 ==> modules[1..][i] == modules[i + 1];
  }

  /**
   * A module that throws aborts `registerAddon`: the addon is not recorded,
   * while the registry keeps what the modules, the failing one included,
   * wrote before the exception, and the log shows every call made.
   */
  lemma FailingModuleNotRecorded<Reg>(s: Skript<Reg>, w: World, addon: Addon, modules: seq<Module>,
                                      load: Loader<Reg>, k: nat)
    requires AcceptsRegistration(s.state) && !NameTaken(w, addon.name)
    requires k < |modules|
    requires LoadPrefix(s.registry, addon, modules, load, k).1.None?
    requires load(modules[k], addon, LoadPrefix(s.registry, addon, modules, load, k).0).1.Some?
    ensures var failed := load(modules[k], addon, LoadPrefix(s.registry, addon, modules, load, k).0);
      var res := RegisterAddon(s, w, addon, modules, load);
      && res.2 == failed.1
      && res.1 == w
      && addon !in res.1.addons
      && res.0.registry == failed.0
      && res.0.log == s.log + [LoadDefaultLanguage(addon)] + Calls(modules, addon, k + 1)
  {
    FailingModuleStops(s.registry, addon, modules, load, k);
    assert addon !in w.addons;
  }

  /** After the addon is recorded, a second addon with the same name is refused, on any instance. */
  lemma SecondAddonSameNameRefused<Reg>(s: Skript<Reg>, s2: Skript<Reg>, w: World, a: Addon, b: Addon,
                                        modules: seq<Module>, load: Loader<Reg>)
    requires RegisterAddon(s, w, a, modules, load).2.None?
    requires b.name == a.name && AcceptsRegistration(s2.state)
    ensures var w' := RegisterAddon(s, w, a, modules, load).1;
      RegisterAddon(s2, w', b, modules, load) == (s2, w', Some(ApiMisuse(DuplicateNameMessage(b.name))))
  {
    var w' := RegisterAddon(s, w, a, modules, load).1;
    assert a in w'.addons;
  }

  /** Ending registration refuses new addons without closing the registry. */
  lemma EndedRefusesWithoutClosing<Reg>(s: Skript<Reg>, w: World, a: Addon, close: Closer<Reg>,
                                         modules: seq<Module>, load: Loader<Reg>)
    ensures UpdateState(s, EndedRegistration, close).0.registry == s.registry
    ensures RegisterAddon(UpdateState(s, EndedRegistration, close).0, w, a, modules, load).2
         == Some(Unsupported(RegistrationClosed))
  {
  }

  /**
   * Closing, going back to REGISTRATION and closing again, with a registry
   * that refuses a second close: the second `updateState` throws, stores no
   * state and notifies nobody, so the instance stays in REGISTRATION.
   */
  lemma ReclosingRefused<Reg>(s: Skript<Reg>, close: Closer<Reg>)
    requires close(s.registry).1.None?
    requires close(close(s.registry).0).1.Some?
    ensures var s1 := UpdateState(s, ClosedRegistration, close).0;
      var s2 := UpdateState(s1, Registration, close).0;
      var r := UpdateState(s2, ClosedRegistration, close);
      && r.1 == close(close(s.registry).0).1
      && r.0.state == Registration
      && r.0.log == s.log + [RegistrationsStop]
      && r.0.registry == close(close(s.registry).0).0
  {
  }

  /**
   * Nothing keeps the state moving forward: after closing, setting
   * REGISTRATION again makes addon registration possible once more.
   */
  lemma StateCanMoveBackward<Reg>(s: Skript<Reg>, close: Closer<Reg>)
    ensures close(s.registry).1.None? ==> !AcceptsRegistration(UpdateState(s, ClosedRegistration, close).0.state)
    ensures AcceptsRegistration(UpdateState(UpdateState(s, ClosedRegistration, close).0, Registration, close).0.state)
  {
  }
}

=== FILE: outcomes.dfy ===
/**
 * Shared result types. The source reports failures by throwing; the model
 * returns them as values so that every error path is part of a contract.
 */
module Outcomes {

  datatype Option<+T> = None | Some(value: T)

  /**
   * The exception classes the registration layer throws; `Fatal` stands for
   * a `java.lang.Error`.
   */
  datatype Error =
    | IllegalArgument(message: string)
    | NullPointer(message: string)
    | IllegalState(message: string)
    | Unsupported(message: string)
    | ApiMisuse(message: string)
    | Fatal(message: string)

  datatype Result<+T> = Ok(value: T) | Err(error: Error) {
    predicate IsFailure() { Err? }
    function PropagateFailure<U>(): Result<U>
      requires Err?
    {
      Err(error)
    }
    function Extract(): T
      requires Ok?
    {
      value
    }
  }

  /** The message every closed register or registry throws with. */
  const RegistrationClosed: string := "Registration is closed"
}

=== FILE: packed_priority.dfy ===
/**
 * The expression priority `base | ordinal << 24`, evaluated on Java's
 * 32-bit `int`.
 */
module PackedPriorities {
  import opened Int32s

  const TwoTo24: int := 0x100_0000
  const TwoTo32: int := 0x1_0000_0000

  function Pow2(k: nat): (p: nat)
    ensures p >= 1
  {
    if k == 0 then 1 else 2 * Pow2(k - 1)
  }

  /** The 32 bits of a Java `int`, read as an unsigned number. */
  function Unsigned(x: Int32): (u: nat)
    ensures u < TwoTo32
    ensures 0 <= x ==> u == x
  {
    if x < 0 then x + TwoTo32 else x
  }

  /** The Java `int` whose bits, read unsigned, are `u`. */
  function Signed(u: nat): (x: Int32)
    requires u < TwoTo32
    ensures Unsigned(x) == u
  {
    if u <= MaxInt32 then u else u - TwoTo32
  }

  lemma Pow2Facts()
    ensures Pow2(24) == TwoTo24 && Pow2(32) == TwoTo32
  {
    assert Pow2(4) == 16;
    assert Pow2(8) == 256;
    assert Pow2(12) == 4096;
    assert Pow2(16) == 65536;
    assert Pow2(20) == 0x10_0000;
    assert Pow2(24) == TwoTo24;
    assert Pow2(28) == 0x1000_0000;
  }

  /** Bitwise OR of two non-negative numbers, one bit at a time from the lowest. */
  function Or(a: nat, b: nat): (r: nat)
    decreases a + b
  {
    if a == 0 && b == 0 then 0
    else (if a % 2 == 1 || b % 2 == 1 then 1 else 0) + 2 * Or(a / 2, b / 2)
  }

  lemma {:induction false} OrBounded(a: nat, b: nat, k: nat)
    requires a < Pow2(k) && b < Pow2(k)
    ensures Or(a, b) < Pow2(k)
    decreases a + b
  {
    if !(a == 0 && b == 0) {
      assert k > 0;
      OrBounded(a / 2, b / 2, k - 1);
    }
  }

  /**
   * `base | ordinal << 24`: the shift keeps the low 8 bits of the ordinal in
   * bits 24 to 31 (bit 31 being the sign), and the OR merges them with the
   * bits of `base`.
   */
  function Packed(base: Int32, ordinal: Int32): (r: Int32)
    requires 0 <= ordinal
    ensures 0 <= base < TwoTo24 && ordinal < 128 ==> r == ordinal * TwoTo24 + base
  {
    var shifted := ordinal * TwoTo24 % TwoTo32;
    Pow2Facts();
    OrBounded(Unsigned(base), shifted, 32);
    if 0 <= base < TwoTo24 && ordinal < 128 then
      ShiftFits(ordinal);
      OrDisjoint(base, ordinal, 24);
      Signed(Or(Unsigned(base), shifted))
    else
      Signed(Or(Unsigned(base), shifted))
  }

  /** OR with a number whose low `k` bits are clear adds. */
  lemma {:induction false} OrDisjoint(x: nat, y: nat, k: nat)
    requires x < Pow2(k)
    ensures Or(x, y * Pow2(k)) == x + y * Pow2(k)
    decreases k
  {
    if k == 0 {
      assert x == 0;
      OrZero(y);
    } else {
      var m := y * Pow2(k - 1);
      assert y * Pow2(k) == 2 * m;
      if x == 0 && 2 * m == 0 {
      } else {
        assert (2 * m) % 2 == 0 && (2 * m) / 2 == m;
        OrDisjoint(x / 2, y, k - 1);
      }
    }
  }

  lemma {:induction false} OrZero(y: nat)
    ensures Or(0, y) == y
    decreases y
  {
    if y != 0 {
      OrZero(y / 2);
    }
  }

  /** An ordinal below 128, shifted by 24, stays below the sign bit. */
  lemma ShiftFits(ordinal: nat)
    requires ordinal < 128
    ensures ordinal * TwoTo24 + TwoTo24 <= 0x8000_0000
    ensures ordinal * TwoTo24 % TwoTo32 == ordinal * TwoTo24
  {
    assert ordinal * TwoTo24 <= 127 * TwoTo24;
  }

  /**
   * Within those ranges, comparing packed values is comparing
   * `(ordinal, base)` lexicographically.
   */
  lemma PackedLexicographic(b1: Int32, o1: Int32, b2: Int32, o2: Int32)
    requires 0 <= b1 < TwoTo24 && 0 <= o1 < 128
    requires 0 <= b2 < TwoTo24 && 0 <= o2 < 128
    ensures Packed(b1, o1) < Packed(b2, o2) <==> o1 < o2 || (o1 == o2 && b1 < b2)
    ensures Packed(b1, o1) == Packed(b2, o2) <==> o1 == o2 && b1 == b2
  {
  }

  /** Outside them it is not injective: a base reaching bit 24 collides with ordinal 1. */
  lemma PackedCollision(zero: Int32, one: Int32, high: Int32)
    requires zero == 0 && one == 1 && high == TwoTo24
    ensures Packed(zero, one) == Packed(high, zero) == TwoTo24
  {
    Pow2Facts();
    assert Unsigned(high) == high;
    assert zero * TwoTo24 % TwoTo32 == 0;
    OrDisjoint(high, 0, 32);
  }

  /** An ordinal of 128 lands on the sign bit. */
  lemma PackedSignBit()
    ensures Packed(0, 128) == MinInt32
  {
    assert 128 * TwoTo24 % TwoTo32 == 0x8000_0000;
    OrZero(0x8000_0000);
  }

  /** An ordinal of 256 is shifted out entirely. */
  lemma PackedShiftedOut()
    ensures Packed(0, 256) == 0
  {
    assert 256 * TwoTo24 % TwoTo32 == 0;
    OrZero(0);
  }

  /**
   * An ordinal of 128 lands on the sign bit and one of 256 is shifted out
   * entirely.
   */
  lemma PackedOverflow()
    ensures Packed(0, 128) == MinInt32
    ensures Packed(0, 256) == 0
  {
    PackedSignBit();
    PackedShiftedOut();
  }
}

=== FILE: priority.dfy ===
/**
 * `Priority`: an `int` rank ordered by `compareTo`, equal only within the
 * same runtime class, and a process-wide counter behind its no-argument
 * constructor.
 */
module Priorities {
  import opened Int32s

  /**
   * The runtime class of a priority object: the base class, or its
   * deprecated subclass `Structure.Priority`, which adds nothing but is a
   * different class for `equals`.
   */
  datatype PriorityClass = PlainPriority | StructurePriority

  datatype Priority = Priority(cls: PriorityClass, value: Int32)

  /** `DEFAULT_PRIORITY`, also what a structure reports unless it overrides `getPriority`. */
  const DefaultPriority: Priority := Priority(PlainPriority, 1000)

  /**
   * `SkriptEvent.PRIORITY`. Inside `SkriptEvent` the simple name `Priority`
   * resolves to the inherited member class `Structure.Priority`.
   */
  const SkriptEventPriority: Priority := Priority(StructurePriority, 600)

  /** What `Structure.getPriority` returns unless a structure overrides it. */
  function StructureDefault(): (p: Priority)
    ensures p == DefaultPriority
  {
    DefaultPriority
  }

  /** The `int` constructor: the argument is stored as given, range annotation unchecked. */
  function OfValue(cls: PriorityClass, v: Int32): (p: Priority)
    ensures p.value == v && p.cls == cls
  {
    Priority(cls, v)
  }

  /** `compareTo`: `Integer.compare` of the stored values; the class plays no part. */
  function CompareTo(a: Priority, b: Priority): (r: int)
    ensures -1 <= r <= 1
    ensures r < 0 <==> a.value < b.value
    ensures r == 0 <==> a.value == b.value
  {
    Compare(a.value, b.value)
  }

  /** `equals`: same runtime class and same value. */
  predicate Equals(a: Priority, b: Priority)
  {
    a.cls == b.cls && a.value == b.value
  }

  /** `hashCode`: the stored value. */
  function HashCode(p: Priority): (h: int)
    ensures h == p.value
  {
    p.value
  }

  // ---------------------------------------------------------------------
  // The shared counter behind `new Priority()`
  // ---------------------------------------------------------------------

  /** The value `iota.getAndIncrement()` hands out next. */
  datatype Iota = Iota(next: Int32)

  /** The counter before any no-argument construction. */
  const InitialIota: Iota := Iota(0)

  /** `new Priority()`: take the counter's value and advance it, wrapping at `int`'s top. */
  function Draw(c: Iota): (res: (Priority, Iota))
    ensures res.0.cls == PlainPriority
    ensures res.0.value == c.next
    ensures c.next < MaxInt32 ==> res.1.next == c.next + 1
  {
    (Priority(PlainPriority, c.next), Iota(Inc(c.next)))
  }

  /**
   * `n` no-argument constructions in a row. Without overflow the values are
   * the counter's consecutive values, so each is larger than the one before.
   */
  method DrawMany(c: Iota, n: nat) returns (ps: seq<Priority>, c': Iota)
    requires c.next + n <= MaxInt32
    ensures |ps| == n
    ensures c'.next == c.next + n
    ensures forall i :: 0 <= i < n ==> ps[i].value == c.next + i
    ensures forall i, j :: 0 <= i < j < n ==> CompareTo(ps[i], ps[j]) < 0
  {
    ps := [];
    c' := c;
    var k := 0;
    while k < n
      invariant 0 <= k <= n
      invariant |ps| == k
      invariant c'.next == c.next + k
      invariant forall i :: 0 <= i < k ==> ps[i].value == c.next + i
    {
      var d := Draw(c');
      ps := ps + [d.0];
      c' := d.1;
      k := k + 1;
    }
  }

  // ---------------------------------------------------------------------
  // Properties
  // ---------------------------------------------------------------------

  /** `compareTo` is antisymmetric and transitive: a total preorder on values. */
  lemma CompareToOrder(a: Priority, b: Priority, c: Priority)
    ensures CompareTo(a, b) == -CompareTo(b, a)
    ensures CompareTo(a, b) <= 0 && CompareTo(b, c) <= 0 ==> CompareTo(a, c) <= 0
  {
  }

  /** `equals` is an equivalence and implies `compareTo` returns 0 and equal hashes. */
  lemma EqualsConsistent(a: Priority, b: Priority, c: Priority)
    ensures Equals(a, a)
    ensures Equals(a, b) ==> Equals(b, a)
    ensures Equals(a, b) && Equals(b, c) ==> Equals(a, c)
    ensures Equals(a, b) ==> CompareTo(a, b) == 0 && HashCode(a) == HashCode(b)
    ensures Equals(a, b) <==> a == b
  {
  }

  /** The converse fails: same value, different class compares 0 yet is not equal. */
  lemma StructurePriorityNotEqual(v: Int32)
    ensures CompareTo(OfValue(StructurePriority, v), OfValue(PlainPriority, v)) == 0
    ensures !Equals(OfValue(StructurePriority, v), OfValue(PlainPriority, v))
  {
  }

  /** A `SkriptEvent` sorts before a structure with the default priority, and is not a plain 600. */
  lemma SkriptEventBeforeDefault()
    ensures CompareTo(SkriptEventPriority, StructureDefault()) < 0
    ensures !Equals(SkriptEventPriority, OfValue(PlainPriority, 600))
  {
  }

  /** The counter is not monotone across overflow: after the largest `int` comes the smallest. */
  lemma DrawWraps(c: Iota)
    requires c.next == MaxInt32
    ensures Draw(c).1.next == MinInt32
    ensures CompareTo(Draw(Draw(c).1).0, Draw(c).0) < 0
  {
  }
}

=== FILE: queue_registry.dfy ===
/**
 * `registration/SyntaxRegistryImpl`: registrations queue up in arrival
 * order; `syntaxes()` copies them into an ordered set, and
 * `closeRegistration` drains the queue into a frozen set.
 */
module QueueRegistries {
  import opened Outcomes

  datatype QueueRegistry<T> = Live(queue: seq<T>) | Frozen(items: set<T>)

  predicate Distinct<T(==,!new)>(xs: seq<T>)
  {
    forall i, j :: 0 <= i < j < |xs| ==> xs[i] != xs[j]
  }

  /** The elements of `xs` with later duplicates dropped, in order of first occurrence. */
  function Dedup<T(==,!new)>(xs: seq<T>): (r: seq<T>)
    ensures forall x :: x in r <==> x in xs
    ensures Distinct(r)
    ensures |r| <= |xs|
    decreases |xs|
  {
    if |xs| == 0 then []
    else
      var r := Dedup(xs[..|xs| - 1]);
      var last := xs[|xs| - 1];
      assert xs == xs[..|xs| - 1] + [last];
      if last in r then r else r + [last]
  }

  /** `syntaxes()` of the live registry: an immutable copy, duplicates collapsed, first arrival first. */
  function Syntaxes<T(==,!new)>(r: QueueRegistry<T>): (xs: seq<T>)
    requires r.Live?
    ensures forall x :: x in xs <==> x in r.queue
    ensures Distinct(xs)
  {
    Dedup(r.queue)
  }

  /** `syntaxes()` as a set, for both registries; the frozen one returns its fixed set. */
  function SyntaxSet<T(==,!new)>(r: QueueRegistry<T>): (s: set<T>)
    ensures r.Live? ==> forall x :: x in s <==> x in r.queue
    ensures r.Frozen? ==> s == r.items
  {
    match r
    case Live(q) => set x | x in q
    case Frozen(items) => items
  }

  /** `register(info)`: appends to the queue and returns the same registry; the frozen one refuses. */
  function Register<T>(r: QueueRegistry<T>, info: T): (res: (QueueRegistry<T>, Option<Error>))
    ensures r.Live? ==> res == (Live(r.queue + [info]), None)
    ensures r.Frozen? ==> res == (r, Some(Unsupported(RegistrationClosed)))
  {
    match r
    case Live(q) => (Live(q + [info]), None)
    case Frozen(_) => (r, Some(Unsupported(RegistrationClosed)))
  }

  /**
   * `closeRegistration()`: the live queue is drained into the new frozen
   * registry's set, leaving the live registry empty. The frozen registry
   * refuses and stays as it is.
   */
  function Close<T(==,!new)>(r: QueueRegistry<T>): (res: (QueueRegistry<T>, Result<QueueRegistry<T>>))
    ensures r.Live? ==> res.0 == Live([]) && res.1.Ok? && res.1.value.Frozen?
    ensures r.Live? ==> forall x :: x in res.1.value.items <==> x in r.queue
    ensures r.Frozen? ==> res == (r, Err(Unsupported(RegistrationClosed)))
  {
    match r
    case Live(q) => (Live([]), Ok(Frozen(set x | x in q)))
    case Frozen(_) => (r, Err(Unsupported(RegistrationClosed)))
  }

  // ---------------------------------------------------------------------
  // Properties
  // ---------------------------------------------------------------------

  /** Registering an info already present leaves the listed syntaxes unchanged. */
  lemma RegisterDuplicateInvisible<T(!new)>(r: QueueRegistry<T>, info: T)
    requires r.Live? && info in r.queue
    ensures Syntaxes(Register(r, info).0) == Syntaxes(r)
  {
    var q := r.queue + [info];
    assert q[..|q| - 1] == r.queue;
  }

  /** Registering a new info appends it to the listed syntaxes, after all earlier ones. */
  lemma RegisterNewAppends<T(!new)>(r: QueueRegistry<T>, info: T)
    requires r.Live? && info !in r.queue
    ensures Syntaxes(Register(r, info).0) == Syntaxes(r) + [info]
  {
    var q := r.queue + [info];
    assert q[..|q| - 1] == r.queue;
  }

  /** Collapsing an already collapsed list changes nothing. */
  lemma {:induction false} DedupDistinct<T(!new)>(xs: seq<T>)
    requires Distinct(xs)
    ensures Dedup(xs) == xs
    decreases |xs|
  {
    if |xs| > 0 {
      var init := xs[..|xs| - 1];
      DedupDistinct(init);
      assert xs == init + [xs[|xs| - 1]];
    }
  }

  /**
   * After closing, the live registry lists nothing and accepts more, while
   * the frozen one holds the drained infos and refuses both registering and
   * closing again.
   */
  lemma CloseDrains<T(!new)>(r: QueueRegistry<T>, info: T)
    requires r.Live?
    ensures Syntaxes(Close(r).0) == []
    ensures SyntaxSet(Close(r).1.value) == SyntaxSet(r)
    ensures Register(Close(r).1.value, info).1 == Some(Unsupported(RegistrationClosed))
    ensures SyntaxSet(Register(Close(r).1.value, info).0) == SyntaxSet(r)
    ensures Close(Close(r).1.value).1 == Err(Unsupported(RegistrationClosed))
  {
  }
}

=== FILE: root_infos.dfy ===
/**
 * The descriptors of the root package: `SyntaxInfoImpl` with its event,
 * expression and structure subclasses, and `RegistrationInfoImpl` with its
 * builder. None of these classes overrides `equals`, so two descriptors
 * are equal only when they are the same object; the handle stands for it.
 */
module RootInfos {
  import opened Outcomes
  import opened SyntaxTypes
  import SyntaxInfos

  /** What the subclass adds. An event is a structure whose entry validator is always null. */
  datatype Kind =
    | PlainKind
    | ExpressionKind(returnType: TypeTag, expressionType: ExpressionType)
    | StructureKind(entryValidator: Option<Validator>)
    | EventKind(name: string, events: seq<TypeTag>)

  datatype Info = Info(handle: nat, origin: Origin, elementType: TypeTag, patterns: seq<string>, kind: Kind)

  /** `instanceof SyntaxInfo.Structure`: structures and events. */
  predicate IsStructure(i: Info)
  {
    i.kind.StructureKind? || i.kind.EventKind?
  }

  function NewInfo(handle: nat, origin: Origin, elementType: TypeTag, patterns: seq<string>): (r: Info)
    ensures r.handle == handle && r.origin == origin && r.elementType == elementType && r.patterns == patterns
    ensures !IsStructure(r) && !r.kind.ExpressionKind?
  {
    Info(handle, origin, elementType, patterns, PlainKind)
  }

  /** `Expression.of`: the return type is stored unchecked, whatever kind of class it is. */
  function NewExpression(handle: nat, origin: Origin, elementType: TypeTag, patterns: seq<string>,
                         returnType: TypeTag, expressionType: ExpressionType): (r: Info)
    ensures r.handle == handle && r.origin == origin && r.elementType == elementType && r.patterns == patterns
    ensures r.kind.ExpressionKind? && r.kind.returnType == returnType && r.kind.expressionType == expressionType
  {
    Info(handle, origin, elementType, patterns, ExpressionKind(returnType, expressionType))
  }

  function NewStructure(handle: nat, origin: Origin, elementType: TypeTag, patterns: seq<string>,
                        entryValidator: Option<Validator>): (r: Info)
    ensures r.handle == handle && r.origin == origin && r.elementType == elementType && r.patterns == patterns
    ensures IsStructure(r) && EntryValidator(r) == entryValidator
  {
    Info(handle, origin, elementType, patterns, StructureKind(entryValidator))
  }

  /** The event constructor passes a null validator to the structure constructor and copies the event list. */
  function NewEvent(handle: nat, origin: Origin, elementType: TypeTag, patterns: seq<string>,
                    name: string, events: seq<TypeTag>): (r: Info)
    ensures r.handle == handle && r.origin == origin && r.elementType == elementType && r.patterns == patterns
    ensures IsStructure(r) && EntryValidator(r) == None
    ensures r.kind.EventKind? && r.kind.name == name && r.kind.events == events
  {
    Info(handle, origin, elementType, patterns, EventKind(name, events))
  }

  /** `entryValidator()`, declared by the structure classes only. */
  function EntryValidator(i: Info): Option<Validator>
    requires IsStructure(i)
  {
    if i.kind.StructureKind? then i.kind.entryValidator else None
  }

  /** `equals` inherited from `Object`. */
  predicate Equals(a: Info, b: Info)
  {
    a.handle == b.handle
  }

  /**
   * Unlike `registration/SyntaxInfoImpl`, the root expression descriptor
   * takes an array return type, which the other one refuses.
   */
  lemma ArrayReturnTypeAccepted(handle: nat, origin: Origin, elementType: TypeTag, patterns: seq<string>,
                                returnType: TypeTag, expressionType: ExpressionType)
    requires returnType.kind == ArrayType
    ensures NewExpression(handle, origin, elementType, patterns, returnType, expressionType).kind.returnType == returnType
    ensures SyntaxInfos.NewExpression(origin, elementType, patterns, returnType, expressionType).Err?
  {
  }

  /** Two descriptors built from the same arguments are still different objects. */
  lemma EqualsIsIdentity(h1: nat, h2: nat, origin: Origin, elementType: TypeTag, patterns: seq<string>)
    requires h1 != h2
    ensures !Equals(NewInfo(h1, origin, elementType, patterns), NewInfo(h2, origin, elementType, patterns))
    ensures Equals(NewInfo(h1, origin, elementType, patterns), NewInfo(h1, origin, elementType, patterns))
  {
  }

  // ---------------------------------------------------------------------
  // RegistrationInfoImpl
  // ---------------------------------------------------------------------

  datatype RegistrationInfo = RegistrationInfo(handle: nat, elementType: TypeTag, patterns: seq<string>)

  /** `BuilderImpl`: the element type and the patterns added so far. */
  datatype Builder = Builder(elementType: TypeTag, patterns: seq<string>)

  /** `Builder.of(type)`. */
  function NewBuilder(elementType: TypeTag): (b: Builder)
    ensures b.elementType == elementType && b.patterns == []
  {
    Builder(elementType, [])
  }

  function AddPattern(b: Builder, pattern: string): (r: Builder)
    ensures r.elementType == b.elementType
    ensures r.patterns == b.patterns + [pattern]
  {
    b.(patterns := b.patterns + [pattern])
  }

  /** The interface's `addPatterns`: `addPattern` once per pattern, in order. */
  function AddPatterns(b: Builder, patterns: seq<string>): (r: Builder)
    ensures r.elementType == b.elementType
    ensures r.patterns == b.patterns + patterns
    decreases |patterns|
  {
    if |patterns| == 0 then b
    else AddPatterns(AddPattern(b, patterns[0]), patterns[1..])
  }

  /** `build()`: a new info holding a copy of the patterns added so far. */
  function Build(b: Builder, handle: nat): (r: RegistrationInfo)
    ensures r.handle == handle && r.elementType == b.elementType && r.patterns == b.patterns
  {
    RegistrationInfo(handle, b.elementType, b.patterns)
  }

  /**
   * The builder stays usable after `build()`: patterns added later show in
   * the next build and not in the earlier one.
   */
  lemma BuildIsSnapshot(b: Builder, h1: nat, h2: nat, more: seq<string>)
    ensures Build(b, h1).patterns == b.patterns
    ensures Build(AddPatterns(b, more), h2).patterns == Build(b, h1).patterns + more
  {
  }

  lemma {:induction false} AddPatternsSplit(b: Builder, xs: seq<string>, ys: seq<string>)
    ensures AddPatterns(AddPatterns(b, xs), ys) == AddPatterns(b, xs + ys)
  {
    assert AddPatterns(AddPatterns(b, xs), ys).patterns == b.patterns + (xs + ys);
  }
}

=== FILE: root_keys.dfy ===
/**
 * The keys of the root-package `SkriptRegistry`: `Key.key(name)` makes a new
 * anonymous key object whose `toString` and `hashCode` come from the name,
 * and whose `equals` accepts only a `String` equal to the name, so no key
 * is `equals` to any key, itself included. A hash map still finds an entry
 * under the very key object it was stored with, because it compares
 * identity before calling `equals`; lookups are therefore by identity.
 */
module RootKeys {

  /** A key object; every `Key.key` call makes a new one, which the handle stands for. */
  datatype Key = Key(handle: nat, name: string)

  /** The argument of `equals`: a string, a key, or any other object. */
  datatype Value = StringValue(s: string) | KeyValue(key: Key) | OtherValue(handle: nat)

  /** The six keys the interface declares, one object each. */
  const Condition: Key := Key(0, "condition")
  const Expression: Key := Key(1, "expression")
  const Effect: Key := Key(2, "effect")
  const Event: Key := Key(3, "event")
  const Section: Key := Key(4, "section")
  const Structure: Key := Key(5, "structure")

  /** `Key.key(name)`: a new object, told apart by a handle no constant uses. */
  function NewKey(handle: nat, name: string): (k: Key)
    requires handle > 5
    ensures k.name == name
    ensures k != Condition && k != Expression && k != Effect
    ensures k != Event && k != Section && k != Structure
  {
    Key(handle, name)
  }

  /** `toString()` and `hashCode()` both come from the name; the model keeps the name. */
  function HashInput(k: Key): string
  {
    k.name
  }

  /** `equals`: only a string equal to the name. */
  predicate Equals(k: Key, o: Value)
  {
    o.StringValue? && o.s == k.name
  }

  /** `String.equals`: only another string with the same characters. */
  predicate StringEquals(s: string, o: Value)
  {
    o.StringValue? && o.s == s
  }

  /**
   * A hash-map lookup with `probe` finds an entry stored under `stored`
   * when the hashes agree and the keys are the same object or the probe's
   * `equals` accepts the stored key.
   */
  predicate Finds(probe: Key, stored: Key)
  {
    HashInput(probe) == HashInput(stored) && (probe == stored || Equals(probe, KeyValue(stored)))
  }

  // ---------------------------------------------------------------------
  // Properties
  // ---------------------------------------------------------------------

  /**
   * `equals` is not reflexive and not symmetric: a key is not equal to
   * itself, and it equals its name while the name does not equal it.
   */
  lemma EqualsNeverAKey(k: Key, other: Key)
    ensures !Equals(k, KeyValue(k)) && !Equals(k, KeyValue(other))
    ensures Equals(k, StringValue(k.name))
    ensures !StringEquals(k.name, KeyValue(k))
  {
  }

  /** A lookup finds exactly the entry stored under the same key object. */
  lemma LookupIsIdentity(probe: Key, stored: Key)
    ensures Finds(probe, stored) <==> probe == stored
  {
  }

  /** A second `Key.key("condition")` does not reach the entry of `CONDITION`. */
  lemma FreshKeyMissesCondition(handle: nat)
    requires handle > 5
    ensures !Finds(NewKey(handle, "condition"), Condition)
    ensures Finds(Condition, Condition)
  {
  }

  /** The six declared keys have six different names. */
  lemma DeclaredKeysDistinct()
    ensures |{Condition.name, Expression.name, Effect.name, Event.name, Section.name, Structure.name}| == 6
  {
  }
}

=== FILE: root_registry.dfy ===
/**
 * The root-package `SkriptRegistryImpl` and `SyntaxRegistryImpl`: one set
 * of registration infos per key object, created on first use, with no
 * parent keys and no closing. Keys are told apart by identity, the lookup
 * `RootKeys.LookupIsIdentity` derives.
 */
module RootRegistries {
  import RootKeys

  /** A per-key `SyntaxRegistryImpl`: a hash set, so adding is idempotent and unordered. */
  type SyntaxRegistry<T> = set<T>

  /** `SyntaxRegistryImpl.register(info)`; the registry itself is returned for chaining. */
  function RegisterInfo<T>(r: SyntaxRegistry<T>, info: T): (r': SyntaxRegistry<T>)
    ensures info in r' && r <= r'
    ensures r' - r <= {info}
  {
    r + {info}
  }

  datatype Registry<T> = Registry(registries: map<RootKeys.Key, SyntaxRegistry<T>>)

  function EmptyRegistry<T>(): (g: Registry<T>)
    ensures g.registries == map[]
  {
    Registry(map[])
  }

  /** `registry(key)`: `computeIfAbsent` stores an empty registry for a key object seen the first time. */
  function RegistryOf<T>(g: Registry<T>, k: RootKeys.Key): (res: (Registry<T>, SyntaxRegistry<T>))
    ensures k in res.0.registries && res.0.registries[k] == res.1
    ensures k in g.registries ==> res == (g, g.registries[k])
    ensures k !in g.registries ==> res.1 == {} && res.0.registries == g.registries[k := {}]
  {
    if k in g.registries then (g, g.registries[k])
    else (Registry(g.registries[k := {}]), {})
  }

  /**
   * `syntaxes(key)`: an unmodifiable view of the key's registry; asking
   * about a new key creates its registry. The view is live, so it is
   * modelled as the key it reads through.
   */
  datatype View = View(key: RootKeys.Key)

  function Syntaxes<T>(g: Registry<T>, k: RootKeys.Key): (res: (Registry<T>, View))
    ensures res.1.key == k && k in res.0.registries
    ensures forall n :: n in g.registries ==> n in res.0.registries && res.0.registries[n] == g.registries[n]
    ensures Read(res.0, res.1) == (if k in g.registries then g.registries[k] else {})
  {
    (RegistryOf(g, k).0, View(k))
  }

  /** What a view shows when it is read. */
  function Read<T>(g: Registry<T>, v: View): set<T>
  {
    if v.key in g.registries then g.registries[v.key] else {}
  }

  /** `register(key, info)`: the info joins that key's registry and no other. */
  function Register<T>(g: Registry<T>, k: RootKeys.Key, info: T): (res: (Registry<T>, SyntaxRegistry<T>))
    ensures k in res.0.registries && res.0.registries[k] == res.1
    ensures var before := if k in g.registries then g.registries[k] else {};
      info in res.1 && before <= res.1 && res.1 - before <= {info}
    ensures forall n :: n in g.registries && n != k ==> n in res.0.registries && res.0.registries[n] == g.registries[n]
    ensures res.0.registries.Keys == g.registries.Keys + {k}
  {
    var (g1, r) := RegistryOf(g, k);
    var r' := RegisterInfo(r, info);
    (Registry(g1.registries[k := r']), r')
  }

  // ---------------------------------------------------------------------
  // Properties
  // ---------------------------------------------------------------------

  /** A view taken before a registration shows the registered info afterwards. */
  lemma ViewIsLive<T>(g: Registry<T>, k: RootKeys.Key, info: T)
    ensures var (g1, v) := Syntaxes(g, k);
      info in Read(Register(g1, k, info).0, v)
  {
  }

  /** Keys are flat: registering a condition leaves the effect key's infos alone. */
  lemma NoPropagation<T>(g: Registry<T>, info: T)
    ensures Read(Register(g, RootKeys.Condition, info).0, View(RootKeys.Effect)) == Read(g, View(RootKeys.Effect))
  {
  }

  /** Two key objects with one name have separate registries. */
  lemma SameNameSeparateRegistries<T>(g: Registry<T>, handle: nat, info: T)
    requires handle > 5
    ensures var k := RootKeys.NewKey(handle, "condition");
      Read(Register(g, k, info).0, View(RootKeys.Condition)) == Read(g, View(RootKeys.Condition))
  {
  }

  /** A second registration of the same info changes nothing. */
  lemma RegisterIdempotent<T>(g: Registry<T>, k: RootKeys.Key, info: T)
    ensures Register(Register(g, k, info).0, k, info).0 == Register(g, k, info).0
  {
  }

  /** `register` in one step: the key's current infos plus the new one. */
  lemma RegisterUpdates<T>(g: Registry<T>, k: RootKeys.Key, info: T)
    ensures Register(g, k, info).0 == Registry(g.registries[k := Read(g, View(k)) + {info}])
  {
  }

  /** Updates of two different keys of a map can be made in either order. */
  lemma UpdatesCommute<T>(m: map<RootKeys.Key, SyntaxRegistry<T>>, k: RootKeys.Key, x: SyntaxRegistry<T>,
                          j: RootKeys.Key, y: SyntaxRegistry<T>)
    requires k != j
    ensures m[k := x][j := y] == m[j := y][k := x]
  {
  }

  /** Registration order does not show: the result is the same either way. */
  lemma RegisterCommutes<T>(g: Registry<T>, k: RootKeys.Key, j: RootKeys.Key, a: T, b: T)
    ensures Register(Register(g, k, a).0, j, b).0 == Register(Register(g, j, b).0, k, a).0
  {
    var m := g.registries;
    var gk := Register(g, k, a).0;
    var gj := Register(g, j, b).0;
    RegisterUpdates(g, k, a);
    RegisterUpdates(g, j, b);
    RegisterUpdates(gk, j, b);
    RegisterUpdates(gj, k, a);
    if k == j {
      assert Read(g, View(k)) + {a} + {b} == Read(g, View(k)) + {b} + {a};
    } else {
      assert Read(gk, View(j)) == Read(g, View(j));
      assert Read(gj, View(k)) == Read(g, View(k));
      UpdatesCommute(m, k, Read(g, View(k)) + {a}, j, Read(g, View(j)) + {b});
    }
  }

  /** Asking about a key never changes what any key holds. */
  lemma SyntaxesKeepsContents<T>(g: Registry<T>, k: RootKeys.Key, j: RootKeys.Key)
    ensures Read(Syntaxes(g, k).0, View(j)) == Read(g, View(j))
  {
  }
}

=== FILE: syntax_infos.dfy ===
/**
 * The immutable syntax descriptors of `registration/SyntaxInfoImpl`: a plain
 * info, an expression info and a structure info, with their `equals` rules,
 * the return-type check and the id handed out lazily by `priority()`.
 */
module SyntaxInfos {
  import opened Outcomes
  import opened Int32s
  import opened SyntaxTypes
  import PackedPriorities

  /** What distinguishes the three descriptor classes. */
  datatype Payload =
    | PlainInfo
    | ExpressionInfo(returnType: TypeTag, expressionType: ExpressionType)
    | StructureInfo(entryValidator: Option<Validator>)

  datatype SyntaxInfo = SyntaxInfo(
    origin: Origin,
    elementType: TypeTag,
    patterns: seq<string>,
    payload: Payload)

  const ReturnTypeMessage: string := "returnType must be a normal type"

  /** The plain constructor; the pattern list is copied, which a value does implicitly. */
  function NewInfo(origin: Origin, elementType: TypeTag, patterns: seq<string>): (r: SyntaxInfo)
    ensures r.origin == origin && r.elementType == elementType && r.patterns == patterns
    ensures r.payload.PlainInfo?
  {
    SyntaxInfo(origin, elementType, patterns, PlainInfo)
  }

  /** The expression constructor: annotation, array and primitive return types are refused. */
  function NewExpression(
    origin: Origin, elementType: TypeTag, patterns: seq<string>,
    returnType: TypeTag, expressionType: ExpressionType): (r: Result<SyntaxInfo>)
    ensures r.Err? <==> returnType.kind != NormalType
    ensures r.Err? ==> r.error == IllegalArgument(ReturnTypeMessage)
    ensures r.Ok? ==> r.value == SyntaxInfo(origin, elementType, patterns,
                                            ExpressionInfo(returnType, expressionType))
  {
    if returnType.kind != NormalType then Err(IllegalArgument(ReturnTypeMessage))
    else Ok(SyntaxInfo(origin, elementType, patterns, ExpressionInfo(returnType, expressionType)))
  }

  function NewStructure(
    origin: Origin, elementType: TypeTag, patterns: seq<string>,
    entryValidator: Option<Validator>): (r: SyntaxInfo)
    ensures r.origin == origin && r.elementType == elementType && r.patterns == patterns
    ensures r.payload == StructureInfo(entryValidator)
  {
    SyntaxInfo(origin, elementType, patterns, StructureInfo(entryValidator))
  }

  /** The fields every `equals` starts with. */
  predicate SameBase(a: SyntaxInfo, b: SyntaxInfo)
  {
    a.origin == b.origin && a.elementType == b.elementType && a.patterns == b.patterns
  }

  /**
   * `a.equals(b)`, dispatched on the class of `a`. A plain info accepts any
   * descriptor; an expression info only an expression, and a structure info
   * only a structure, each comparing its own extra fields as well.
   */
  predicate Equals(a: SyntaxInfo, b: SyntaxInfo)
  {
    match a.payload
    case PlainInfo => SameBase(a, b)
    case ExpressionInfo(rt, et) =>
      b.payload.ExpressionInfo? && SameBase(a, b)
      && rt == b.payload.returnType && et == b.payload.expressionType
    case StructureInfo(v) =>
      b.payload.StructureInfo? && SameBase(a, b) && v == b.payload.entryValidator
  }

  /** The values `hashCode` feeds to `Objects.hashCode`, per class. */
  datatype HashInputs =
    | BaseInputs(origin: Origin, elementType: TypeTag, patterns: seq<string>)
    | ExpressionInputs(origin: Origin, elementType: TypeTag, patterns: seq<string>,
                       returnType: TypeTag, expressionType: ExpressionType)
    | StructureInputs(origin: Origin, elementType: TypeTag, patterns: seq<string>,
                      entryValidator: Option<Validator>)

  function HashOf(a: SyntaxInfo): HashInputs
  {
    match a.payload
    case PlainInfo => BaseInputs(a.origin, a.elementType, a.patterns)
    case ExpressionInfo(rt, et) => ExpressionInputs(a.origin, a.elementType, a.patterns, rt, et)
    case StructureInfo(v) => StructureInputs(a.origin, a.elementType, a.patterns, v)
  }

  /** Between two descriptors of one class, `equals` is an equivalence and agrees with `hashCode`. */
  lemma EqualsWithinClass(a: SyntaxInfo, b: SyntaxInfo, c: SyntaxInfo)
    requires a.payload.PlainInfo? == b.payload.PlainInfo? == c.payload.PlainInfo?
    ensures Equals(a, a)
    ensures Equals(a, b) ==> Equals(b, a)
    ensures Equals(a, b) && Equals(b, c) ==> Equals(a, c)
    ensures Equals(a, b) && a.payload.PlainInfo? == b.payload.PlainInfo? ==> HashOf(a) == HashOf(b)
    ensures Equals(a, b) && !a.payload.PlainInfo? ==> a == b
  {
  }

  /**
   * Across classes `equals` is not symmetric: a plain info equals a structure
   * info with the same base fields, but not the other way round, and their
   * hash inputs differ.
   */
  lemma PlainStructureAsymmetry(p: SyntaxInfo, s: SyntaxInfo)
    requires p.payload.PlainInfo? && s.payload.StructureInfo? && SameBase(p, s)
    ensures Equals(p, s)
    ensures !Equals(s, p)
    ensures HashOf(p) != HashOf(s)
  {
  }

  /** A structure info equals another exactly when the base fields and the validators agree. */
  lemma StructureEqualsNullSafe(a: SyntaxInfo, b: SyntaxInfo)
    requires a.payload.StructureInfo? && b.payload.StructureInfo?
    ensures Equals(a, b) <==> SameBase(a, b) && a.payload.entryValidator == b.payload.entryValidator
    ensures SameBase(a, b) && a.payload.entryValidator.None? && b.payload.entryValidator.None? ==> Equals(a, b)
  {
  }

  // ---------------------------------------------------------------------
  // `priority()`: an id drawn from `IOTA` on the first call
  // ---------------------------------------------------------------------

  /** The value of the `id` field before `priority()` has assigned one. */
  const Unidentified: Int32 := -1

  /**
   * The `id` fields of a set of descriptor objects, indexed by object, and
   * the shared `IOTA` counter.
   */
  datatype IdTable = IdTable(ids: seq<Int32>, iota: Int32)

  /** A table of `n` freshly constructed descriptors and an unused counter. */
  function InitialTable(n: nat): (t: IdTable)
    ensures |t.ids| == n && t.iota == 0
    ensures forall i :: 0 <= i < n ==> t.ids[i] == Unidentified
  {
    IdTable(seq(n, i => Unidentified), 0)
  }

  /**
   * `priority()` on object `i`: if its id is still the sentinel it takes the
   * counter's value and the counter advances; the id is returned.
   */
  function Priority(t: IdTable, i: nat): (res: (Int32, IdTable))
    requires i < |t.ids|
    ensures |res.1.ids| == |t.ids|
    ensures t.ids[i] != Unidentified ==> res == (t.ids[i], t)
    ensures t.ids[i] == Unidentified ==>
      res.0 == t.iota && res.1 == IdTable(t.ids[i := t.iota], Inc(t.iota))
  {
    if t.ids[i] == Unidentified then (t.iota, IdTable(t.ids[i := t.iota], Inc(t.iota)))
    else (t.ids[i], t)
  }

  /**
   * Assigned ids are below the counter, pairwise distinct, and the counter
   * has not reached the top of `int`.
   */
  ghost predicate Consistent(t: IdTable)
  {
    0 <= t.iota
    && (forall i :: 0 <= i < |t.ids| ==> t.ids[i] == Unidentified || 0 <= t.ids[i] < t.iota)
    && (forall i, j :: 0 <= i < j < |t.ids| && t.ids[i] != Unidentified ==> t.ids[i] != t.ids[j])
  }

  /** A second call returns the same id and changes nothing, as long as ids are non-negative. */
  lemma PriorityStable(t: IdTable, i: nat)
    requires i < |t.ids| && Consistent(t) && t.iota < MaxInt32
    ensures Priority(t, i).0 != Unidentified
    ensures Priority(Priority(t, i).1, i) == (Priority(t, i).0, Priority(t, i).1)
  {
  }

  /** Below the top of `int`, a call keeps ids distinct and below the counter. */
  lemma PriorityConsistent(t: IdTable, i: nat)
    requires i < |t.ids| && Consistent(t) && t.iota < MaxInt32
    ensures Consistent(Priority(t, i).1)
  {
  }

  /**
   * Ids follow the order of first calls, not of construction: whichever of
   * two unidentified objects is asked first gets the smaller id.
   */
  lemma FirstCallOrder(t: IdTable, i: nat, j: nat)
    requires i < |t.ids| && j < |t.ids| && i != j
    requires t.ids[i] == Unidentified && t.ids[j] == Unidentified
    requires t.iota < MaxInt32
    ensures Priority(t, i).0 < Priority(Priority(t, i).1, j).0
  {
  }

  /**
   * After `2^32 - 1` draws the counter hands out `-1` itself; that id reads
   * as unassigned, so the next call draws again and the id changes.
   */
  lemma SentinelRedraw(t: IdTable, i: nat)
    requires i < |t.ids| && t.ids[i] == Unidentified && t.iota == Unidentified
    ensures Priority(t, i).0 == Unidentified
    ensures Priority(Priority(t, i).1, i).0 == 0
  {
  }

  /**
   * A run of `priority()` calls on the given objects. Each call returns the
   * id the object ends up with, and ids stay distinct.
   */
  method PriorityCalls(t: IdTable, calls: seq<nat>) returns (results: seq<Int32>, t': IdTable)
    requires Consistent(t) && t.iota + |calls| < MaxInt32
    requires forall k :: 0 <= k < |calls| ==> calls[k] < |t.ids|
    ensures Consistent(t') && |t'.ids| == |t.ids|
    ensures |results| == |calls|
    ensures forall k :: 0 <= k < |calls| ==> results[k] == t'.ids[calls[k]]
    ensures forall i :: 0 <= i < |t.ids| && t.ids[i] != Unidentified ==> t'.ids[i] == t.ids[i]
    ensures t.iota <= t'.iota <= t.iota + |calls|
  {
    results := [];
    t' := t;
    var k := 0;
    while k < |calls|
      invariant 0 <= k <= |calls|
      invariant Consistent(t') && |t'.ids| == |t.ids|
      invariant t.iota <= t'.iota <= t.iota + k
      invariant |results| == k
      invariant forall m :: 0 <= m < k ==> results[m] == t'.ids[calls[m]]
      invariant forall m :: 0 <= m < k ==> t'.ids[calls[m]] != Unidentified
      invariant forall i :: 0 <= i < |t.ids| && t.ids[i] != Unidentified ==> t'.ids[i] == t.ids[i]
    {
      PriorityConsistent(t', calls[k]);
      var r := Priority(t', calls[k]);
      results := results + [r.0];
      t' := r.1;
      k := k + 1;
    }
  }

  /** `ExpressionImpl.priority()`: the lazily drawn id packed with the expression type's ordinal. */
  function ExpressionPriority(t: IdTable, i: nat, expressionType: ExpressionType): (res: (Int32, IdTable))
    requires i < |t.ids|
    ensures res.1 == Priority(t, i).1
    ensures 0 <= Priority(t, i).0 < PackedPriorities.TwoTo24 && expressionType.ordinal < 128 ==>
      res.0 == expressionType.ordinal * PackedPriorities.TwoTo24 + Priority(t, i).0
  {
    var r := Priority(t, i);
    (PackedPriorities.Packed(r.0, expressionType.ordinal), r.1)
  }
}

=== FILE: syntax_register.dfy ===
/**
 * `SyntaxRegisterImpl`: syntax infos kept in a map ordered by their integer
 * id, and the frozen register `closeRegistration` returns.
 */
module SyntaxRegisters {
  import opened Outcomes

  /**
   * A live register maps ids to infos; a frozen one holds the list it was
   * closed with.
   */
  datatype Register<T> = Live(entries: map<int, T>) | Frozen(frozen: seq<T>)

  const DuplicateIdMessage: string := "Duplicate id"

  /** A new, empty live register. */
  function Empty<T>(): (r: Register<T>)
    ensures r.Live? && r.entries == map[]
  {
    Live(map[])
  }

  lemma MinExists(s: set<int>)
    requires s != {}
    ensures exists m :: m in s && forall x :: x in s ==> m <= x
    decreases |s|
  {
    assert exists y :: y in s by {
      if forall y :: y !in s {
        assert false;
      }
    }
    var y :| y in s;
    if s != {y} {
      var t := s - {y};
      assert t != {} by {
        if t == {} {
          assert false;
        }
      }
      MinExists(t);
      var m :| m in t && forall x :: x in t ==> m <= x;
      var w := if y < m then y else m;
      forall x | x in s
        ensures w <= x
      {
        if x != y {
          assert x in t;
        }
      }
      assert w in s;
    } else {
      assert forall x :: x in s ==> y <= x;
    }
  }

  function Min(s: set<int>): (m: int)
    requires s != {}
    ensures m in s && forall x :: x in s ==> m <= x
  {
    MinExists(s);
    var m :| m in s && forall x :: x in s ==> m <= x;
    m
  }

  /** The ids of a set, smallest first. */
  function Ascending(s: set<int>): (ks: seq<int>)
    ensures |ks| == |s|
    ensures forall k :: k in s <==> k in ks
    ensures forall i, j :: 0 <= i < j < |ks| ==> ks[i] < ks[j]
    decreases |s|
  {
    if s == {} then []
    else
      var m := Min(s);
      var rest := Ascending(s - {m});
      PrependMin(s, m, rest);
      [m] + rest
  }

  /** The smallest element in front of the rest, ascending, lists the whole set ascending. */
  lemma PrependMin(s: set<int>, m: int, rest: seq<int>)
    requires m in s && forall x :: x in s ==> m <= x
    requires |rest| == |s - {m}|
    requires forall k :: k in s - {m} <==> k in rest
    requires forall i, j :: 0 <= i < j < |rest| ==> rest[i] < rest[j]
    ensures |[m] + rest| == |s|
    ensures forall k :: k in s <==> k in [m] + rest
    ensures forall i, j :: 0 <= i < j < |[m] + rest| ==> ([m] + rest)[i] < ([m] + rest)[j]
  {
    var ks := [m] + rest;
    forall i | 0 <= i < |rest|
      ensures m < rest[i]
    {
      assert rest[i] in rest;
      assert rest[i] in s - {m};
    }
    forall i, j | 0 <= i < j < |ks|
      ensures ks[i] < ks[j]
    {
      if i > 0 {
        assert ks[i] == rest[i - 1] && ks[j] == rest[j - 1];
      } else {
        assert ks[j] == rest[j - 1];
      }
    }
  }

  /** The ids present in a register, ascending; a frozen register has none left to look up. */
  function Ids<T>(r: Register<T>): (ks: seq<int>)
  {
    match r
    case Live(entries) => Ascending(entries.Keys)
    case Frozen(_) => []
  }

  /** `syntaxes()`: a copy of the infos in ascending id order, or the frozen list. */
  function Syntaxes<T>(r: Register<T>): (xs: seq<T>)
    ensures r.Live? ==> |xs| == |r.entries|
    ensures r.Live? ==> forall i :: 0 <= i < |xs| ==> xs[i] == r.entries[Ascending(r.entries.Keys)[i]]
    ensures r.Frozen? ==> xs == r.frozen
  {
    match r
    case Live(entries) =>
      var ks := Ascending(entries.Keys);
      seq(|ks|, i requires 0 <= i < |ks| => entries[ks[i]])
    case Frozen(xs) => xs
  }

  /**
   * `add(info)`: `put` runs before the duplicate check, so an info whose id
   * is taken replaces the old one and then `IllegalStateException` is
   * thrown. A frozen register refuses with `UnsupportedOperationException`.
   */
  function Add<T>(r: Register<T>, id: int, info: T): (res: (Register<T>, Option<Error>))
    ensures r.Live? ==> res.0 == Live(r.entries[id := info])
    ensures r.Live? ==> (res.1.Some? <==> id in r.entries)
    ensures r.Live? && id in r.entries ==> res.1 == Some(IllegalState(DuplicateIdMessage))
    ensures r.Frozen? ==> res == (r, Some(Unsupported(RegistrationClosed)))
  {
    match r
    case Live(entries) =>
      (Live(entries[id := info]), if id in entries then Some(IllegalState(DuplicateIdMessage)) else None)
    case Frozen(_) => (r, Some(Unsupported(RegistrationClosed)))
  }

  /**
   * `closeRegistration()`: the live register hands back a new frozen
   * register holding its current list and is itself left as it was; a
   * frozen register refuses.
   */
  function Close<T>(r: Register<T>): (res: Result<Register<T>>)
    ensures r.Live? ==> res == Ok(Frozen(Syntaxes(r)))
    ensures r.Frozen? ==> res == Err(Unsupported(RegistrationClosed))
  {
    match r
    case Live(_) => Ok(Frozen(Syntaxes(r)))
    case Frozen(_) => Err(Unsupported(RegistrationClosed))
  }

  // ---------------------------------------------------------------------
  // Properties
  // ---------------------------------------------------------------------

  /** The listed infos are exactly the register's entries, each once, by ascending id. */
  lemma SyntaxesAscending<T>(r: Register<T>)
    requires r.Live?
    ensures var ks := Ascending(r.entries.Keys);
      && (forall i, j :: 0 <= i < j < |ks| ==> ks[i] < ks[j])
      && (forall id :: id in r.entries <==> id in ks)
      && (forall i :: 0 <= i < |ks| ==> Syntaxes(r)[i] == r.entries[ks[i]])
  {
  }

  /** Adding a fresh id succeeds, grows the list by one and leaves every other entry alone. */
  lemma AddFresh<T>(r: Register<T>, id: int, info: T)
    requires r.Live? && id !in r.entries
    ensures Add(r, id, info).1.None?
    ensures |Syntaxes(Add(r, id, info).0)| == |Syntaxes(r)| + 1
    ensures info in Syntaxes(Add(r, id, info).0)
    ensures forall k :: k in r.entries ==>
              && k in Add(r, id, info).0.entries
              && Add(r, id, info).0.entries[k] == r.entries[k]
  {
    var r' := Add(r, id, info).0;
    assert r'.entries.Keys == r.entries.Keys + {id};
    var ks := Ascending(r'.entries.Keys);
    assert id in ks;
    var i :| 0 <= i < |ks| && ks[i] == id;
    assert Syntaxes(r')[i] == info;
  }

  /** Adding a taken id fails, yet the new info has already replaced the old one. */
  lemma AddDuplicateOverwrites<T>(r: Register<T>, id: int, info: T)
    requires r.Live? && id in r.entries
    ensures Add(r, id, info).1 == Some(IllegalState(DuplicateIdMessage))
    ensures Add(r, id, info).0.entries[id] == info
    ensures |Syntaxes(Add(r, id, info).0)| == |Syntaxes(r)|
  {
    assert Add(r, id, info).0.entries.Keys == r.entries.Keys;
  }

  /**
   * A list taken earlier is a value: a later add does not change it, while
   * the register's next list does include the new info.
   */
  lemma SyntaxesIsCopy<T>(r: Register<T>, id: int, info: T)
    requires r.Live? && id !in r.entries
    requires info !in r.entries.Values
    ensures var before := Syntaxes(r);
      var after := Syntaxes(Add(r, id, info).0);
      && |after| == |before| + 1
      && info !in before
      && info in after
  {
    AddFresh(r, id, info);
    var before := Syntaxes(r);
    var ks := Ascending(r.entries.Keys);
    forall i | 0 <= i < |before|
      ensures before[i] != info
    {
      assert ks[i] in r.entries;
      assert r.entries[ks[i]] in r.entries.Values;
    }
  }

  /**
   * Closing yields a register listing exactly the live list at that moment;
   * afterwards it refuses adds and a second close, and its list never changes.
   */
  lemma CloseFreezes<T>(r: Register<T>, id: int, info: T)
    requires r.Live?
    ensures Close(r).Ok? && Syntaxes(Close(r).value) == Syntaxes(r)
    ensures Add(Close(r).value, id, info) == (Close(r).value, Some(Unsupported(RegistrationClosed)))
    ensures Close(Close(r).value) == Err(Unsupported(RegistrationClosed))
    ensures Syntaxes(Add(Close(r).value, id, info).0) == Syntaxes(r)
  {
  }
}

=== FILE: syntax_types.dfy ===
/**
 * The abstract Java values descriptors are built from: classes (only their
 * identity and the reflective kind checks matter), origins, expression
 * types and entry validators.
 */
module SyntaxTypes {
  import opened Int32s

  /** What `Class.isAnnotation`, `isArray` and `isPrimitive` would report. */
  datatype TypeKind = NormalType | AnnotationType | ArrayType | PrimitiveType

  /**
   * A `Class` object. There is one per class, so `==` and `equals` agree and
   * both are equality of tags.
   */
  datatype TypeTag = TypeTag(id: nat, kind: TypeKind)

  /**
   * A `SyntaxOrigin`. `SyntaxOrigin.UNKNOWN` is one shared object; a
   * `ch.njol.skript.lang.BukkitOrigin` compares by class and name; any
   * other origin object, the plugin origins of
   * `bukkit/registration/BukkitOrigin` included, has no `equals` of its own
   * and compares by identity, which the handle stands for.
   */
  datatype Origin =
    | UnknownOrigin
    | BukkitOrigin(name: string)
    | OtherOrigin(handle: nat, name: string)

  /** An enum ordinal: a non-negative `int`. */
  type Ordinal = x: int | 0 <= x <= MaxInt32

  /** An `ExpressionType` constant, known by its ordinal. */
  datatype ExpressionType = ExpressionType(ordinal: Ordinal)

  /** An `EntryValidator` object; validators compare by identity. */
  datatype Validator = Validator(handle: nat)

  /** A `Supplier` of element instances, compared by identity. */
  datatype Supplier = Supplier(handle: nat)
}
